=== FILE: README.md ===
# A verified model of the locofy-test UI-tree editor core

locofy-test is a visual editor for a tree of UI nodes. A node is a Div,
Input, Image or Button with an id, geometry, optional style properties and
children. The editor shows the tree, draws it on a canvas, and lets the
user edit the selected node's CSS in an inspector. This project models the
logic underneath those views and proves properties of it in Dafny:

- **Tree operations** (`src/lib/nodes.ts`): the pre-order `traverse`, and
  `findNodeById` built on it. Also `updateNodeById`, the component labels
  `C1`, `C2`, … for nodes with children, and `nodeToStyle`, the CSS the
  canvas draws a node with. Modules `Tree`, `Nodes`, `ComponentLabels` and
  `NodeStyle`.
- **The app's style-change updater** (`src/App.tsx`): it deletes the old
  property, writes the new one, and applies the result to the one node
  with the id. Module `StyleUpdate`.
- **The CSS inspector** (`src/components/CssInspector/index.tsx`): the
  default nine-property rule built for a newly selected node, and the
  handlers for changing a value, renaming, toggling, adding and removing a
  property. Each handler is a pure transition from the inspector's state to
  the new rule list and the change it reports to the app. Modules
  `CssRules` and `CssInspector`.
- **The older inspector** (`src/components/CssInspector.tsx`): its
  handlers, related to the current ones where they agree. Module
  `LegacyCssInspector`.
- **The autocomplete text field** (`src/components/PropertyInputRow/Input/index.tsx`).
  Each browser event is a transition that also yields the calls the field
  makes to its parent. The React effects re-run when their dependencies
  change. Module `AutocompleteInput`.
- **The sample tree** (`src/data/mockNodes.ts`). Module `MockNodes`.

A few things become explicit values in the model:

- JavaScript semantics: truthiness, `||`, `??`, `String(...)`, `trim`,
  `includes`, and the difference between a deleted key and a key holding
  `undefined`.
- Node properties: they form a map from key to value. The app writes any
  key with a string, including geometry keys such as `width`.
- Calls the model cannot see: `CSS.supports`, `toLowerCase` and
  `Date.now()` become parameters.

`Common` holds the shared helpers: `Option`, first-match search, trimming,
substring search and decimal printing.

## Model

| member | source | states |
|---|---|---|
| Nodes.TraverseReplaysVisits | src/lib/nodes.ts:4-15 | Traversing a forest with any visitor equals folding that visitor over one fixed list of (node, parent id) visits. |
| Nodes.VisitsFollowPreOrder | src/lib/nodes.ts:9-13 | The visits come in depth-first pre-order: the i-th visit is the i-th node of the pre-order (a node before its children, siblings in order). |
| Nodes.VisitsLinkParents | src/lib/nodes.ts:10-12 | Every visit carries the id of the node whose children list it came from. At the top level it carries the caller's parent id. |
| Nodes.VisitsComplete | src/lib/nodes.ts:9-13 | Every root is visited, and every child of a visited node is visited with that node as its parent. |
| Nodes.FindIsLastInPreOrder | src/lib/nodes.ts:17-23 | findNodeById returns the LAST node in pre-order carrying the id, since every match overwrites the result. |
| Nodes.FindFound | src/lib/nodes.ts:17-23 | A node is found exactly when the id occurs anywhere in the forest. The node found carries the id and belongs to the forest. |
| Nodes.FindEveryNode | src/lib/nodes.ts:17-23 | With unique ids, every node of the forest is found by its own id. |
| Nodes.FindAppend | src/lib/nodes.ts:17-23 | In two forests side by side, a match in the second wins over one in the first. |
| Nodes.UpdateNodeById | src/lib/nodes.ts:25-39 | The length is kept. A root with the id becomes the updater's result and its subtree is not searched. Any other root keeps its id, kind, properties and number of children. |
| Nodes.UpdateMissingIsIdentity | src/lib/nodes.ts:30-38 | When no node has the id, the forest comes back unchanged. |
| Nodes.FindAfterUpdate | src/lib/nodes.ts:30-38 | With unique ids: when the updater keeps the id and does not put it into the children, finding the id afterwards yields the updater applied to the old node. |
| Nodes.UpdateKeepsOtherNodes | src/lib/nodes.ts:30-38 | With unique ids, any other node outside the updated subtree is still found, with the same id, kind, properties and number of children. |
| Nodes.UpdateTracksPreOrder | src/lib/nodes.ts:30-38 | For an updater that keeps the id and children, the new pre-order matches the old one position by position. A node with the id becomes the updater's result. Every other node keeps its id, kind, properties and number of children. |
| Nodes.FindAfterPropertyUpdate | src/lib/nodes.ts:17-38 | After an update that keeps the id and children, exactly the same ids are found as before, each as the corresponding node. |
| Nodes.PropertyUpdateKeepsIds | src/lib/nodes.ts:30-38 | Such an update keeps the set of ids and keeps them unique. |
| ComponentLabels.LabelInjective | src/lib/nodes.ts:50 | Different counters give different labels. |
| ComponentLabels.CollectIsAssignInOrder | src/lib/nodes.ts:41-61 | The recursive collection equals numbering the nodes that have children in pre-order, from the counter's start. |
| ComponentLabels.LabelKeys | src/lib/nodes.ts:41-61 | An id gets a label exactly when some node with that id has children, at any depth. |
| ComponentLabels.RootsAreLabelled | src/lib/nodes.ts:47-50 | Every root with children is labelled. |
| ComponentLabels.LabelValues | src/lib/nodes.ts:43-53 | An id's label is C followed by 1 plus the LAST position of that id among the nodes with children in pre-order. A later duplicate overwrites an earlier one. |
| ComponentLabels.LabelsDistinctAndInRange | src/lib/nodes.ts:41-61 | Every label is C1 … Cn, n being the number of nodes with children, and different ids get different labels. |
| ComponentLabels.LabelsOfUniqueIds | src/lib/nodes.ts:41-61 | With unique ids, the j-th node with children in pre-order gets C(j+1), and there are exactly as many labels as such nodes. |
| NodeStyle.NodeToStyle | src/lib/nodes.ts:63-96 | Position is absolute and box-sizing is border-box. Geometry, display, background, color and border come from the node. A text Div is centred, with display defaulting to flex. The radius is 8 for everything but Input. The padding is 8 for Div only. |
| NodeStyle.StyleReadsOnlyInputs | src/lib/nodes.ts:63-96 | The style depends only on the node's kind and its x, y, width, height, display, background, color, border and text. |
| NodeStyle.StyleIgnoresOtherProperties | src/lib/nodes.ts:63-96 | Writing or deleting any other property leaves the style unchanged. |
| StyleUpdate.Rewrite | src/App.tsx:46-63 | The id, kind and children are kept. A truthy new key reads back the new value. A truthy old key whose value is not undefined is gone, unless it is also the new key. An old key holding undefined or absent reads as before. Every key that is neither written nor deleted reads as before, including an empty-string key, which both guards skip as falsy. |
| StyleUpdate.RewriteRemoval | src/App.tsx:48-59 | With no new key the rewrite is a plain deletion of the old key, or nothing when there is nothing to delete. |
| StyleUpdate.RewriteSameKey | src/App.tsx:48-59 | Replacing a key by itself writes the new value in place. |
| StyleUpdate.RewriteIdempotent | src/App.tsx:46-63 | Applying the same rewrite twice gives the same node as applying it once. |
| StyleUpdate.WriteThenRemove | src/App.tsx:48-59 | Writing a key the node lacked and then removing it gives back the original node. |
| StyleUpdate.UpdaterKeepsIdAndChildren | src/App.tsx:46-63 | The updater never changes a node's id or children. |
| StyleUpdate.ChangeForMissingNode | src/App.tsx:45-67 | A change for an id the forest does not contain leaves the forest unchanged. |
| StyleUpdate.ChangeIsLocal | src/App.tsx:45-67 | With unique ids: the ids are kept and stay unique, and the node with the id becomes the rewrite of the old one. Every other node keeps its id, kind, properties and number of children. |
| CssRules.SelectedNode | src/components/CssInspector/index.tsx:50-53 | A node is selected exactly when a non-empty selected id occurs in the forest. It is the node with that id. |
| CssRules.CurrentRuleIndex | src/components/CssInspector/index.tsx:113-116 | The current rule is the first one whose selector contains the selected id. There is none exactly when no selector contains it. |
| CssRules.DefaultRule | src/components/CssInspector/index.tsx:64-108 | The default rule has id rule-ID and selector #ID. It has nine enabled properties with ids prop-1 … prop-9. |
| CssRules.DefaultRuleMatchesStyle | src/components/CssInspector/index.tsx:64-108 | The default values are the drawn style's geometry in px and its position. Display, background, color and border are the node's when truthy, else block, transparent, #000000 and none. |
| CssRules.DefaultRuleDistinctIds | src/components/CssInspector/index.tsx:67-107 | The nine default properties have pairwise distinct ids. |
| CssRules.DefaultRuleNames | src/components/CssInspector/index.tsx:67-107 | The default properties are display, width, height, background, color, border, position, left and top in that order, each once. |
| CssRules.InitializeRules | src/components/CssInspector/index.tsx:56-111 | When an existing node is selected and no rule applies to it, the rule list is replaced by that node's default rule alone. Otherwise the list is unchanged. |
| CssRules.DefaultSelectorApplies | src/components/CssInspector/index.tsx:58-66 | The default selector #ID applies to ID. |
| CssRules.InitializeSettles | src/components/CssInspector/index.tsx:56-111 | After initialisation for an existing node a rule applies to it, and initialising again changes nothing. |
| CssRules.RemoveById | src/components/CssInspector/index.tsx:341 | The filtered list holds exactly the properties without the id. |
| CssRules.MapRulesWithId | src/components/CssInspector/index.tsx:150-171 | Rules with the id get their properties rewritten; every other rule is unchanged. |
| CssRules.MapRulesKeepsCurrent | src/components/CssInspector/index.tsx:113-171 | Rewriting properties keeps every selector, so the same rule stays current. |
| CssInspector.DuplicateIndex | src/components/CssInspector/index.tsx:137-140 | It finds the first other property whose trimmed name equals the trimmed name, or reports that there is none. |
| CssInspector.Valid | src/components/CssInspector/index.tsx:144-148 | A property with a blank name or value counts as valid. Otherwise the platform's CSS.supports decides. |
| CssInspector.HandlePropertyChange | src/components/CssInspector/index.tsx:118-175 | With no current rule or no node nothing happens. Otherwise it reports a change from the property's name and value to the same name with the new value, and only the current rule is rewritten. |
| CssInspector.ValueChangeEdits | src/components/CssInspector/index.tsx:150-171 | The edited property takes the new value and enabled = validity. The first other property with the same trimmed name is disabled. Every other property is unchanged. |
| CssInspector.ValueChangeIdempotent | src/components/CssInspector/index.tsx:118-175 | Changing a value twice to the same text leaves the same rules as changing it once. |
| CssInspector.HandlePropertyNameChange | src/components/CssInspector/index.tsx:177-233 | An unknown property is ignored. Otherwise it reports a change from the old name to the new one, keeping the value, and only the current rule is rewritten. |
| CssInspector.RenameEdits | src/components/CssInspector/index.tsx:208-229 | The renamed property takes the new name and enabled = validity. The first other property already carrying that trimmed name is disabled. Every other property is unchanged. |
| CssInspector.RenameIdempotent | src/components/CssInspector/index.tsx:177-233 | Renaming twice to the same name leaves the same rules as renaming once. |
| CssInspector.EditTwice | src/components/CssInspector/index.tsx:118-233 | After an edit the same rule is current, the property sits at the same index, and its validity and duplicate are unchanged. So the same edit again yields the same rules. |
| CssInspector.EditRulesIdempotent | src/components/CssInspector/index.tsx:150-171 | The rule rewrite of an edit with fixed validity and duplicate is idempotent. |
| CssInspector.HandlePropertyToggle | src/components/CssInspector/index.tsx:235-269 | With no current rule or no node nothing happens. Otherwise it reports a change for the node from the property's old name, and only the current rule is rewritten. |
| CssInspector.ToggleFlips | src/components/CssInspector/index.tsx:235-269 | With distinct rule ids, the property's enabled flag flips and nothing else changes. The report writes the value back when the property becomes enabled, and the empty string when it becomes disabled. |
| CssInspector.ToggleInvolution | src/components/CssInspector/index.tsx:239-250 | Toggling the same property twice restores the rule list. |
| CssInspector.BlankIndex | src/components/CssInspector/index.tsx:274-277 | It finds the first property whose name and value are both blank, or reports that there is none. |
| CssInspector.AddNewProperty | src/components/CssInspector/index.tsx:271-321 | When a blank property exists, the rules are kept and focus moves to it. Otherwise an empty property prop-NOW is appended to the current rule only, and focus moves to it. No change is reported. |
| CssInspector.BlankIndexAppend | src/components/CssInspector/index.tsx:274-310 | When no property was blank, the appended empty property is the first blank one. |
| CssInspector.AddNewSettles | src/components/CssInspector/index.tsx:271-321 | A second add right after the first appends nothing and focuses the property the first one added. |
| CssInspector.RemoveProperty | src/components/CssInspector/index.tsx:323-347 | With no current rule or no node nothing happens. Otherwise the current rule loses every property with the id. A removal of the old name is reported only when the property exists. |
| CssInspector.RemoveIdempotent | src/components/CssInspector/index.tsx:323-347 | Removing the same property a second time changes nothing and reports nothing. |
| CssInspector.ValueChangeReachesNode | src/components/CssInspector/index.tsx:118-135 | With unique ids, once the app applies the reported change, the selected node's property holds the new value. |
| CssInspector.RemoveReachesNode | src/components/CssInspector/index.tsx:323-335 | With unique ids, once the app applies the reported removal, the selected node no longer has the property. |
| LegacyCssInspector.LegacyPropertyChange | src/components/CssInspector.tsx:62-84 | With no current rule or no node nothing happens. Otherwise only the rule list changes. It keeps its length and every rule with another id. In each rule with the current rule's id, a property with the id gets the new value and keeps its name and enabled flag; every other property is unchanged. A change is reported exactly when the current rule has the property: the node's id, the property's name and the new value. |
| LegacyCssInspector.ValueReadsBack | src/components/CssInspector.tsx:62-84 | After the change, the same rule is current and the property reads back with the new value. |
| LegacyCssInspector.LegacyValueChangeIdempotent | src/components/CssInspector.tsx:62-77 | Changing a value twice to the same text gives the same state as once. |
| LegacyCssInspector.LegacyToggle | src/components/CssInspector.tsx:86-114 | The enabled flag is flipped in the current rule. An enabled property reports the empty string and a disabled one reports its value. An unknown property reports nothing. |
| LegacyCssInspector.LegacyToggleAgrees | src/components/CssInspector.tsx:86-101 | The older toggle rewrites the rules exactly as the current inspector's toggle does. |
| LegacyCssInspector.LegacyToggleInvolution | src/components/CssInspector.tsx:86-101 | Toggling twice restores the whole state. |
| LegacyCssInspector.LegacyAddNewProperty | src/components/CssInspector.tsx:116-140 | Nothing happens unless there is a current rule, a node, and a non-blank name and value. Otherwise the trimmed property is appended to the current rule only and reported, and both form fields are cleared. |
| LegacyCssInspector.AddedIsTrimmed | src/components/CssInspector.tsx:119-124 | The added name and value are non-empty, with no surrounding whitespace. |
| LegacyCssInspector.AddClearsForm | src/components/CssInspector.tsx:116-140 | A second add right after the first does nothing, because the form is empty. |
| LegacyCssInspector.AddedIsFound | src/components/CssInspector.tsx:116-136 | When the new id was free, the same rule stays current and the added property is found by its id. |
| LegacyCssInspector.LegacyDeleteProperty | src/components/CssInspector.tsx:142-161 | With no current rule or no node nothing happens. Otherwise only the rule list changes, and it changes exactly as the current inspector's removal changes it. Each rule with the current rule's id keeps its id and selector and holds exactly its old properties without the id; the other rules are unchanged. The empty string is reported under the property's name exactly when the property existed. |
| LegacyCssInspector.LegacyDeleteAgrees | src/components/CssInspector.tsx:150-160 | The older delete rewrites the rules exactly as the current inspector's remove does. |
| LegacyCssInspector.LegacyDeleteIdempotent | src/components/CssInspector.tsx:142-161 | Deleting the same property again changes nothing and reports nothing. |
| LegacyCssInspector.UpdateSelector | src/components/CssInspector.tsx:163-174 | With no current rule nothing happens. Otherwise only the rules with the current rule's id get the new selector. |
| LegacyCssInspector.SelectorKeepsRule | src/components/CssInspector.tsx:163-174 | With distinct rule ids, a new selector that still contains the selected id keeps the same rule current. |
| LegacyCssInspector.SelectorAwayReinitializes | src/components/CssInspector.tsx:30-55 | When the only rule's selector is changed so that it no longer contains the selected id, initialisation replaces it with the node's default rule. |
| AutocompleteInput.WidthFor | src/components/PropertyInputRow/Input/index.tsx:134-138 | The width is the text's length plus 2, but never below 3. |
| AutocompleteInput.Init | src/components/PropertyInputRow/Input/index.tsx:41-55 | A fresh field holds the value prop, sized for it, with the dropdown hidden, nothing typed and no timer pending. |
| AutocompleteInput.Filter | src/components/PropertyInputRow/Input/index.tsx:75-77 | A suggestion is kept exactly when its lower-cased form contains the lower-cased text. |
| AutocompleteInput.FilterAppend | src/components/PropertyInputRow/Input/index.tsx:75-77 | Filtering keeps the suggestions' order: filtering a concatenation concatenates the filtered parts. |
| AutocompleteInput.Refilter | src/components/PropertyInputRow/Input/index.tsx:62-87 | The dropdown shows exactly when the user has typed, the text is not blank, and some suggestion matches. Then it holds all the matches with the first highlighted. Otherwise the matches are dropped; the highlight is reset to the first entry when the filtering branch runs and kept when the hide branch runs. Nothing else changes. |
| AutocompleteInput.HideIfBlank | src/components/PropertyInputRow/Input/index.tsx:90-97 | A blank value prop hides the dropdown and drops the matches; otherwise nothing changes. |
| AutocompleteInput.Down | src/components/PropertyInputRow/Input/index.tsx:159-161 | ArrowDown highlights the next entry, wrapping from the last to the first. |
| AutocompleteInput.Up | src/components/PropertyInputRow/Input/index.tsx:166-168 | ArrowUp highlights the previous entry, wrapping from the first to the last. |
| AutocompleteInput.InitInv | src/components/PropertyInputRow/Input/index.tsx:41-55 | A fresh field satisfies the invariant. The invariant: the highlight is in range while shown, the width fits the text, a shown dropdown means the user typed, and no match is empty. |
| AutocompleteInput.StepInv | src/components/PropertyInputRow/Input/index.tsx:62-199 | Every event, followed by the effects it triggers, keeps the invariant. |
| AutocompleteInput.WidthAtLeastMin | src/components/PropertyInputRow/Input/index.tsx:41-45 | After any sequence of events the invariant holds and the field is at least 3 characters wide. |
| AutocompleteInput.TypeShowsMatches | src/components/PropertyInputRow/Input/index.tsx:130-140 | Typing a non-blank text shows exactly its matches, the first highlighted, when there are any. |
| AutocompleteInput.TypeBlankHides | src/components/PropertyInputRow/Input/index.tsx:70-86 | Typing a blank text hides the dropdown. |
| AutocompleteInput.ArrowsInverse | src/components/PropertyInputRow/Input/index.tsx:156-169 | ArrowDown then ArrowUp, and ArrowUp then ArrowDown, restore the field and commit nothing. Both do nothing while the dropdown is hidden. |
| AutocompleteInput.EnterCommits | src/components/PropertyInputRow/Input/index.tsx:143-155 | Enter commits the highlighted entry and makes it the text when the dropdown is shown; otherwise it commits the text. Either way the field blurs and a blur timer starts. |
| AutocompleteInput.EscapeCommitsNothing | src/components/PropertyInputRow/Input/index.tsx:170-172 | Escape closes the dropdown and blurs without committing. |
| AutocompleteInput.TabCommitsThenMoves | src/components/PropertyInputRow/Input/index.tsx:173-191 | Tab commits the highlighted entry when the dropdown is shown. It then always moves focus, backwards with Shift. |
| AutocompleteInput.ClickCommits | src/components/PropertyInputRow/Input/index.tsx:194-199 | Clicking a shown entry commits it and makes it the text. |
| AutocompleteInput.FocusOpensNothing | src/components/PropertyInputRow/Input/index.tsx:115-119 | Focus only marks the field focused; the dropdown does not open. |
| AutocompleteInput.OutsidePressCloses | src/components/PropertyInputRow/Input/index.tsx:100-113 | A mouse press outside the dropdown closes it and changes nothing else. |
| AutocompleteInput.BlankValueHides | src/components/PropertyInputRow/Input/index.tsx:90-97 | A new blank value prop hides the dropdown and drops the matches. |
| AutocompleteInput.BlurStartsTimer | src/components/PropertyInputRow/Input/index.tsx:121-128 | A blur starts a timer and changes nothing else. |
| AutocompleteInput.TimerCommits | src/components/PropertyInputRow/Input/index.tsx:121-128 | A firing timer closes the dropdown, unfocuses and commits once. As written it commits the text captured at the blur; corrected, the field's current text. |
| AutocompleteInput.EnterThenTimerAsWritten | src/components/PropertyInputRow/Input/index.tsx:121-155 | As written, Enter on a suggestion followed by the blur timer commits the suggestion and then the stale typed text, which no longer matches the field. |
| AutocompleteInput.ClickThenTimerAsWritten | src/components/PropertyInputRow/Input/index.tsx:121-199 | As written, a blur, a click on a suggestion and the timer commit the suggestion and then the stale typed text. |
| AutocompleteInput.TypeEnterTimerAsWritten | src/components/PropertyInputRow/Input/index.tsx:115-155 | As written, for any idle field: type a text with a match other than itself, press Enter and let the timer fire. The parent receives the first match and then the typed text, while the field shows the match. |
| AutocompleteInput.FocusTypeEnterTimerAsWritten | src/components/PropertyInputRow/Input/index.tsx:115-155 | As written, for any idle field: focus, type a text with a match other than itself, press Enter and let the timer fire. The parent receives the first match and then the typed text, while the field shows the match. |
| AutocompleteInput.StaleBlurExample | src/components/PropertyInputRow/Input/index.tsx:121-155 | Concretely: with suggestion red, focus, type re, press Enter, and let the timer fire. The parent receives red and then re, while the field shows red. Lower-casing is a parameter here, required only to leave red and re unchanged. |
| AutocompleteInput.EnterThenTimer | src/components/PropertyInputRow/Input/index.tsx:121-155 | Corrected timer: after Enter on a suggestion, the last commit is the suggestion the field shows. |
| AutocompleteInput.ClickThenTimer | src/components/PropertyInputRow/Input/index.tsx:121-199 | Corrected timer: after a click on a suggestion, the last commit is the suggestion the field shows. |
| AutocompleteInput.TimerCommitsShownText | src/components/PropertyInputRow/Input/index.tsx:121-128 | Corrected timer: a firing timer always commits the text the field shows. |
| MockNodes.ForestPreOrder | src/data/mockNodes.ts:3-47 | The sample tree in pre-order is root-1, text-1, text-2, node-3, btn-1, img-1, node-4, btn-2, img-2. |
| MockNodes.ForestUniqueIds | src/data/mockNodes.ts:3-47 | The sample tree's ids are unique. |
| MockNodes.ForestLabels | src/data/mockNodes.ts:3-47 | The sample tree's component labels are root-1 = C1, node-3 = C2 and node-4 = C3. |
| MockNodes.ButtonStyle | src/data/mockNodes.ts:27 | Button 1 is drawn at (90, 20), 180 by 44, on #0ea5e9 in #fff, with radius 8 and no padding. |
| MockNodes.DivStyles | src/data/mockNodes.ts:15-26 | Node 3 has radius and padding 8 and no display. Text 1 is a flex box centred on both axes. |
| MockNodes.ButtonDefaultColours | src/data/mockNodes.ts:27 | Button 1's default rule shows display block, background #0ea5e9, color #fff, border none and position absolute. |
| MockNodes.ButtonDefaultGeometry | src/data/mockNodes.ts:27 | Button 1's default rule shows width 180px, height 44px, left 90px and top 20px. |
| MockNodes.SetOnUniqueForest | src/App.tsx:45-67 | With unique ids, writing a property on an existing node makes it read back. Every other node keeps its properties. |
| MockNodes.ButtonBackgroundEdit | src/data/mockNodes.ts:27 | Setting Button 1's background to #ff0000 in the sample tree makes it read back. No other node's properties change. |

## Left out

- Rendering is not modelled: React components, hooks, JSX, the tree view, the canvas preview and `PropertyInputRow`. State updates are modelled as the state after the update. The effects run after each event, in declaration order, when their dependencies changed.
- `console.log` calls are not modelled, since they have no effect on state.
- The DOM calls `select()`, `focus()`, `blur()` and `preventDefault()` are left out. The blur that `inputRef.current?.blur()` causes after Enter and Escape is modelled as a blur event: it starts the timer at once. The model does not check whether the field was focused.
- The custom focus event that adding a property dispatches after a delay becomes a `focus` field of the reaction.
- `CSS.supports`, `String.prototype.toLowerCase` and `Date.now()` are parameters, since they belong to the platform.
- The filter proofs assume only that `toLowerCase` maps the empty string to itself and nothing else to it.
- Numbers are mathematical integers. Floating-point geometry and its formatting in `${n}px` are not modelled.
- The `styles` field of a node is not modelled, since no part of this core reads it.
- StyleUpdate.Rewrite: the keys `id`, `type` and `children` are never written or deleted. The app would write them as ordinary properties, but here they are parts of the node's structure.
- Object identity and the shallow copies are not modelled, since values are compared structurally.
- The field's `value` prop does not reset the typed text, because the source never copies a new `value` into `inputValue`. Only the mount effect reacts to it.
- `onTabNext` and `onTabPrev` are optional props. The model always emits the call, whether or not the parent passed one.
- Blur timers fire in the order they were started. All have the same 150 ms delay, and their interleaving with other events is left to the event sequence.
- LegacyCssInspector.SelectorAwayReinitializes: the older inspector's initialising effect builds its default rule without `String(...)`. The model uses the shared default rule, which gives the same values whenever the properties are strings.
- AutocompleteInput.WidthFor: lengths are counted in characters (Dafny's `|s|`), not in the UTF-16 code units JavaScript's `.length` counts. Text with characters outside the Basic Multilingual Plane, an emoji say, gets a smaller width here than in the app. The same holds for the widths `Init` and `Choose` set.
- The application constants other than the Input widths and the blur delay are left out. The delay appears only as the ordering of timer events.

## Findings

| source | as written | input that shows it | evidently intended | confidence | as-written member | corrected member |
|---|---|---|---|---|---|---|
| src/components/PropertyInputRow/Input/index.tsx:121-128 | The blur handler's 150 ms timer calls `onChangeValue(id, inputValue)` with the text captured when the blur happened. Enter (143-155) and a click on a suggestion (194-199) commit the chosen suggestion first. The stale timer then commits the typed text over it. Tab on a shown dropdown (173-191) commits the same way before moving focus, so it is a third path to the stale commit when the parent's `onTabNext` moves focus away. The shipped parent, src/components/PropertyInputRow/index.tsx:34-46, passes no `suggestions`, so the dropdown never opens there: the overwrite happens only for a caller that passes suggestions. | With suggestion `red`: focus, type `re`, press Enter, wait 150 ms. The parent receives `red` and then `re`, while the field shows `red`. | The timer commits the text the field holds when it fires, so the last value reported is the one shown. | not executed | AutocompleteInput.StaleBlurExample | AutocompleteInput.EnterThenTimer |

=== FILE: autocomplete_input.dfy ===
/** The text field with suggestions that edits a property's name or value
    (src/components/PropertyInputRow/Input/index.tsx). Each browser event
    is a transition of the field's state that also yields the calls it
    makes to its parent (`onChangeValue`, `onTabNext`, `onTabPrev`). After
    the handler, the two effects that depend on the text, the typed flag,
    the suggestions and the `value` prop run when those have changed.

    The blur handler commits after a 150 ms timer. As written, the timer
    commits the text the field held at the moment of the blur; the model
    keeps that behaviour in `StepAsWritten` and uses the corrected timer,
    which commits the field's text when it fires, everywhere else. */
module AutocompleteInput {
  import opened Common

  /** Width in characters of an empty field, and the padding added to the
      length of a non-empty text. */
  const MinWidth: nat := 3
  const WidthPadding: nat := 2

  /** The field's width for a text. */
  function WidthFor(s: string): (w: nat)
    ensures w == if |s| + WidthPadding >= MinWidth then |s| + WidthPadding else MinWidth
    ensures w >= MinWidth
  {
    if |s| > 0 then |s| + WidthPadding else MinWidth
  }

  datatype Field = Field(
    value: string,             // the `value` prop
    suggestions: seq<string>,  // the `suggestions` prop
    inputValue: string,
    width: nat,
    show: bool,                // whether the dropdown is shown
    filtered: seq<string>,
    selected: nat,             // the highlighted entry of `filtered`
    focusing: bool,
    typed: bool,               // whether the user has typed since mounting
    timers: seq<string>)       // pending blur timers, with the text each captured

  datatype Key = Enter | ArrowDown | ArrowUp | Escape | Tab(shift: bool) | OtherKey

  datatype Event =
    | Type(text: string)
    | KeyDown(key: Key)
    | Focus
    | Blur
    | BlurTimer
    | Click(index: nat)        // a click on the entry of `filtered` at the index
    | OutsideMouseDown         // a mouse press anywhere but on the dropdown
    | NewValue(value: string)
    | NewSuggestions(suggestions: seq<string>)

  /** What the field tells its parent. */
  datatype Effect = Commit(text: string) | TabNext | TabPrev

  /** What the blur timer commits: the text captured at the blur, or the
      text the field holds when the timer fires. */
  datatype BlurCommit = CapturedText | CurrentText

  /** The field as first rendered for a `value` prop. */
  function Init(value: string, suggestions: seq<string>): (f: Field)
    ensures f.inputValue == value && f.width == WidthFor(value)
    ensures !f.show && f.filtered == [] && f.selected == 0 && !f.typed && f.timers == []
  {
    Field(value, suggestions, value, if |value| > 0 then |value| + WidthPadding else MinWidth,
          false, [], 0, false, false, [])
  }

  // ---------------------------------------------------------------------
  // Filtering
  // ---------------------------------------------------------------------

  /** The suggestions whose lower-case form contains the lower-case text,
      in their original order. `lower` is the platform's `toLowerCase`. */
  function Filter(suggestions: seq<string>, text: string, lower: string -> string): (r: seq<string>)
    ensures |r| <= |suggestions|
    ensures forall x :: x in r <==> x in suggestions && Includes(lower(x), lower(text))
  {
    if |suggestions| == 0 then []
    else
      var rest := Filter(suggestions[1..], text, lower);
      assert forall x :: x in suggestions <==> x == suggestions[0] || x in suggestions[1..];
      if Includes(lower(suggestions[0]), lower(text)) then [suggestions[0]] + rest else rest
  }

  /** Filtering works piece by piece, so it keeps the suggestions' order. */
  lemma {:induction false} FilterAppend(a: seq<string>, b: seq<string>, text: string, lower: string -> string)
    ensures Filter(a + b, text, lower) == Filter(a, text, lower) + Filter(b, text, lower)
    decreases |a|
  {
    if |a| > 0 {
      assert (a + b)[1..] == a[1..] + b;
      FilterAppend(a[1..], b, text, lower);
    } else {
      assert a + b == b;
    }
  }

  /** A suggestion that does not match is dropped and one that matches is kept. */
  lemma FilterOne(x: string, text: string, lower: string -> string)
    ensures Includes(lower(x), lower(text)) ==> Filter([x], text, lower) == [x]
    ensures !Includes(lower(x), lower(text)) ==> Filter([x], text, lower) == []
  {
    assert [x][1..] == [];
  }

  /** What the platform's `toLowerCase` is assumed to do: the empty string
      stays empty and no other string becomes empty. */
  ghost predicate LowerOk(lower: string -> string) {
    lower("") == "" && forall s :: s != "" ==> lower(s) != ""
  }

  /** The filtering effect: with typed, non-blank text and suggestions
      present, show the matches (if any) with the first highlighted;
      otherwise hide the dropdown and forget the matches. */
  function Refilter(f: Field, lower: string -> string): (r: Field)
    ensures r.(show := f.show, filtered := f.filtered, selected := f.selected) == f
    ensures r.show <==> f.typed && !IsBlank(f.inputValue) && |f.suggestions| > 0
                        && |Filter(f.suggestions, f.inputValue, lower)| > 0
    ensures r.show ==> r.selected == 0 && r.filtered == Filter(f.suggestions, f.inputValue, lower)
    ensures !r.show ==> r.filtered == []
    ensures f.typed && !IsBlank(f.inputValue) && |f.suggestions| > 0 ==> r.selected == 0
    ensures !(f.typed && !IsBlank(f.inputValue) && |f.suggestions| > 0) ==> r.selected == f.selected
  {
    if f.typed && !IsBlank(f.inputValue) && |f.suggestions| > 0 then
      var matches := Filter(f.suggestions, f.inputValue, lower);
      f.(filtered := matches, show := |matches| > 0, selected := 0)
    else
      f.(show := false, filtered := [])
  }

  /** The mount effect on the `value` prop: a blank value hides the dropdown. */
  function HideIfBlank(f: Field): (r: Field)
    ensures IsBlank(f.value) ==> r == f.(show := false, filtered := [])
    ensures !IsBlank(f.value) ==> r == f
  {
    if IsBlank(f.value) then f.(show := false, filtered := []) else f
  }

  /** The effects that run after a handler, each only when what it depends
      on has changed, in the order they are declared. */
  function Settle(before: Field, after: Field, lower: string -> string): (r: Field)
    requires Indexable(after)
    ensures Indexable(r)
  {
    var f := if after.inputValue != before.inputValue || after.suggestions != before.suggestions
                || after.typed != before.typed
             then Refilter(after, lower) else after;
    if after.value != before.value then HideIfBlank(f) else f
  }

  // ---------------------------------------------------------------------
  // Handlers
  // ---------------------------------------------------------------------

  /** Whether the dropdown is on screen. */
  predicate Shown(f: Field) {
    f.show && |f.filtered| > 0
  }

  /** The highlighted entry can be read whenever the dropdown is on screen. */
  predicate Indexable(f: Field) {
    Shown(f) ==> f.selected < |f.filtered|
  }

  /** The highlight after ArrowDown: the next entry, wrapping to the first. */
  function Down(i: nat, n: nat): (r: nat)
    requires i < n
    ensures r < n && (r + n - 1) % n == i
  {
    if i < n - 1 then i + 1 else 0
  }

  /** The highlight after ArrowUp: the previous entry, wrapping to the last. */
  function Up(i: nat, n: nat): (r: nat)
    requires i < n
    ensures r < n && (r + 1) % n == i
  {
    if i > 0 then i - 1 else n - 1
  }

  /** Choosing a suggestion: it becomes the text, the field resizes to it
      and the dropdown closes. */
  function Choose(f: Field, s: string): Field {
    f.(inputValue := s, width := |s| + WidthPadding, show := false)
  }

  function OnKey(f: Field, key: Key): (r: (Field, seq<Effect>))
    requires Indexable(f)
    ensures Indexable(r.0)
  {
    match key
    case Enter =>
      var blurred := f.(focusing := false, timers := f.timers + [f.inputValue]);
      if Shown(f) then
        var s := f.filtered[f.selected];
        (Choose(blurred, s), [Commit(s)])
      else (blurred, [Commit(f.inputValue)])
    case ArrowDown =>
      if Shown(f) then (f.(selected := Down(f.selected, |f.filtered|)), []) else (f, [])
    case ArrowUp =>
      if Shown(f) then (f.(selected := Up(f.selected, |f.filtered|)), []) else (f, [])
    case Escape =>
      (f.(show := false, timers := f.timers + [f.inputValue]), [])
    case Tab(shift) =>
      var move := if shift then TabPrev else TabNext;
      if Shown(f) then
        var s := f.filtered[f.selected];
        (Choose(f, s), [Commit(s), move])
      else (f, [move])
    case OtherKey => (f, [])
  }

  /** The handler for one event, before the effects run. */
  function Handle(mode: BlurCommit, f: Field, ev: Event): (r: (Field, seq<Effect>))
    requires Indexable(f)
    ensures Indexable(r.0)
  {
    match ev
    case Type(text) => (f.(inputValue := text, width := WidthFor(text), typed := true), [])
    case KeyDown(key) => OnKey(f, key)
    case Focus => (f.(focusing := true), [])
    case Blur => (f.(timers := f.timers + [f.inputValue]), [])
    case BlurTimer =>
      if |f.timers| == 0 then (f, [])
      else
        var text := if mode == CapturedText then f.timers[0] else f.inputValue;
        (f.(show := false, focusing := false, timers := f.timers[1..]), [Commit(text)])
    case Click(i) =>
      if Shown(f) && i < |f.filtered| then (Choose(f, f.filtered[i]), [Commit(f.filtered[i])]) else (f, [])
    case OutsideMouseDown => if Shown(f) then (f.(show := false), []) else (f, [])
    case NewValue(v) => (f.(value := v), [])
    case NewSuggestions(s) => (f.(suggestions := s), [])
  }

  /** One event: the handler, then the effects. */
  function StepWith(mode: BlurCommit, f: Field, ev: Event, lower: string -> string): (r: (Field, seq<Effect>))
    requires Indexable(f)
    ensures Indexable(r.0)
  {
    var (g, effects) := Handle(mode, f, ev);
    (Settle(f, g, lower), effects)
  }

  /** The field with the blur timer committing the current text. */
  function Step(f: Field, ev: Event, lower: string -> string): (r: (Field, seq<Effect>))
    requires Indexable(f)
    ensures Indexable(r.0)
  {
    StepWith(CurrentText, f, ev, lower)
  }

  /** The field as written: the blur timer commits the captured text. */
  function StepAsWritten(f: Field, ev: Event, lower: string -> string): (r: (Field, seq<Effect>))
    requires Indexable(f)
    ensures Indexable(r.0)
  {
    StepWith(CapturedText, f, ev, lower)
  }

  /** A sequence of events, with every call the field makes, in order. */
  function Run(mode: BlurCommit, f: Field, events: seq<Event>, lower: string -> string): (r: (Field, seq<Effect>))
    requires Indexable(f)
    ensures Indexable(r.0)
    decreases |events|
  {
    if |events| == 0 then (f, [])
    else
      var (g, first) := StepWith(mode, f, events[0], lower);
      var (h, rest) := Run(mode, g, events[1..], lower);
      (h, first + rest)
  }

  /** A run is its first step followed by the rest. */
  lemma RunCons(mode: BlurCommit, f: Field, ev: Event, rest: seq<Event>, lower: string -> string)
    requires Indexable(f)
    ensures var (g, first) := StepWith(mode, f, ev, lower);
      Run(mode, f, [ev] + rest, lower) == (Run(mode, g, rest, lower).0, first + Run(mode, g, rest, lower).1)
  {
    assert ([ev] + rest)[1..] == rest;
  }

  /** A run of two events is the second step after the first. */
  lemma Run2(mode: BlurCommit, f: Field, a: Event, b: Event, lower: string -> string)
    requires Indexable(f)
    ensures var (g1, e1) := StepWith(mode, f, a, lower);
      var (g2, e2) := StepWith(mode, g1, b, lower);
      Run(mode, f, [a, b], lower) == (g2, e1 + e2)
  {
    var (g1, e1) := StepWith(mode, f, a, lower);
    var (g2, e2) := StepWith(mode, g1, b, lower);
    assert [a, b] == [a] + [b];
    RunCons(mode, f, a, [b], lower);
    assert [b] == [b] + [];
    RunCons(mode, g1, b, [], lower);
    assert Run(mode, g2, [], lower) == (g2, []);
    assert e2 + [] == e2;
  }

  /** A run of three events is the last two after the first. */
  lemma Run3(mode: BlurCommit, f: Field, a: Event, b: Event, c: Event, lower: string -> string)
    requires Indexable(f)
    ensures var (g1, e1) := StepWith(mode, f, a, lower);
      var (h, rest) := Run(mode, g1, [b, c], lower);
      Run(mode, f, [a, b, c], lower) == (h, e1 + rest)
  {
    assert [a, b, c] == [a] + [b, c];
    RunCons(mode, f, a, [b, c], lower);
  }

  // ---------------------------------------------------------------------
  // Invariant
  // ---------------------------------------------------------------------

  /** What holds of every reachable field: the highlight is in range, the
      width fits the text, the dropdown only appears after typing and
      offers no empty suggestion. */
  predicate Inv(f: Field) {
    && Indexable(f)
    && f.width == WidthFor(f.inputValue)
    && (f.show ==> f.typed)
    && forall j :: 0 <= j < |f.filtered| ==> f.filtered[j] != ""
  }

  lemma InitInv(value: string, suggestions: seq<string>)
    ensures Inv(Init(value, suggestions))
  {
  }

  /** The matches for a non-blank text are never empty strings. */
  lemma FilterNonEmpty(suggestions: seq<string>, text: string, lower: string -> string)
    requires LowerOk(lower) && !IsBlank(text)
    ensures forall j :: 0 <= j < |Filter(suggestions, text, lower)| ==> Filter(suggestions, text, lower)[j] != ""
  {
    var r := Filter(suggestions, text, lower);
    assert text != "" by {
      assert Trim("") == [];
    }
    assert lower(text) != "";
    forall j | 0 <= j < |r| ensures r[j] != "" {
      assert r[j] in r;
    }
  }

  lemma SettleInv(before: Field, after: Field, lower: string -> string)
    requires LowerOk(lower) && Inv(after)
    ensures Inv(Settle(before, after, lower))
  {
    var f := if after.inputValue != before.inputValue || after.suggestions != before.suggestions
                || after.typed != before.typed
             then Refilter(after, lower) else after;
    RefilterInv(after, lower);
    assert Inv(f);
    assert Settle(before, after, lower) == if after.value != before.value then HideIfBlank(f) else f;
  }

  /** The filtering effect keeps the invariant. */
  lemma RefilterInv(f: Field, lower: string -> string)
    requires LowerOk(lower) && Inv(f)
    ensures Inv(Refilter(f, lower))
  {
    if f.typed && !IsBlank(f.inputValue) && |f.suggestions| > 0 {
      FilterNonEmpty(f.suggestions, f.inputValue, lower);
    }
  }

  /** Every event keeps the invariant, whichever text the blur timer commits. */
  lemma StepInv(mode: BlurCommit, f: Field, ev: Event, lower: string -> string)
    requires LowerOk(lower) && Inv(f)
    ensures Inv(StepWith(mode, f, ev, lower).0)
  {
    var (g, _) := Handle(mode, f, ev);
    if ev.KeyDown? || ev.Click? {
      assert Shown(f) ==> f.filtered[f.selected] != "";
    }
    assert Inv(g);
    SettleInv(f, g, lower);
  }

  /** The field is never narrower than an empty one. */
  lemma WidthAtLeastMin(mode: BlurCommit, f: Field, events: seq<Event>, lower: string -> string)
    requires LowerOk(lower) && Inv(f)
    ensures Inv(Run(mode, f, events, lower).0)
    ensures Run(mode, f, events, lower).0.width >= MinWidth
    decreases |events|
  {
    if |events| > 0 {
      StepInv(mode, f, events[0], lower);
      WidthAtLeastMin(mode, StepWith(mode, f, events[0], lower).0, events[1..], lower);
    }
  }

  // ---------------------------------------------------------------------
  // Keys, clicks and the blur timer
  // ---------------------------------------------------------------------

  /** Typing shows exactly the matches of the new text, the first one
      highlighted, when there are any. */
  lemma TypeShowsMatches(mode: BlurCommit, f: Field, text: string, lower: string -> string)
    requires Indexable(f) && text != f.inputValue && !IsBlank(text) && |f.suggestions| > 0
    ensures StepWith(mode, f, Type(text), lower).1 == []
    ensures var g := StepWith(mode, f, Type(text), lower).0;
      && g.inputValue == text && g.typed && g.timers == f.timers
      && (g.show <==> |Filter(f.suggestions, text, lower)| > 0)
      && (g.show ==> g.filtered == Filter(f.suggestions, text, lower) && g.selected == 0)
  {
  }

  /** Typing a blank text hides the dropdown. */
  lemma TypeBlankHides(mode: BlurCommit, f: Field, text: string, lower: string -> string)
    requires Indexable(f) && text != f.inputValue && IsBlank(text)
    ensures !StepWith(mode, f, Type(text), lower).0.show
  {
  }

  /** ArrowDown then ArrowUp, or ArrowUp then ArrowDown, return to the
      entry first highlighted; neither does anything while the dropdown is
      hidden. */
  lemma ArrowsInverse(f: Field, lower: string -> string)
    requires Indexable(f)
    ensures var down := Step(f, KeyDown(ArrowDown), lower);
      && down.1 == []
      && Step(down.0, KeyDown(ArrowUp), lower).0 == f
    ensures var up := Step(f, KeyDown(ArrowUp), lower);
      && up.1 == []
      && Step(up.0, KeyDown(ArrowDown), lower).0 == f
    ensures !Shown(f) ==> Step(f, KeyDown(ArrowDown), lower).0 == f && Step(f, KeyDown(ArrowUp), lower).0 == f
  {
    if Shown(f) {
      var n := |f.filtered|;
      var i := f.selected;
      assert Up(Down(i, n), n) == i;
      assert Down(Up(i, n), n) == i;
    }
  }

  /** Enter on a shown dropdown commits the highlighted entry and makes it
      the text; otherwise it commits the text. Either way the field blurs,
      which starts a timer holding the text as it was. The dropdown stays
      closed unless the chosen entry differs from the text, in which case
      the filter runs again on the new text. */
  lemma EnterCommits(mode: BlurCommit, f: Field, lower: string -> string)
    requires Indexable(f)
    ensures var (g, effects) := StepWith(mode, f, KeyDown(Enter), lower);
      && g.timers == f.timers + [f.inputValue] && !g.focusing
      && (Shown(f) ==> effects == [Commit(f.filtered[f.selected])] && g.inputValue == f.filtered[f.selected])
      && (!Shown(f) ==> effects == [Commit(f.inputValue)] && g.inputValue == f.inputValue && g.show == f.show)
      && (Shown(f) && g.show ==> f.filtered[f.selected] != f.inputValue)
  {
  }

  /** Escape closes the dropdown and blurs without committing anything. */
  lemma EscapeCommitsNothing(f: Field, lower: string -> string)
    requires Indexable(f)
    ensures var (g, effects) := Step(f, KeyDown(Escape), lower);
      && effects == [] && !g.show && g.inputValue == f.inputValue
      && g.timers == f.timers + [f.inputValue]
  {
  }

  /** Tab on a shown dropdown commits the highlighted entry first; then it
      always moves on, backwards with Shift. */
  lemma TabCommitsThenMoves(f: Field, shift: bool, lower: string -> string)
    requires Indexable(f)
    ensures var effects := Step(f, KeyDown(Tab(shift)), lower).1;
      && |effects| >= 1
      && effects[|effects| - 1] == (if shift then TabPrev else TabNext)
      && (Shown(f) <==> |effects| == 2)
      && (Shown(f) ==> effects[0] == Commit(f.filtered[f.selected]))
  {
  }

  /** A click on a shown entry commits that entry and makes it the text. */
  lemma ClickCommits(mode: BlurCommit, f: Field, i: nat, lower: string -> string)
    requires Indexable(f) && Shown(f) && i < |f.filtered|
    ensures var (g, effects) := StepWith(mode, f, Click(i), lower);
      effects == [Commit(f.filtered[i])] && g.inputValue == f.filtered[i] && g.timers == f.timers
  {
  }

  /** A blur starts a timer holding the text and changes nothing else. */
  lemma BlurStartsTimer(mode: BlurCommit, f: Field, lower: string -> string)
    requires Indexable(f)
    ensures StepWith(mode, f, Blur, lower) == (f.(timers := f.timers + [f.inputValue]), [])
  {
  }

  /** Focusing the field only marks it focused: the dropdown does not open
      until the user types. */
  lemma FocusOpensNothing(mode: BlurCommit, f: Field, lower: string -> string)
    requires Indexable(f)
    ensures StepWith(mode, f, Focus, lower) == (f.(focusing := true), [])
  {
  }

  /** A mouse press outside the dropdown closes it and changes nothing else. */
  lemma OutsidePressCloses(mode: BlurCommit, f: Field, lower: string -> string)
    requires Indexable(f)
    ensures var (g, effects) := StepWith(mode, f, OutsideMouseDown, lower);
      && effects == [] && !Shown(g)
      && g.(show := f.show) == f
  {
  }

  /** A new blank `value` prop hides the dropdown and forgets the matches. */
  lemma BlankValueHides(mode: BlurCommit, f: Field, v: string, lower: string -> string)
    requires Indexable(f) && v != f.value && IsBlank(v)
    ensures var (g, effects) := StepWith(mode, f, NewValue(v), lower);
      && effects == [] && !g.show && g.filtered == []
      && g.value == v && g.inputValue == f.inputValue
  {
    var g0 := Handle(mode, f, NewValue(v)).0;
    assert g0 == f.(value := v);
    assert Settle(f, g0, lower) == HideIfBlank(g0);
  }

  /** A pending blur timer closes the dropdown and commits; without one
      nothing happens. */
  lemma TimerCommits(mode: BlurCommit, f: Field, lower: string -> string)
    requires Indexable(f)
    ensures var (g, effects) := StepWith(mode, f, BlurTimer, lower);
      && (|f.timers| == 0 ==> g == f && effects == [])
      && (|f.timers| > 0 ==> !g.show && !g.focusing && g.timers == f.timers[1..] && |effects| == 1)
      && g.inputValue == f.inputValue
      && (|f.timers| > 0 && mode == CapturedText ==> effects == [Commit(f.timers[0])])
      && (|f.timers| > 0 && mode == CurrentText ==> effects == [Commit(f.inputValue)])
  {
  }

  // ---------------------------------------------------------------------
  // The blur timer: as written and corrected
  // ---------------------------------------------------------------------

  /** The last text a run commits, if any. */
  function LastCommit(effects: seq<Effect>): (r: Option<string>)
    ensures r.None? <==> forall j :: 0 <= j < |effects| ==> !effects[j].Commit?
    ensures r.Some? ==> exists j :: 0 <= j < |effects| && effects[j] == Commit(r.value)
    decreases |effects|
  {
    if |effects| == 0 then None
    else
      var last := effects[|effects| - 1];
      if last.Commit? then Some(last.text)
      else
        var r := LastCommit(effects[..|effects| - 1]);
        assert forall j :: 0 <= j < |effects| - 1 ==> effects[..|effects| - 1][j] == effects[j];
        r
  }

  /** As written, choosing a suggestion with Enter is undone 150 ms later:
      the timer started by Enter's blur commits the text typed before the
      choice. */
  lemma EnterThenTimerAsWritten(f: Field, lower: string -> string)
    requires Indexable(f) && Shown(f) && f.timers == []
    requires f.filtered[f.selected] != f.inputValue
    ensures var (g, effects) := Run(CapturedText, f, [KeyDown(Enter), BlurTimer], lower);
      && effects == [Commit(f.filtered[f.selected]), Commit(f.inputValue)]
      && g.inputValue == f.filtered[f.selected]
      && LastCommit(effects) != Some(g.inputValue)
  {
    var (g1, e1) := StepWith(CapturedText, f, KeyDown(Enter), lower);
    EnterCommits(CapturedText, f, lower);
    TimerCommits(CapturedText, g1, lower);
    Run2(CapturedText, f, KeyDown(Enter), BlurTimer, lower);
  }


  /** The same for a click: pressing on a suggestion blurs the field first,
      and the timer then commits the typed text over the clicked entry. */
  lemma ClickThenTimerAsWritten(f: Field, i: nat, lower: string -> string)
    requires Indexable(f) && Shown(f) && i < |f.filtered| && f.timers == []
    requires f.filtered[i] != f.inputValue
    ensures var (g, effects) := Run(CapturedText, f, [Blur, Click(i), BlurTimer], lower);
      && effects == [Commit(f.filtered[i]), Commit(f.inputValue)]
      && g.inputValue == f.filtered[i]
      && LastCommit(effects) != Some(g.inputValue)
  {
    var g1 := f.(timers := [f.inputValue]);
    assert f.timers + [f.inputValue] == [f.inputValue];
    BlurStartsTimer(CapturedText, f, lower);
    ClickTimerAsWritten(g1, i, lower);
    Run3(CapturedText, f, Blur, Click(i), BlurTimer, lower);
  }

  /** As written, a click on a shown entry while one timer is pending
      commits the entry and then the timer's captured text. */
  lemma ClickTimerAsWritten(f: Field, i: nat, lower: string -> string)
    requires Indexable(f) && Shown(f) && i < |f.filtered| && |f.timers| == 1
    ensures var (g, effects) := Run(CapturedText, f, [Click(i), BlurTimer], lower);
      && effects == [Commit(f.filtered[i]), Commit(f.timers[0])]
      && g.inputValue == f.filtered[i]
  {
    var (g2, e2) := StepWith(CapturedText, f, Click(i), lower);
    ClickCommits(CapturedText, f, i, lower);
    TimerCommits(CapturedText, g2, lower);
    Run2(CapturedText, f, Click(i), BlurTimer, lower);
  }

  /** As written, typing a text, choosing the first match with Enter and
      letting the timer fire commits the match and then the typed text. */
  lemma TypeEnterTimerAsWritten(f: Field, text: string, lower: string -> string)
    requires Indexable(f) && f.timers == [] && text != f.inputValue && !IsBlank(text) && |f.suggestions| > 0
    requires |Filter(f.suggestions, text, lower)| > 0 && Filter(f.suggestions, text, lower)[0] != text
    ensures var (g, effects) := Run(CapturedText, f, [Type(text), KeyDown(Enter), BlurTimer], lower);
      && effects == [Commit(Filter(f.suggestions, text, lower)[0]), Commit(text)]
      && g.inputValue == Filter(f.suggestions, text, lower)[0]
  {
    var (g1, e1) := StepWith(CapturedText, f, Type(text), lower);
    TypeShowsMatches(CapturedText, f, text, lower);
    EnterThenTimerAsWritten(g1, lower);
    Run3(CapturedText, f, Type(text), KeyDown(Enter), BlurTimer, lower);
  }


  /** As written, focusing an idle field, typing a text and choosing the
      first match with Enter ends, once the timer fires, with the typed
      text committed over the match. */
  lemma FocusTypeEnterTimerAsWritten(f: Field, text: string, lower: string -> string)
    requires Indexable(f) && f.timers == [] && text != f.inputValue && !IsBlank(text) && |f.suggestions| > 0
    requires |Filter(f.suggestions, text, lower)| > 0 && Filter(f.suggestions, text, lower)[0] != text
    ensures var (g, effects) := Run(CapturedText, f, [Focus, Type(text), KeyDown(Enter), BlurTimer], lower);
      && effects == [Commit(Filter(f.suggestions, text, lower)[0]), Commit(text)]
      && g.inputValue == Filter(f.suggestions, text, lower)[0]
  {
    var rest := [Type(text), KeyDown(Enter), BlurTimer];
    assert [Focus, Type(text), KeyDown(Enter), BlurTimer] == [Focus] + rest;
    FocusThenRun(CapturedText, f, rest, lower);
    TypeEnterTimerAsWritten(f.(focusing := true), text, lower);
  }

  /** A focus changes nothing a later run can observe but the focusing flag. */
  lemma FocusThenRun(mode: BlurCommit, f: Field, rest: seq<Event>, lower: string -> string)
    requires Indexable(f)
    ensures Run(mode, f, [Focus] + rest, lower) == Run(mode, f.(focusing := true), rest, lower)
  {
    var f1 := f.(focusing := true);
    FocusOpensNothing(mode, f, lower);
    RunCons(mode, f, Focus, rest, lower);
    assert [] + Run(mode, f1, rest, lower).1 == Run(mode, f1, rest, lower).1;
  }


  /** A concrete case: with suggestion "red", typing "re", then Enter,
      then the timer, commits "red" and then "re", while the field shows
      "red". Lower-casing leaves both words as they are. */
  lemma StaleBlurExample(lower: string -> string)
    requires lower("red") == "red" && lower("re") == "re"
    ensures var f := Init("", ["red"]);
      var (g, effects) := Run(CapturedText, f, [Focus, Type("re"), KeyDown(Enter), BlurTimer], lower);
      effects == [Commit("red"), Commit("re")] && g.inputValue == "red"
  {
    var f := Init("", ["red"]);
    assert !IsBlank("re") by { assert Trim("re") != []; }
    assert Filter(f.suggestions, "re", lower) == ["red"] by {
      assert Includes("red", "re");
      FilterOne("red", "re", lower);
    }
    FocusTypeEnterTimerAsWritten(f, "re", lower);
  }


  /** Corrected: after Enter on a shown dropdown, whatever timers are
      pending, the last commit is the chosen entry, which the field shows. */
  lemma EnterThenTimer(f: Field, lower: string -> string)
    requires Indexable(f) && Shown(f)
    ensures var (g, effects) := Run(CurrentText, f, [KeyDown(Enter), BlurTimer], lower);
      && effects == [Commit(f.filtered[f.selected]), Commit(f.filtered[f.selected])]
      && g.inputValue == f.filtered[f.selected]
      && LastCommit(effects) == Some(g.inputValue)
  {
    var (g1, e1) := StepWith(CurrentText, f, KeyDown(Enter), lower);
    EnterCommits(CurrentText, f, lower);
    TimerCommits(CurrentText, g1, lower);
    Run2(CurrentText, f, KeyDown(Enter), BlurTimer, lower);
  }


  /** Corrected: after a click that follows the blur, the last commit is
      the clicked entry, which the field shows. */
  lemma ClickThenTimer(f: Field, i: nat, lower: string -> string)
    requires Indexable(f) && Shown(f) && i < |f.filtered|
    ensures var (g, effects) := Run(CurrentText, f, [Blur, Click(i), BlurTimer], lower);
      && effects == [Commit(f.filtered[i]), Commit(f.filtered[i])]
      && g.inputValue == f.filtered[i]
      && LastCommit(effects) == Some(g.inputValue)
  {
    var g1 := f.(timers := f.timers + [f.inputValue]);
    BlurStartsTimer(CurrentText, f, lower);
    var (g2, e2) := StepWith(CurrentText, g1, Click(i), lower);
    ClickCommits(CurrentText, g1, i, lower);
    TimerCommits(CurrentText, g2, lower);
    Run2(CurrentText, g1, Click(i), BlurTimer, lower);
    Run3(CurrentText, f, Blur, Click(i), BlurTimer, lower);
  }


  /** Corrected: a blur timer commits what the field shows. */
  lemma TimerCommitsShownText(f: Field, lower: string -> string)
    requires Indexable(f) && |f.timers| > 0
    ensures var (g, effects) := Step(f, BlurTimer, lower);
      LastCommit(effects) == Some(g.inputValue)
  {
  }
}

=== FILE: common.dfy ===
/** Small helpers shared by every part of the editor model: an Option type,
    first-match search over sequences, JavaScript's `trim` and `includes`,
    and decimal rendering of numbers as JavaScript's `String(n)` does it. */
module Common {

  datatype Option<+T> = None | Some(value: T) {
    function GetOr(default: T): T {
      match this
      case Some(v) => v
      case None => default
    }
  }

  /** Index of the first element satisfying `p`, as `Array.prototype.findIndex`
      computes it (None where JavaScript answers -1). */
  function FindIndex<T>(s: seq<T>, p: T -> bool): (r: Option<nat>)
    ensures r.Some? ==> r.value < |s| && p(s[r.value])
    ensures r.Some? ==> forall j :: 0 <= j < r.value ==> !p(s[j])
    ensures r.None? <==> forall j :: 0 <= j < |s| ==> !p(s[j])
  {
    if |s| == 0 then None
    else if p(s[0]) then Some(0)
    else
      match FindIndex(s[1..], p)
      case None => None
      case Some(k) => Some(k + 1)
  }

  /** Searches that answer alike position by position stop at the same place. */
  lemma {:induction false} FindIndexAgree<T, U>(a: seq<T>, b: seq<U>, p: T -> bool, q: U -> bool)
    requires |a| == |b| && forall i :: 0 <= i < |a| ==> p(a[i]) == q(b[i])
    ensures FindIndex(a, p) == FindIndex(b, q)
    decreases |a|
  {
    if |a| > 0 {
      FindIndexAgree(a[1..], b[1..], p, q);
    }
  }

  /** The first match is the one at `i` when `i` matches and nothing before it does. */
  lemma FindIndexIs<T>(s: seq<T>, p: T -> bool, i: nat)
    requires i < |s| && p(s[i]) && forall j :: 0 <= j < i ==> !p(s[j])
    ensures FindIndex(s, p) == Some(i)
  {
    assert FindIndex(s, p).Some?;
  }

  /** Appending an element moves no earlier match; it is the first match
      only when nothing before it matches. */
  lemma {:induction false} FindIndexAppend<T>(s: seq<T>, x: T, p: T -> bool)
    ensures FindIndex(s + [x], p) ==
      if FindIndex(s, p).Some? then FindIndex(s, p) else if p(x) then Some(|s|) else None
    decreases |s|
  {
    if |s| > 0 {
      assert (s + [x])[1..] == s[1..] + [x];
      FindIndexAppend(s[1..], x, p);
    }
  }

  /** The first element satisfying `p`, as `Array.prototype.find` returns it. */
  function Find<T>(s: seq<T>, p: T -> bool): (r: Option<T>)
    ensures r.Some? ==> r.value in s && p(r.value)
    ensures r.None? <==> forall j :: 0 <= j < |s| ==> !p(s[j])
  {
    match FindIndex(s, p)
    case None => None
    case Some(k) => Some(s[k])
  }

  /** The characters JavaScript's `String.prototype.trim` removes: the
      WhiteSpace and LineTerminator productions of ECMAScript. */
  predicate IsWhitespace(c: char) {
    || c == '\t' || c == '\n' || c == '\U{000B}' || c == '\U{000C}' || c == '\r'
    || c == ' ' || c == '\U{00A0}' || c == '\U{1680}'
    || ('\U{2000}' <= c <= '\U{200A}')
    || c == '\U{2028}' || c == '\U{2029}' || c == '\U{202F}' || c == '\U{205F}'
    || c == '\U{3000}' || c == '\U{FEFF}'
  }

  function TrimStart(s: string): (r: string)
    ensures |r| <= |s| && r == s[|s| - |r|..]
    ensures |r| > 0 ==> !IsWhitespace(r[0])
    ensures forall i :: 0 <= i < |s| - |r| ==> IsWhitespace(s[i])
  {
    if |s| > 0 && IsWhitespace(s[0]) then TrimStart(s[1..]) else s
  }

  function TrimEnd(s: string): (r: string)
    ensures |r| <= |s| && r == s[..|r|]
    ensures |r| > 0 ==> !IsWhitespace(r[|r| - 1])
    ensures forall i :: |r| <= i < |s| ==> IsWhitespace(s[i])
  {
    if |s| > 0 && IsWhitespace(s[|s| - 1]) then TrimEnd(s[..|s| - 1]) else s
  }

  /** `sub` occurs in `s` starting at index `i`. */
  predicate OccursAt(s: string, sub: string, i: int) {
    0 <= i && i + |sub| <= |s| && s[i..i + |sub|] == sub
  }

  /** Every character of `s` is whitespace. */
  predicate AllWhitespace(s: string) {
    forall i :: 0 <= i < |s| ==> IsWhitespace(s[i])
  }

  /** `s.trim()`: the longest slice of `s` that neither starts nor ends with
      whitespace, once all surrounding whitespace is removed. */
  function Trim(s: string): (r: string)
    ensures exists i :: OccursAt(s, r, i) && AllWhitespace(s[..i]) && AllWhitespace(s[i + |r|..])
    ensures |r| > 0 ==> !IsWhitespace(r[0]) && !IsWhitespace(r[|r| - 1])
    ensures r == [] <==> forall i :: 0 <= i < |s| ==> IsWhitespace(s[i])
  {
    var t := TrimStart(s);
    var r := TrimEnd(t);
    assert r == s[|s| - |t|..][..|r|];
    assert r == s[|s| - |t|..|s| - |t| + |r|];
    assert OccursAt(s, r, |s| - |t|);
    assert AllWhitespace(s[..|s| - |t|]);
    assert AllWhitespace(s[|s| - |t| + |r|..]);
    if r == [] then
      assert t == [];
      r
    else
      assert r[0] == t[0];
      r
  }

  /** JavaScript truthiness of `s.trim()`: the string has a non-blank character. */
  predicate IsBlank(s: string) {
    Trim(s) == []
  }

  /** `s.includes(sub)`. */
  predicate Includes(s: string, sub: string)
    decreases |s|
  {
    sub <= s || (|s| > 0 && Includes(s[1..], sub))
  }

  lemma {:induction false} IncludesIffSlice(s: string, sub: string)
    ensures Includes(s, sub) <==>
      exists i :: OccursAt(s, sub, i)
    decreases |s|
  {
    OccursAtZero(s, sub);
    if sub <= s {
    } else if |s| > 0 {
      IncludesIffSlice(s[1..], sub);
      forall i | 0 <= i && OccursAt(s[1..], sub, i) ensures OccursAt(s, sub, i + 1) {
        OccursShift(s, sub, i);
      }
      forall i | 1 <= i && OccursAt(s, sub, i) ensures OccursAt(s[1..], sub, i - 1) {
        OccursShift(s, sub, i - 1);
      }
    }
  }

  /** An occurrence at the start is a prefix. */
  lemma OccursAtZero(s: string, sub: string)
    ensures OccursAt(s, sub, 0) <==> sub <= s
  {
  }

  /** Dropping the first character moves every occurrence one place left. */
  lemma OccursShift(s: string, sub: string, i: int)
    requires |s| > 0 && 0 <= i
    ensures OccursAt(s[1..], sub, i) <==> OccursAt(s, sub, i + 1)
  {
    if i + |sub| <= |s| - 1 {
      assert s[1..][i..i + |sub|] == s[i + 1..i + 1 + |sub|];
    }
  }

  lemma IncludesSelf(s: string)
    ensures Includes(s, s)
  {
  }

  function DigitChar(d: nat): (c: char)
    requires d < 10
    ensures '0' <= c <= '9'
  {
    ['0', '1', '2', '3', '4', '5', '6', '7', '8', '9'][d]
  }

  /** `String(n)` for a non-negative integer: its decimal digits, most
      significant first, without leading zeros. */
  function NatToString(n: nat): (r: string)
    ensures |r| > 0
    ensures forall i :: 0 <= i < |r| ==> '0' <= r[i] <= '9'
    ensures n >= 10 <==> |r| >= 2
    ensures r[|r| - 1] == DigitChar(n % 10)
    decreases n
  {
    if n < 10 then [DigitChar(n)] else NatToString(n / 10) + [DigitChar(n % 10)]
  }

  lemma {:induction false} NatToStringInjective(a: nat, b: nat)
    requires NatToString(a) == NatToString(b)
    ensures a == b
    decreases a
  {
    if a >= 10 {
      var sa := NatToString(a);
      assert b >= 10;
      assert sa[..|sa| - 1] == NatToString(a / 10);
      assert NatToString(b)[..|sa| - 1] == NatToString(b / 10);
      NatToStringInjective(a / 10, b / 10);
      DigitCharInjective(a % 10, b % 10);
    } else {
      DigitCharInjective(a, b);
    }
  }

  lemma DigitCharInjective(a: nat, b: nat)
    requires a < 10 && b < 10 && DigitChar(a) == DigitChar(b)
    ensures a == b
  {
  }

  /** `String(n)` for any integer. */
  function IntToString(n: int): (r: string)
    ensures |r| > 0
    ensures n < 0 <==> r[0] == '-'
  {
    if n < 0 then "-" + NatToString(-n) else NatToString(n)
  }
}

=== FILE: css_inspector.dfy ===
/** The CSS inspector (src/components/CssInspector/index.tsx). Its state is
    the rule list; the forest and the selected id come from the app. Every
    handler is a transition from the inspector's state to a `Reaction`: the
    new rule list, the edit it reports to the app through `onChange`, and
    the property whose form it asks to focus. */
module CssInspector {
  import opened Common
  import opened Tree
  import opened Nodes
  import opened StyleUpdate
  import opened CssRules

  datatype Inspector = Inspector(nodes: seq<Node>, selected: Option<string>, rules: seq<CssRule>)

  datatype Reaction = Reaction(rules: seq<CssRule>, change: Option<StyleChange>, focus: Option<string>)

  /** Nothing happens: the rule list stays, nothing is reported or focused. */
  function Unchanged(st: Inspector): Reaction {
    Reaction(st.rules, None, None)
  }

  /** The handlers act only when a rule applies to the selection and the
      selected node exists. */
  predicate Active(st: Inspector) {
    CurrentRule(st.rules, st.selected).Some? && SelectedNode(st.nodes, st.selected).Some?
  }

  /** Position of the current rule of an active inspector. */
  function Cur(st: Inspector): (i: nat)
    requires Active(st)
    ensures i < |st.rules| && CurrentRule(st.rules, st.selected) == Some(st.rules[i])
  {
    CurrentRuleIndex(st.rules, st.selected).value
  }

  /** The selected node of an active inspector. */
  function Target(st: Inspector): (n: Node)
    requires Active(st)
    ensures n.id == st.selected.value && n in PreOrder(st.nodes)
  {
    SelectedNode(st.nodes, st.selected).value
  }

  /** `properties.find(p => p.id === pid)`, by position. */
  function PropertyIndex(props: seq<CssProperty>, pid: string): (r: Option<nat>)
    ensures r.Some? ==> r.value < |props| && props[r.value].id == pid
    ensures r.Some? ==> forall j :: 0 <= j < r.value ==> props[j].id != pid
    ensures r.None? <==> forall j :: 0 <= j < |props| ==> props[j].id != pid
  {
    FindIndex(props, (p: CssProperty) => p.id == pid)
  }

  function FindProperty(props: seq<CssProperty>, pid: string): (r: Option<CssProperty>)
    ensures r.Some? <==> PropertyIndex(props, pid).Some?
    ensures r.Some? ==> r.value == props[PropertyIndex(props, pid).value]
  {
    match PropertyIndex(props, pid)
    case None => None
    case Some(k) => Some(props[k])
  }

  /** Position of the first property other than `pid` whose trimmed name is
      the trimmed `name`: the duplicate an edit disables. */
  function DuplicateIndex(props: seq<CssProperty>, pid: string, name: string): (r: Option<nat>)
    ensures r.Some? ==> r.value < |props| && props[r.value].id != pid && Trim(props[r.value].name) == Trim(name)
    ensures r.Some? ==> forall j :: 0 <= j < r.value ==> !(props[j].id != pid && Trim(props[j].name) == Trim(name))
    ensures r.None? <==> forall j :: 0 <= j < |props| ==> !(props[j].id != pid && Trim(props[j].name) == Trim(name))
  {
    FindIndex(props, (p: CssProperty) => p.id != pid && Trim(p.name) == Trim(name))
  }

  /** The id of that duplicate, if there is one. */
  function DuplicateId(props: seq<CssProperty>, pid: string, name: string): Option<string> {
    match DuplicateIndex(props, pid, name)
    case None => None
    case Some(d) => Some(props[d].id)
  }

  function NameOf(p: Option<CssProperty>): Option<string> {
    match p
    case None => None
    case Some(q) => Some(q.name)
  }

  function ValueOf(p: Option<CssProperty>): Option<string> {
    match p
    case None => None
    case Some(q) => Some(q.value)
  }

  /** Validity of a declaration: checked by `supports` (the browser's
      `CSS.supports`) only when both the trimmed name and value are non-empty. */
  function Valid(name: string, value: string, supports: (string, string) -> bool): (r: bool)
    ensures IsBlank(name) || IsBlank(value) ==> r
    ensures !IsBlank(name) && !IsBlank(value) ==> r == supports(name, value)
  {
    if !IsBlank(name) && !IsBlank(value) then supports(name, value) else true
  }

  /** The edit a value or name change makes to its target. */
  datatype Edit = SetValue(value: string) | SetName(name: string)

  /** One property after an edit of `pid`: the target takes the edit and
      the validity, the duplicate (by id) is disabled, the rest stay. */
  function ApplyEdit(p: CssProperty, pid: string, e: Edit, valid: bool, dupId: Option<string>): CssProperty {
    if p.id == pid then
      match e
      case SetValue(v) => p.(value := v, enabled := valid)
      case SetName(n) => p.(name := n, enabled := valid)
    else if dupId.Some? && p.id == dupId.value then p.(enabled := false)
    else p
  }

  function EditRules(rules: seq<CssRule>, ruleId: string, pid: string, e: Edit, valid: bool, dupId: Option<string>): seq<CssRule> {
    MapRulesWithId(rules, ruleId, props => MapProperties(props, p => ApplyEdit(p, pid, e, valid, dupId)))
  }

  // ---------------------------------------------------------------------
  // handlePropertyChange
  // ---------------------------------------------------------------------

  function HandlePropertyChange(st: Inspector, pid: string, newValue: string, supports: (string, string) -> bool): (out: Reaction)
    ensures !Active(st) ==> out == Unchanged(st)
    ensures Active(st) ==>
      var prop := FindProperty(st.rules[Cur(st)].properties, pid);
      && out.focus == None
      && out.change == Some(StyleChange(Target(st).id, NameOf(prop), ValueOf(prop), NameOf(prop), Some(newValue)))
      && |out.rules| == |st.rules|
      && forall i :: 0 <= i < |st.rules| && st.rules[i].id != st.rules[Cur(st)].id ==> out.rules[i] == st.rules[i]
  {
    if !Active(st) then Unchanged(st)
    else
      var rule := CurrentRule(st.rules, st.selected).value;
      var node := SelectedNode(st.nodes, st.selected).value;
      var prop := FindProperty(rule.properties, pid);
      var dupId := if prop.Some? then DuplicateId(rule.properties, pid, prop.value.name) else None;
      var valid := if prop.Some? then Valid(prop.value.name, newValue, supports) else true;
      Reaction(EditRules(st.rules, rule.id, pid, SetValue(newValue), valid, dupId),
               Some(StyleChange(node.id, NameOf(prop), ValueOf(prop), NameOf(prop), Some(newValue))),
               None)
  }

  /** In the current rule, a value change sets the value of the property
      with the id and makes it enabled exactly when the declaration is
      valid; the first OTHER property with the same trimmed name is
      disabled (with any property sharing its id); nothing else changes. */
  lemma ValueChangeEdits(st: Inspector, pid: string, newValue: string, supports: (string, string) -> bool, j: nat)
    requires Active(st)
    requires FindProperty(st.rules[Cur(st)].properties, pid).Some?
    requires j < |st.rules[Cur(st)].properties|
    ensures var props := st.rules[Cur(st)].properties;
      var out := HandlePropertyChange(st, pid, newValue, supports).rules[Cur(st)].properties;
      var name := FindProperty(props, pid).value.name;
      var dup := DuplicateIndex(props, pid, name);
      && |out| == |props|
      && (props[j].id == pid ==> out[j] == props[j].(value := newValue, enabled := Valid(name, newValue, supports)))
      && (props[j].id != pid && dup.Some? && props[j].id == props[dup.value].id ==> out[j] == props[j].(enabled := false))
      && (props[j].id != pid && !(dup.Some? && props[j].id == props[dup.value].id) ==> out[j] == props[j])
  {
    var props := st.rules[Cur(st)].properties;
    var e := SetValue(newValue);
    EditShape(st, pid, e, supports);
    EditOutcomeAt(st, pid, e, supports, j);
    var name := FindProperty(props, pid).value.name;
    assert EditValid(props, pid, e, supports) == Valid(name, newValue, supports);
    assert EditDupId(props, pid, e) == DuplicateId(props, pid, name);
  }

  /** A value change that arrives twice (the blur after Enter, say) leaves
      the rule list as the first one left it. */
  lemma ValueChangeIdempotent(st: Inspector, pid: string, newValue: string, supports: (string, string) -> bool)
    ensures var once := HandlePropertyChange(st, pid, newValue, supports).rules;
      HandlePropertyChange(st.(rules := once), pid, newValue, supports).rules == once
  {
    if Active(st) {
      EditShape(st, pid, SetValue(newValue), supports);
      EditTwice(st, pid, SetValue(newValue), supports);
    }
  }

  // ---------------------------------------------------------------------
  // handlePropertyNameChange
  // ---------------------------------------------------------------------

  function HandlePropertyNameChange(st: Inspector, pid: string, newName: string, supports: (string, string) -> bool): (out: Reaction)
    ensures !(Active(st) && FindProperty(st.rules[Cur(st)].properties, pid).Some?) ==> out == Unchanged(st)
    ensures Active(st) && FindProperty(st.rules[Cur(st)].properties, pid).Some? ==>
      var prop := FindProperty(st.rules[Cur(st)].properties, pid).value;
      && out.focus == None
      && out.change == Some(StyleChange(Target(st).id, Some(prop.name), Some(prop.value), Some(newName), Some(prop.value)))
      && |out.rules| == |st.rules|
      && forall i :: 0 <= i < |st.rules| && st.rules[i].id != st.rules[Cur(st)].id ==> out.rules[i] == st.rules[i]
  {
    if !Active(st) then Unchanged(st)
    else
      var rule := CurrentRule(st.rules, st.selected).value;
      var node := SelectedNode(st.nodes, st.selected).value;
      match FindProperty(rule.properties, pid)
      case None => Unchanged(st)
      case Some(prop) =>
        var dupId := DuplicateId(rule.properties, pid, newName);
        var valid := Valid(newName, prop.value, supports);
        Reaction(EditRules(st.rules, rule.id, pid, SetName(newName), valid, dupId),
                 Some(StyleChange(node.id, Some(prop.name), Some(prop.value), Some(newName), Some(prop.value))),
                 None)
  }

  /** In the current rule, a rename gives the property with the id its new
      name and makes it enabled exactly when the declaration is valid; the
      first OTHER property already carrying the trimmed new name is
      disabled; nothing else changes. */
  lemma RenameEdits(st: Inspector, pid: string, newName: string, supports: (string, string) -> bool, j: nat)
    requires Active(st)
    requires FindProperty(st.rules[Cur(st)].properties, pid).Some?
    requires j < |st.rules[Cur(st)].properties|
    ensures var props := st.rules[Cur(st)].properties;
      var out := HandlePropertyNameChange(st, pid, newName, supports).rules[Cur(st)].properties;
      var value := FindProperty(props, pid).value.value;
      var dup := DuplicateIndex(props, pid, newName);
      && |out| == |props|
      && (props[j].id == pid ==> out[j] == props[j].(name := newName, enabled := Valid(newName, value, supports)))
      && (props[j].id != pid && dup.Some? && props[j].id == props[dup.value].id ==> out[j] == props[j].(enabled := false))
      && (props[j].id != pid && !(dup.Some? && props[j].id == props[dup.value].id) ==> out[j] == props[j])
  {
    var props := st.rules[Cur(st)].properties;
    var e := SetName(newName);
    EditShape(st, pid, e, supports);
    EditOutcomeAt(st, pid, e, supports, j);
    assert EditValid(props, pid, e, supports) == Valid(newName, FindProperty(props, pid).value.value, supports);
    assert EditDupId(props, pid, e) == DuplicateId(props, pid, newName);
  }

  /** Renaming twice to the same name leaves the rule list as renaming once did. */
  lemma RenameIdempotent(st: Inspector, pid: string, newName: string, supports: (string, string) -> bool)
    ensures var once := HandlePropertyNameChange(st, pid, newName, supports).rules;
      HandlePropertyNameChange(st.(rules := once), pid, newName, supports).rules == once
  {
    if Active(st) && FindProperty(st.rules[Cur(st)].properties, pid).Some? {
      EditShape(st, pid, SetName(newName), supports);
      EditTwice(st, pid, SetName(newName), supports);
    }
  }

  /** The validity and duplicate an edit works out from the current rule. */
  function EditValid(props: seq<CssProperty>, pid: string, e: Edit, supports: (string, string) -> bool): bool {
    match FindProperty(props, pid)
    case None => true
    case Some(prop) => Valid(EditedName(prop, e), EditedValue(prop, e), supports)
  }

  function EditDupId(props: seq<CssProperty>, pid: string, e: Edit): Option<string> {
    match FindProperty(props, pid)
    case None => None
    case Some(prop) => DuplicateId(props, pid, EditedName(prop, e))
  }

  /** The rule list both edits produce, from the current rule. */
  function EditOutcome(st: Inspector, pid: string, e: Edit, supports: (string, string) -> bool): seq<CssRule>
    requires Active(st)
  {
    var props := st.rules[Cur(st)].properties;
    EditRules(st.rules, st.rules[Cur(st)].id, pid, e, EditValid(props, pid, e, supports), EditDupId(props, pid, e))
  }

  /** Value changes, and renames of a property that exists, are `EditOutcome`. */
  lemma EditShape(st: Inspector, pid: string, e: Edit, supports: (string, string) -> bool)
    requires Active(st)
    requires e.SetName? ==> FindProperty(st.rules[Cur(st)].properties, pid).Some?
    ensures e.SetValue? ==> HandlePropertyChange(st, pid, e.value, supports).rules == EditOutcome(st, pid, e, supports)
    ensures e.SetName? ==> HandlePropertyNameChange(st, pid, e.name, supports).rules == EditOutcome(st, pid, e, supports)
  {
  }

  /** Each property of the edited current rule is its old self with the edit applied. */
  lemma EditOutcomeAt(st: Inspector, pid: string, e: Edit, supports: (string, string) -> bool, j: nat)
    requires Active(st) && j < |st.rules[Cur(st)].properties|
    ensures var props := st.rules[Cur(st)].properties;
      var out := EditOutcome(st, pid, e, supports)[Cur(st)].properties;
      && |out| == |props|
      && out[j] == ApplyEdit(props[j], pid, e, EditValid(props, pid, e, supports), EditDupId(props, pid, e))
  {
  }

  /** Applying the same edit twice is applying it once. */
  lemma EditRulesIdempotent(rules: seq<CssRule>, ruleId: string, pid: string, e: Edit, valid: bool, dupId: Option<string>)
    ensures EditRules(EditRules(rules, ruleId, pid, e, valid, dupId), ruleId, pid, e, valid, dupId)
         == EditRules(rules, ruleId, pid, e, valid, dupId)
  {
    var once := EditRules(rules, ruleId, pid, e, valid, dupId);
    var twice := EditRules(once, ruleId, pid, e, valid, dupId);
    forall r | 0 <= r < |once| ensures twice[r] == once[r] {
      if once[r].id == ruleId {
        var ps := once[r].properties;
        var ps2 := twice[r].properties;
        assert |ps2| == |ps|;
        forall j | 0 <= j < |ps| ensures ps2[j] == ps[j] {
          assert ps2[j] == ApplyEdit(ps[j], pid, e, valid, dupId);
          assert ps[j] == ApplyEdit(rules[r].properties[j], pid, e, valid, dupId);
        }
      }
    }
  }

  /** The name and value the target carries after an edit. */
  function EditedName(prop: CssProperty, e: Edit): string {
    match e
    case SetValue(_) => prop.name
    case SetName(n) => n
  }

  function EditedValue(prop: CssProperty, e: Edit): string {
    match e
    case SetValue(v) => v
    case SetName(_) => prop.value
  }

  /** An edited list answers the id search and the duplicate search for a
      fixed name as the list before did. */
  lemma EditedSearchesAgree(props: seq<CssProperty>, pid: string, e: Edit, valid: bool, dupId: Option<string>, name: string)
    ensures var out := MapProperties(props, p => ApplyEdit(p, pid, e, valid, dupId));
      && PropertyIndex(out, pid) == PropertyIndex(props, pid)
      && DuplicateId(out, pid, name) == DuplicateId(props, pid, name)
  {
    var out := MapProperties(props, p => ApplyEdit(p, pid, e, valid, dupId));
    var byId := (p: CssProperty) => p.id == pid;
    var q := (p: CssProperty) => p.id != pid && Trim(p.name) == Trim(name);
    forall j | 0 <= j < |props| ensures out[j].id == props[j].id && q(out[j]) == q(props[j]) {
      assert out[j] == ApplyEdit(props[j], pid, e, valid, dupId);
      assert props[j].id != pid ==> out[j].name == props[j].name;
    }
    FindIndexAgree(out, props, byId, byId);
    FindIndexAgree(out, props, q, q);
  }

  /** An edit keeps every id, the target's value under a rename and its
      name under a value change, so the edited rule yields the same
      validity and duplicate as before. */
  lemma EditKeepsParameters(props: seq<CssProperty>, pid: string, e: Edit, supports: (string, string) -> bool)
    ensures var out := MapProperties(props, p => ApplyEdit(p, pid, e, EditValid(props, pid, e, supports), EditDupId(props, pid, e)));
      && PropertyIndex(out, pid) == PropertyIndex(props, pid)
      && EditValid(out, pid, e, supports) == EditValid(props, pid, e, supports)
      && EditDupId(out, pid, e) == EditDupId(props, pid, e)
  {
    var valid, dupId := EditValid(props, pid, e, supports), EditDupId(props, pid, e);
    var out := MapProperties(props, p => ApplyEdit(p, pid, e, valid, dupId));
    if PropertyIndex(props, pid).Some? {
      var k := PropertyIndex(props, pid).value;
      var name, value := EditedName(props[k], e), EditedValue(props[k], e);
      EditedSearchesAgree(props, pid, e, valid, dupId, name);
      assert FindProperty(out, pid) == Some(out[k]);
      assert EditedName(out[k], e) == name && EditedValue(out[k], e) == value by {
        assert out[k] == ApplyEdit(props[k], pid, e, valid, dupId);
      }
      assert EditValid(out, pid, e, supports) == Valid(name, value, supports);
      assert EditDupId(out, pid, e) == DuplicateId(out, pid, name);
    } else {
      EditedSearchesAgree(props, pid, e, valid, dupId, "");
    }
  }

  /** The heart of both idempotence lemmas: after an edit the same rule is
      current, and the same edit rewrites nothing. */
  lemma EditTwice(st: Inspector, pid: string, e: Edit, supports: (string, string) -> bool)
    requires Active(st)
    ensures var st2 := st.(rules := EditOutcome(st, pid, e, supports));
      && Active(st2) && Cur(st2) == Cur(st)
      && PropertyIndex(st2.rules[Cur(st)].properties, pid) == PropertyIndex(st.rules[Cur(st)].properties, pid)
      && EditOutcome(st2, pid, e, supports) == EditOutcome(st, pid, e, supports)
  {
    var i := Cur(st);
    var rule := st.rules[i];
    var props := rule.properties;
    var valid, dupId := EditValid(props, pid, e, supports), EditDupId(props, pid, e);
    var f := (ps: seq<CssProperty>) => MapProperties(ps, p => ApplyEdit(p, pid, e, valid, dupId));
    var once := EditRules(st.rules, rule.id, pid, e, valid, dupId);
    MapRulesKeepsCurrent(st.rules, rule.id, f, st.selected);
    var st2 := st.(rules := once);
    assert Cur(st2) == i;
    assert once[i].properties == f(props);
    EditKeepsParameters(props, pid, e, supports);
    EditRulesIdempotent(st.rules, rule.id, pid, e, valid, dupId);
  }

  // ---------------------------------------------------------------------
  // handlePropertyToggle
  // ---------------------------------------------------------------------

  function FlipProperty(p: CssProperty, pid: string): CssProperty {
    if p.id == pid then p.(enabled := !p.enabled) else p
  }

  function ToggleRules(rules: seq<CssRule>, ruleId: string, pid: string): seq<CssRule> {
    MapRulesWithId(rules, ruleId, props => MapProperties(props, p => FlipProperty(p, pid)))
  }

  /** `updatedRules.find(item => item.id === ruleId)`. */
  function RuleWithId(rules: seq<CssRule>, ruleId: string): (r: Option<CssRule>)
    ensures r.Some? ==> r.value in rules && r.value.id == ruleId
    ensures r.None? <==> forall i :: 0 <= i < |rules| ==> rules[i].id != ruleId
  {
    Find(rules, (rule: CssRule) => rule.id == ruleId)
  }

  function HandlePropertyToggle(st: Inspector, pid: string): (out: Reaction)
    ensures !Active(st) ==> out == Unchanged(st)
    ensures Active(st) ==>
      && out.focus == None && out.change.Some?
      && out.change.value.nodeId == Target(st).id
      && out.change.value.oldKey == NameOf(FindProperty(st.rules[Cur(st)].properties, pid))
      && |out.rules| == |st.rules|
      && forall i :: 0 <= i < |st.rules| && st.rules[i].id != st.rules[Cur(st)].id ==> out.rules[i] == st.rules[i]
  {
    if !Active(st) then Unchanged(st)
    else
      var rule := CurrentRule(st.rules, st.selected).value;
      var node := SelectedNode(st.nodes, st.selected).value;
      var oldProp := FindProperty(rule.properties, pid);
      var rules := ToggleRules(st.rules, rule.id, pid);
      var newProp := match RuleWithId(rules, rule.id)
        case None => None
        case Some(r) => FindProperty(r.properties, pid);
      var newVal := if newProp.Some? && newProp.value.enabled then newProp.value.value else "";
      Reaction(rules, Some(StyleChange(node.id, NameOf(oldProp), ValueOf(oldProp), NameOf(newProp), Some(newVal))), None)
  }

  /** Rule ids are pairwise distinct (true of the initial list and kept by
      every handler). */
  predicate DistinctRuleIds(rules: seq<CssRule>) {
    forall i, j :: 0 <= i < j < |rules| ==> rules[i].id != rules[j].id
  }

  /** Toggling flips `enabled` of exactly the properties with the id; with
      distinct rule ids the app is told to write the property's value when
      it was disabled and the empty string when it was enabled. */
  lemma ToggleFlips(st: Inspector, pid: string, j: nat)
    requires Active(st) && DistinctRuleIds(st.rules)
    requires FindProperty(st.rules[Cur(st)].properties, pid).Some?
    requires j < |st.rules[Cur(st)].properties|
    ensures var props := st.rules[Cur(st)].properties;
      var out := HandlePropertyToggle(st, pid);
      var prop := FindProperty(props, pid).value;
      && |out.rules[Cur(st)].properties| == |props|
      && (props[j].id == pid ==> out.rules[Cur(st)].properties[j] == props[j].(enabled := !props[j].enabled))
      && (props[j].id != pid ==> out.rules[Cur(st)].properties[j] == props[j])
      && out.change == Some(StyleChange(Target(st).id, Some(prop.name), Some(prop.value), Some(prop.name),
                                        Some(if prop.enabled then "" else prop.value)))
  {
    var i := Cur(st);
    var rule := st.rules[i];
    var rules := ToggleRules(st.rules, rule.id, pid);
    var props := rule.properties;
    var ps := rules[i].properties;
    assert ps == MapProperties(props, p => FlipProperty(p, pid));
    forall k | 0 <= k < |rules| && k != i ensures rules[k].id != rule.id {
    }
    assert RuleWithId(rules, rule.id) == Some(rules[i]) by {
      var q := (r: CssRule) => r.id == rule.id;
      assert FindIndex(rules, q) == Some(i);
    }
    FindIndexAgree(ps, props, (p: CssProperty) => p.id == pid, (p: CssProperty) => p.id == pid);
  }

  /** A toggle rewrites the rules through `ToggleRules` on the current rule's id. */
  lemma ToggleShape(st: Inspector, pid: string)
    requires Active(st)
    ensures HandlePropertyToggle(st, pid).rules == ToggleRules(st.rules, st.rules[Cur(st)].id, pid)
  {
  }

  /** Flipping the same properties twice gives back the rule list. */
  lemma ToggleRulesTwice(rules: seq<CssRule>, ruleId: string, pid: string)
    ensures ToggleRules(ToggleRules(rules, ruleId, pid), ruleId, pid) == rules
  {
    var once := ToggleRules(rules, ruleId, pid);
    var twice := ToggleRules(once, ruleId, pid);
    forall r | 0 <= r < |rules| ensures twice[r] == rules[r] {
      if rules[r].id == ruleId {
        var ps := rules[r].properties;
        assert |twice[r].properties| == |ps|;
        forall j | 0 <= j < |ps| ensures twice[r].properties[j] == ps[j] {
          assert once[r].properties[j] == FlipProperty(ps[j], pid);
        }
      }
    }
  }

  /** Toggling twice restores the rule list. */
  lemma ToggleInvolution(st: Inspector, pid: string)
    ensures HandlePropertyToggle(st.(rules := HandlePropertyToggle(st, pid).rules), pid).rules == st.rules
  {
    if Active(st) {
      var i := Cur(st);
      var id := st.rules[i].id;
      var f := (props: seq<CssProperty>) => MapProperties(props, p => FlipProperty(p, pid));
      var once := ToggleRules(st.rules, id, pid);
      ToggleShape(st, pid);
      MapRulesKeepsCurrent(st.rules, id, f, st.selected);
      var st2 := st.(rules := once);
      assert Active(st2) && Cur(st2) == i;
      ToggleShape(st2, pid);
      ToggleRulesTwice(st.rules, id, pid);
    }
  }

  // ---------------------------------------------------------------------
  // addNewProperty
  // ---------------------------------------------------------------------

  /** Position of the first property whose name and value are both blank. */
  function BlankIndex(props: seq<CssProperty>): (r: Option<nat>)
    ensures r.Some? ==> r.value < |props| && IsBlank(props[r.value].name) && IsBlank(props[r.value].value)
    ensures r.Some? ==> forall j :: 0 <= j < r.value ==> !(IsBlank(props[j].name) && IsBlank(props[j].value))
    ensures r.None? <==> forall j :: 0 <= j < |props| ==> !(IsBlank(props[j].name) && IsBlank(props[j].value))
  {
    FindIndex(props, (p: CssProperty) => IsBlank(p.name) && IsBlank(p.value))
  }

  /** The id of a property added at time `now` (`Date.now()`, in ms). */
  function NewPropertyId(now: nat): string {
    "prop-" + NatToString(now)
  }

  function BlankProperty(now: nat): CssProperty {
    CssProperty(NewPropertyId(now), "", "", true)
  }

  function AddNewProperty(st: Inspector, now: nat): (out: Reaction)
    ensures !Active(st) ==> out == Unchanged(st)
    ensures Active(st) && BlankIndex(st.rules[Cur(st)].properties).Some? ==>
      var props := st.rules[Cur(st)].properties;
      out == Reaction(st.rules, None, Some(props[BlankIndex(props).value].id))
    ensures Active(st) && BlankIndex(st.rules[Cur(st)].properties).None? ==>
      && out.change == None && out.focus == Some(NewPropertyId(now))
      && |out.rules| == |st.rules|
      && forall i :: 0 <= i < |st.rules| ==>
           out.rules[i] == if st.rules[i].id == st.rules[Cur(st)].id
                           then st.rules[i].(properties := st.rules[i].properties + [BlankProperty(now)])
                           else st.rules[i]
  {
    if !Active(st) then Unchanged(st)
    else
      var rule := CurrentRule(st.rules, st.selected).value;
      match BlankIndex(rule.properties)
      case Some(k) => Reaction(st.rules, None, Some(rule.properties[k].id))
      case None =>
        Reaction(MapRulesWithId(st.rules, rule.id, props => props + [BlankProperty(now)]),
                 None, Some(NewPropertyId(now)))
  }

  /** The empty string is blank. */
  lemma EmptyIsBlank()
    ensures IsBlank("")
  {
  }

  /** Appending a blank property to a list without one makes it the first blank. */
  lemma BlankIndexAppend(props: seq<CssProperty>, now: nat)
    requires BlankIndex(props).None?
    ensures BlankIndex(props + [BlankProperty(now)]) == Some(|props|)
  {
    EmptyIsBlank();
    FindIndexAppend(props, BlankProperty(now), (p: CssProperty) => IsBlank(p.name) && IsBlank(p.value));
  }

  /** Adding is guarded against a second blank form: right after an add,
      another add changes nothing and focuses the form just added. */
  lemma AddNewSettles(st: Inspector, now: nat, later: nat)
    requires Active(st) && BlankIndex(st.rules[Cur(st)].properties).None?
    ensures var once := AddNewProperty(st, now);
      AddNewProperty(st.(rules := once.rules), later) == Reaction(once.rules, None, Some(NewPropertyId(now)))
  {
    var i := Cur(st);
    var rule := st.rules[i];
    var f := (props: seq<CssProperty>) => props + [BlankProperty(now)];
    var once := AddNewProperty(st, now).rules;
    assert once == MapRulesWithId(st.rules, rule.id, f);
    MapRulesKeepsCurrent(st.rules, rule.id, f, st.selected);
    var st2 := st.(rules := once);
    assert Active(st2) && Cur(st2) == i;
    var ps := once[i].properties;
    assert ps == rule.properties + [BlankProperty(now)];
    BlankIndexAppend(rule.properties, now);
    assert ps[|rule.properties|].id == NewPropertyId(now);
  }

  // ---------------------------------------------------------------------
  // removeProperty
  // ---------------------------------------------------------------------

  function RemoveProperty(st: Inspector, pid: string): (out: Reaction)
    ensures !Active(st) ==> out == Unchanged(st)
    ensures Active(st) ==>
      var prop := FindProperty(st.rules[Cur(st)].properties, pid);
      && out.focus == None
      && (prop.None? ==> out.change == None)
      && (prop.Some? ==> out.change == Some(StyleChange(Target(st).id, Some(prop.value.name), Some(prop.value.value), None, None)))
      && |out.rules| == |st.rules|
      && forall i :: 0 <= i < |st.rules| ==>
           out.rules[i] == if st.rules[i].id == st.rules[Cur(st)].id
                           then st.rules[i].(properties := RemoveById(st.rules[i].properties, pid))
                           else st.rules[i]
  {
    if !Active(st) then Unchanged(st)
    else
      var rule := CurrentRule(st.rules, st.selected).value;
      var node := SelectedNode(st.nodes, st.selected).value;
      var change := match FindProperty(rule.properties, pid)
        case None => None
        case Some(p) => Some(StyleChange(node.id, Some(p.name), Some(p.value), None, None));
      Reaction(MapRulesWithId(st.rules, rule.id, props => RemoveById(props, pid)), change, None)
  }

  /** Removal keeps the order of the remaining properties: it works piece
      by piece. */
  lemma {:induction false} RemoveByIdAppend(a: seq<CssProperty>, b: seq<CssProperty>, pid: string)
    ensures RemoveById(a + b, pid) == RemoveById(a, pid) + RemoveById(b, pid)
    decreases |a|
  {
    if |a| == 0 {
      assert a + b == b;
    } else {
      assert (a + b)[1..] == a[1..] + b;
      RemoveByIdAppend(a[1..], b, pid);
    }
  }

  /** Removal leaves a list without the id alone. */
  lemma {:induction false} RemoveByIdAbsent(props: seq<CssProperty>, pid: string)
    requires forall j :: 0 <= j < |props| ==> props[j].id != pid
    ensures RemoveById(props, pid) == props
    decreases |props|
  {
    if |props| > 0 {
      RemoveByIdAbsent(props[1..], pid);
      assert props == [props[0]] + props[1..];
    }
  }

  /** Removing the same property again changes nothing and reports nothing. */
  lemma RemoveIdempotent(st: Inspector, pid: string)
    requires Active(st)
    ensures var once := RemoveProperty(st, pid).rules;
      RemoveProperty(st.(rules := once), pid) == Reaction(once, None, None)
  {
    var i := Cur(st);
    var rule := st.rules[i];
    var f := (props: seq<CssProperty>) => RemoveById(props, pid);
    var once := RemoveProperty(st, pid).rules;
    MapRulesKeepsCurrent(st.rules, rule.id, f, st.selected);
    var st2 := st.(rules := once);
    assert Cur(st2) == i;
    forall r | 0 <= r < |once| && once[r].id == rule.id
      ensures RemoveById(once[r].properties, pid) == once[r].properties
    {
      var ps := once[r].properties;
      forall j | 0 <= j < |ps| ensures ps[j].id != pid {
        assert ps[j] in ps;
      }
      RemoveByIdAbsent(ps, pid);
    }
    assert MapRulesWithId(once, rule.id, f) == once;
    assert FindProperty(once[i].properties, pid).None? by {
      var ps := once[i].properties;
      forall j | 0 <= j < |ps| ensures ps[j].id != pid {
        assert ps[j] in ps;
      }
    }
  }

  // ---------------------------------------------------------------------
  // What the reported edits do to the forest
  // ---------------------------------------------------------------------

  /** A value change reported to the app writes the new value under the
      property's name on the selected node. */
  lemma ValueChangeReachesNode(st: Inspector, pid: string, newValue: string, supports: (string, string) -> bool)
    requires Active(st) && UniqueIds(st.nodes)
    requires FindProperty(st.rules[Cur(st)].properties, pid).Some?
    requires Writable(Some(FindProperty(st.rules[Cur(st)].properties, pid).value.name))
    ensures var c := HandlePropertyChange(st, pid, newValue, supports).change.value;
      var name := FindProperty(st.rules[Cur(st)].properties, pid).value.name;
      && FindNodeById(HandleStyleChange(st.nodes, c), Target(st).id).Some?
      && Lookup(FindNodeById(HandleStyleChange(st.nodes, c), Target(st).id).value, name) == Some(Str(newValue))
  {
    var c := HandlePropertyChange(st, pid, newValue, supports).change.value;
    var n := Target(st);
    FindFound(st.nodes, n.id);
    assert n.id in IdSet(PreOrder(st.nodes));
    ChangeIsLocal(st.nodes, c, n.id);
  }

  /** Removing a property the selected node carries (with a defined value)
      deletes it from that node. */
  lemma RemoveReachesNode(st: Inspector, pid: string)
    requires Active(st) && UniqueIds(st.nodes)
    requires FindProperty(st.rules[Cur(st)].properties, pid).Some?
    requires var name := FindProperty(st.rules[Cur(st)].properties, pid).value.name;
      Writable(Some(name)) && Attr(Target(st), name) != Undefined
    ensures var c := RemoveProperty(st, pid).change.value;
      var name := FindProperty(st.rules[Cur(st)].properties, pid).value.name;
      && FindNodeById(HandleStyleChange(st.nodes, c), Target(st).id).Some?
      && Lookup(FindNodeById(HandleStyleChange(st.nodes, c), Target(st).id).value, name) == None
  {
    var c := RemoveProperty(st, pid).change.value;
    var n := Target(st);
    FindFound(st.nodes, n.id);
    assert n.id in IdSet(PreOrder(st.nodes));
    ChangeIsLocal(st.nodes, c, n.id);
  }
}

=== FILE: css_rules.dfy ===
/** The rule list both CSS inspectors edit (src/components/CssInspector/index.tsx
    and the older src/components/CssInspector.tsx): the selected node, the
    rule that applies to it, the default rule built for a node without one,
    and rewriting the properties of that rule. */
module CssRules {
  import opened Common
  import opened Tree
  import opened Nodes
  import opened NodeStyle

  datatype CssProperty = CssProperty(id: string, name: string, value: string, enabled: bool)

  datatype CssRule = CssRule(id: string, selector: string, properties: seq<CssProperty>)

  /** `selectedId ? findNodeById(nodes, selectedId) : undefined`. */
  function SelectedNode(nodes: seq<Node>, selected: Option<string>): (r: Option<Node>)
    ensures r.Some? <==> selected.Some? && selected.value != "" && selected.value in Ids(nodes)
    ensures r.Some? ==> r.value.id == selected.value && r.value in PreOrder(nodes)
  {
    FindFound(nodes, selected.GetOr(""));
    if selected.Some? && selected.value != "" then FindNodeById(nodes, selected.value) else None
  }

  /** The rule a selector applies to the selected id: its selector contains
      the id as a substring. */
  predicate Applies(rule: CssRule, id: string) {
    Includes(rule.selector, id)
  }

  /** `cssRules.find(rule => rule.selector.includes(selectedId || ''))`. */
  function CurrentRuleIndex(rules: seq<CssRule>, selected: Option<string>): (r: Option<nat>)
    ensures r.Some? ==> r.value < |rules| && Applies(rules[r.value], selected.GetOr(""))
    ensures r.Some? ==> forall j :: 0 <= j < r.value ==> !Applies(rules[j], selected.GetOr(""))
    ensures r.None? <==> forall j :: 0 <= j < |rules| ==> !Applies(rules[j], selected.GetOr(""))
  {
    FindIndex(rules, (rule: CssRule) => Applies(rule, selected.GetOr("")))
  }

  function CurrentRule(rules: seq<CssRule>, selected: Option<string>): (r: Option<CssRule>)
    ensures r.Some? <==> CurrentRuleIndex(rules, selected).Some?
    ensures r.Some? ==> r.value == rules[CurrentRuleIndex(rules, selected).value]
  {
    match CurrentRuleIndex(rules, selected)
    case None => None
    case Some(i) => Some(rules[i])
  }

  /** `shouldInitializeRules`: an id is selected and no rule applies to it. */
  predicate ShouldInitialize(rules: seq<CssRule>, selected: Option<string>) {
    selected.Some? && selected.value != "" && CurrentRule(rules, selected).None?
  }

  /** `${v}px`. */
  function Px(v: Value): string {
    ValueToString(v) + "px"
  }

  /** The nine-property rule built for a node that has no rule yet. */
  function DefaultRule(id: string, n: Node): (rule: CssRule)
    ensures rule.id == "rule-" + id && rule.selector == "#" + id
    ensures |rule.properties| == 9
    ensures forall i :: 0 <= i < 9 ==> rule.properties[i].enabled
    ensures forall i :: 0 <= i < 9 ==> rule.properties[i].id == "prop-" + NatToString(i + 1)
  {
    CssRule("rule-" + id, "#" + id, [
      CssProperty("prop-1", "display", ValueToString(Or(Attr(n, "display"), Str("block"))), true),
      CssProperty("prop-2", "width", Px(Attr(n, "width")), true),
      CssProperty("prop-3", "height", Px(Attr(n, "height")), true),
      CssProperty("prop-4", "background", ValueToString(Or(Attr(n, "background"), Str("transparent"))), true),
      CssProperty("prop-5", "color", ValueToString(Or(Attr(n, "color"), Str("#000000"))), true),
      CssProperty("prop-6", "border", ValueToString(Or(Attr(n, "border"), Str("none"))), true),
      CssProperty("prop-7", "position", "absolute", true),
      CssProperty("prop-8", "left", Px(Attr(n, "x")), true),
      CssProperty("prop-9", "top", Px(Attr(n, "y")), true)
    ])
  }

  /** The default rule shows what the canvas draws: the node's geometry in
      pixels, its position, and, where the node sets them, its display,
      background, color and border. Unset ones read as the CSS defaults
      block, transparent, #000000 and none. */
  lemma DefaultRuleMatchesStyle(id: string, n: Node)
    ensures var p, st := DefaultRule(id, n).properties, NodeToStyle(n);
      && p[1].value == Px(st.width) && p[2].value == Px(st.height)
      && p[7].value == Px(st.left) && p[8].value == Px(st.top)
      && p[6].value == st.position
      && (Truthy(st.background) ==> p[3].value == ValueToString(st.background))
      && (!Truthy(st.background) ==> p[3].value == "transparent")
      && (Truthy(st.color) ==> p[4].value == ValueToString(st.color))
      && (!Truthy(st.color) ==> p[4].value == "#000000")
      && (Truthy(st.border) ==> p[5].value == ValueToString(st.border))
      && (!Truthy(st.border) ==> p[5].value == "none")
      && (Truthy(Attr(n, "display")) ==> p[0].value == ValueToString(Attr(n, "display")))
      && (!Truthy(Attr(n, "display")) ==> p[0].value == "block")
  {
    DefaultRuleValues(id, n);
    OrDefault(Attr(n, "display"), "block");
    OrDefault(Attr(n, "background"), "transparent");
    OrDefault(Attr(n, "color"), "#000000");
    OrDefault(Attr(n, "border"), "none");
  }

  /** The value of each default property, as a string. */
  lemma DefaultRuleValues(id: string, n: Node)
    ensures var p := DefaultRule(id, n).properties;
      && p[0].value == ValueToString(Or(Attr(n, "display"), Str("block")))
      && p[1].value == Px(Attr(n, "width")) && p[2].value == Px(Attr(n, "height"))
      && p[3].value == ValueToString(Or(Attr(n, "background"), Str("transparent")))
      && p[4].value == ValueToString(Or(Attr(n, "color"), Str("#000000")))
      && p[5].value == ValueToString(Or(Attr(n, "border"), Str("none")))
      && p[6].value == "absolute"
      && p[7].value == Px(Attr(n, "x")) && p[8].value == Px(Attr(n, "y"))
  {
  }

  /** `String(v || d)` for a non-empty string default `d`. */
  lemma OrDefault(v: Value, d: string)
    requires d != ""
    ensures Truthy(v) ==> ValueToString(Or(v, Str(d))) == ValueToString(v)
    ensures !Truthy(v) ==> ValueToString(Or(v, Str(d))) == d
  {
  }

  /** The nine default properties have distinct ids. */
  lemma DefaultRuleDistinctIds(id: string, n: Node)
    ensures var p := DefaultRule(id, n).properties;
      forall i, j :: 0 <= i < j < |p| ==> p[i].id != p[j].id
  {
    var p := DefaultRule(id, n).properties;
    forall i, j | 0 <= i < j < |p| ensures p[i].id != p[j].id {
      if p[i].id == p[j].id {
        assert p[i].id[5..] == NatToString(i + 1);
        assert p[j].id[5..] == NatToString(j + 1);
        NatToStringInjective(i + 1, j + 1);
      }
    }
  }

  /** The property names of the default rule, in order. */
  const DefaultNames: seq<string> :=
    ["display", "width", "height", "background", "color", "border", "position", "left", "top"]

  /** The default rule names each of the nine properties once. */
  lemma DefaultRuleNames(id: string, n: Node)
    ensures var p := DefaultRule(id, n).properties;
      forall i :: 0 <= i < |p| ==> p[i].name == DefaultNames[i]
    ensures forall i, j :: 0 <= i < j < |DefaultNames| ==> DefaultNames[i] != DefaultNames[j]
  {
    forall i, j | 0 <= i < j < |DefaultNames| ensures DefaultNames[i] != DefaultNames[j] {
      assert |DefaultNames[i]| != |DefaultNames[j]| || DefaultNames[i][0] != DefaultNames[j][0];
    }
  }

  /** The rule list after the initialising effect has run. When an id is
      selected, no rule applies to it and the node exists, the list is
      REPLACED by the node's default rule; rules for other nodes go. */
  function InitializeRules(nodes: seq<Node>, selected: Option<string>, rules: seq<CssRule>): (r: seq<CssRule>)
    ensures ShouldInitialize(rules, selected) && SelectedNode(nodes, selected).Some? ==>
      r == [DefaultRule(selected.value, SelectedNode(nodes, selected).value)]
    ensures !(ShouldInitialize(rules, selected) && SelectedNode(nodes, selected).Some?) ==> r == rules
  {
    if ShouldInitialize(rules, selected) then
      match SelectedNode(nodes, selected)
      case Some(n) => [DefaultRule(selected.value, n)]
      case None => rules
    else rules
  }

  /** The selector `#id` applies to `id`. */
  lemma DefaultSelectorApplies(id: string, n: Node)
    ensures Applies(DefaultRule(id, n), id)
  {
    var s := "#" + id;
    assert s[1..] == id;
    assert Includes(s[1..], id) by { IncludesSelf(id); }
  }

  /** Once the effect has run for an existing node, a rule applies to it,
      so running the effect again changes nothing. */
  lemma InitializeSettles(nodes: seq<Node>, selected: Option<string>, rules: seq<CssRule>)
    requires SelectedNode(nodes, selected).Some?
    ensures CurrentRule(InitializeRules(nodes, selected, rules), selected).Some?
    ensures InitializeRules(nodes, selected, InitializeRules(nodes, selected, rules)) == InitializeRules(nodes, selected, rules)
  {
    var r := InitializeRules(nodes, selected, rules);
    if ShouldInitialize(rules, selected) {
      DefaultSelectorApplies(selected.value, SelectedNode(nodes, selected).value);
      assert Applies(r[0], selected.GetOr(""));
    }
  }

  /** `properties.map(...)` of one property at a time. */
  function MapProperties(props: seq<CssProperty>, f: CssProperty -> CssProperty): (r: seq<CssProperty>)
    ensures |r| == |props|
    ensures forall i :: 0 <= i < |props| ==> r[i] == f(props[i])
  {
    seq(|props|, i requires 0 <= i < |props| => f(props[i]))
  }

  /** `properties.filter(prop => prop.id !== id)`. */
  function RemoveById(props: seq<CssProperty>, id: string): (r: seq<CssProperty>)
    ensures |r| <= |props|
    ensures forall p :: p in r <==> p in props && p.id != id
    decreases props
  {
    if |props| == 0 then []
    else if props[0].id == id then RemoveById(props[1..], id)
    else [props[0]] + RemoveById(props[1..], id)
  }

  /** `cssRules.map(rule => rule.id === ruleId ? {...rule, properties: f(rule.properties)} : rule)`. */
  function MapRulesWithId(rules: seq<CssRule>, ruleId: string, f: seq<CssProperty> -> seq<CssProperty>): (r: seq<CssRule>)
    ensures |r| == |rules|
    ensures forall i :: 0 <= i < |rules| && rules[i].id == ruleId ==> r[i] == rules[i].(properties := f(rules[i].properties))
    ensures forall i :: 0 <= i < |rules| && rules[i].id != ruleId ==> r[i] == rules[i]
  {
    seq(|rules|, i requires 0 <= i < |rules| =>
      if rules[i].id == ruleId then rules[i].(properties := f(rules[i].properties)) else rules[i])
  }

  /** Rewriting properties keeps every selector, so the same rule stays current. */
  lemma MapRulesKeepsCurrent(rules: seq<CssRule>, ruleId: string, f: seq<CssProperty> -> seq<CssProperty>, selected: Option<string>)
    ensures CurrentRuleIndex(MapRulesWithId(rules, ruleId, f), selected) == CurrentRuleIndex(rules, selected)
  {
    var r := MapRulesWithId(rules, ruleId, f);
    assert forall i :: 0 <= i < |rules| ==> r[i].selector == rules[i].selector;
    var p := (rule: CssRule) => Applies(rule, selected.GetOr(""));
    FindIndexAgree(r, rules, p, p);
  }
}

=== FILE: labels.dfy ===
/** `computeComponentLabels` of src/lib/nodes.ts: every node that has at
    least one child, roots included, gets the label `C<n>`, numbered in
    pre-order from 1. There is no grouping of similar subtrees. */
module ComponentLabels {
  import opened Common
  import opened Tree
  import opened Nodes

  /** `C${counter}`. */
  function Label(counter: nat): string {
    "C" + NatToString(counter)
  }

  lemma LabelInjective(a: nat, b: nat)
    requires Label(a) == Label(b)
    ensures a == b
  {
    assert Label(a)[1..] == NatToString(a);
    assert Label(b)[1..] == NatToString(b);
    NatToStringInjective(a, b);
  }

  /** The labels assigned so far and the counter for the next one. */
  datatype Labelling = Labelling(labels: map<string, string>, next: nat)

  /** The inner `collect` of `computeComponentLabels`: a node with children
      gets the next label, overwriting any earlier label of the same id, and
      only then are its children visited. */
  function Collect(nodes: seq<Node>, acc: Labelling): Labelling
    decreases nodes
  {
    if |nodes| == 0 then acc
    else
      var n := nodes[0];
      var afterNode :=
        if |n.children| > 0 then
          Collect(n.children, Labelling(acc.labels[n.id := Label(acc.next)], acc.next + 1))
        else acc;
      Collect(nodes[1..], afterNode)
  }

  /** `computeComponentLabels(nodes)`. */
  function ComputeComponentLabels(nodes: seq<Node>): map<string, string> {
    Collect(nodes, Labelling(map[], 1)).labels
  }

  /** The entries of a flat list that have at least one child. */
  function Containers(p: seq<Node>): (r: seq<Node>)
    ensures forall n :: n in r <==> n in p && |n.children| > 0
  {
    if |p| == 0 then []
    else (if |p[0].children| > 0 then [p[0]] else []) + Containers(p[1..])
  }

  /** The nodes of a forest that get a label, in the order they get it. */
  function LabelledNodes(nodes: seq<Node>): seq<Node> {
    Containers(PreOrder(nodes))
  }

  /** Labels handed out one by one along a flat list, with a counter;
      `lab` turns the counter into a label. */
  function AssignInOrder(p: seq<Node>, acc: Labelling, lab: nat -> string): Labelling
    decreases |p|
  {
    if |p| == 0 then acc
    else AssignInOrder(p[1..], Labelling(acc.labels[p[0].id := lab(acc.next)], acc.next + 1), lab)
  }

  lemma {:induction false} ContainersAppend(a: seq<Node>, b: seq<Node>)
    ensures Containers(a + b) == Containers(a) + Containers(b)
    decreases |a|
  {
    if |a| == 0 {
      assert a + b == b;
    } else {
      assert (a + b)[1..] == a[1..] + b;
      ContainersAppend(a[1..], b);
    }
  }

  lemma {:induction false} AssignAppend(a: seq<Node>, b: seq<Node>, acc: Labelling, lab: nat -> string)
    ensures AssignInOrder(a + b, acc, lab) == AssignInOrder(b, AssignInOrder(a, acc, lab), lab)
    decreases |a|
  {
    if |a| == 0 {
      assert a + b == b;
    } else {
      assert (a + b)[0] == a[0];
      assert (a + b)[1..] == a[1..] + b;
      AssignAppend(a[1..], b, Labelling(acc.labels[a[0].id := lab(acc.next)], acc.next + 1), lab);
    }
  }

  /** The labelled nodes of a forest: its first root when that has
      children, then those below it, then those of the other roots. */
  lemma LabelledNodesCons(nodes: seq<Node>)
    requires |nodes| > 0
    ensures LabelledNodes(nodes) ==
      (if |nodes[0].children| > 0 then [nodes[0]] else []) + LabelledNodes(nodes[0].children) + LabelledNodes(nodes[1..])
  {
    var n := nodes[0];
    var pc, pr := PreOrder(n.children), PreOrder(nodes[1..]);
    PreOrderCons(nodes);
    ContainersAppend([n] + pc, pr);
    ContainersAppend([n], pc);
    assert Containers([n]) == if |n.children| > 0 then [n] else [];
  }

  /** The recursive `collect` does exactly what labelling the nodes with
      children, in pre-order, one after the other does. */
  lemma {:induction false} CollectIsAssignInOrder(nodes: seq<Node>, acc: Labelling)
    ensures Collect(nodes, acc) == AssignInOrder(LabelledNodes(nodes), acc, Label)
    decreases nodes
  {
    if |nodes| > 0 {
      var n := nodes[0];
      var head := if |n.children| > 0 then [n] else [];
      LabelledNodesCons(nodes);
      var lc, lr := LabelledNodes(n.children), LabelledNodes(nodes[1..]);
      var afterNode :=
        if |n.children| > 0 then
          Collect(n.children, Labelling(acc.labels[n.id := Label(acc.next)], acc.next + 1))
        else acc;
      AssignAppend(head + lc, lr, acc, Label);
      AssignAppend(head, lc, acc, Label);
      if |n.children| > 0 {
        assert AssignInOrder(head, acc, Label) == Labelling(acc.labels[n.id := Label(acc.next)], acc.next + 1) by {
          assert head[1..] == [];
        }
        CollectIsAssignInOrder(n.children, Labelling(acc.labels[n.id := Label(acc.next)], acc.next + 1));
      } else {
        assert lc == [] by { assert PreOrder(n.children) == []; }
      }
      assert AssignInOrder(head + lc, acc, Label) == afterNode;
      CollectIsAssignInOrder(nodes[1..], afterNode);
    }
  }

  /** Labelling a flat list advances the counter once per entry and makes
      the entries' ids keys, keeping the keys already there. */
  lemma {:induction false} AssignInOrderKeys(p: seq<Node>, acc: Labelling, lab: nat -> string)
    ensures AssignInOrder(p, acc, lab).next == acc.next + |p|
    ensures AssignInOrder(p, acc, lab).labels.Keys == acc.labels.Keys + IdSet(p)
    decreases |p|
  {
    if |p| > 0 {
      AssignInOrderKeys(p[1..], Labelling(acc.labels[p[0].id := lab(acc.next)], acc.next + 1), lab);
      IdSetAppend([p[0]], p[1..]);
      assert p == [p[0]] + p[1..];
      assert IdSet([p[0]]) == {p[0].id};
    }
  }

  /** An id occurs in a flat list exactly when the list has a last entry with it. */
  lemma MatchInIdSet(p: seq<Node>, k: string)
    ensures LastMatchIndex(p, k).Some? <==> k in IdSet(p)
  {
    if k in IdSet(p) {
      var u :| u in p && u.id == k;
      var i :| 0 <= i < |p| && p[i] == u;
    }
    if LastMatchIndex(p, k).Some? {
      assert p[LastMatchIndex(p, k).value] in p;
    }
  }

  /** An id of the list holds the label of the LAST entry with that id. */
  lemma {:induction false} AssignInOrderValue(p: seq<Node>, acc: Labelling, k: string, lab: nat -> string)
    requires LastMatchIndex(p, k).Some?
    ensures k in AssignInOrder(p, acc, lab).labels
    ensures AssignInOrder(p, acc, lab).labels[k] == lab(acc.next + LastMatchIndex(p, k).value)
    decreases |p|
  {
    var acc' := Labelling(acc.labels[p[0].id := lab(acc.next)], acc.next + 1);
    assert AssignInOrder(p, acc, lab) == AssignInOrder(p[1..], acc', lab);
    LastMatchIndexCons(p, k);
    if LastMatchIndex(p[1..], k).Some? {
      AssignInOrderValue(p[1..], acc', k, lab);
    } else {
      AssignInOrderValueFirst(p, acc, k, lab);
    }
  }

  /** The last match in a list is the last match in its tail, one place
      further on, or else the head when it matches. */
  lemma LastMatchIndexCons(p: seq<Node>, k: string)
    requires |p| > 0
    ensures LastMatchIndex(p[1..], k).Some? ==>
      LastMatchIndex(p, k) == Some(LastMatchIndex(p[1..], k).value + 1)
    ensures LastMatchIndex(p[1..], k).None? ==>
      (LastMatchIndex(p, k).Some? <==> p[0].id == k)
  {
  }

  /** An id carried only by the head holds the head's label. */
  lemma {:induction false} AssignInOrderValueFirst(p: seq<Node>, acc: Labelling, k: string, lab: nat -> string)
    requires |p| > 0 && p[0].id == k && LastMatchIndex(p[1..], k).None?
    ensures k in AssignInOrder(p, acc, lab).labels
    ensures AssignInOrder(p, acc, lab).labels[k] == lab(acc.next)
  {
    var acc' := Labelling(acc.labels[k := lab(acc.next)], acc.next + 1);
    assert AssignInOrder(p, acc, lab) == AssignInOrder(p[1..], acc', lab);
    MatchInIdSet(p[1..], k);
    AssignInOrderKeeps(p[1..], acc', k, lab);
  }

  /** Keys that no entry of the list carries keep their labels. */
  lemma {:induction false} AssignInOrderKeeps(p: seq<Node>, acc: Labelling, k: string, lab: nat -> string)
    requires k in acc.labels && k !in IdSet(p)
    ensures k in AssignInOrder(p, acc, lab).labels
    ensures AssignInOrder(p, acc, lab).labels[k] == acc.labels[k]
    decreases |p|
  {
    if |p| > 0 {
      assert p[0] in p;
      forall u | u in p[1..] ensures u.id != k {
        assert u in p;
      }
      AssignInOrderKeeps(p[1..], Labelling(acc.labels[p[0].id := lab(acc.next)], acc.next + 1), k, lab);
    }
  }

  /** Exactly the ids of nodes with at least one child are labelled, roots
      included; ids that only leaves carry are absent. */
  lemma LabelKeys(nodes: seq<Node>)
    ensures ComputeComponentLabels(nodes).Keys == IdSet(LabelledNodes(nodes))
    ensures forall id :: id in ComputeComponentLabels(nodes) <==>
      exists n :: n in PreOrder(nodes) && |n.children| > 0 && n.id == id
  {
    CollectIsAssignInOrder(nodes, Labelling(map[], 1));
    AssignInOrderKeys(LabelledNodes(nodes), Labelling(map[], 1), Label);
    forall id | id in ComputeComponentLabels(nodes)
      ensures exists n :: n in PreOrder(nodes) && |n.children| > 0 && n.id == id
    {
      var n :| n in LabelledNodes(nodes) && n.id == id;
    }
    forall id | exists n :: n in PreOrder(nodes) && |n.children| > 0 && n.id == id
      ensures id in ComputeComponentLabels(nodes)
    {
      var n :| n in PreOrder(nodes) && |n.children| > 0 && n.id == id;
      assert n in LabelledNodes(nodes);
    }
  }

  /** Every root with children is labelled. */
  lemma RootsAreLabelled(nodes: seq<Node>, i: nat)
    requires i < |nodes| && |nodes[i].children| > 0
    ensures nodes[i].id in ComputeComponentLabels(nodes)
  {
    LabelKeys(nodes);
    assert nodes == nodes[..i] + [nodes[i]] + nodes[i + 1..];
    PreOrderAppend(nodes[..i] + [nodes[i]], nodes[i + 1..]);
    PreOrderAppend(nodes[..i], [nodes[i]]);
    SingletonPreOrder(nodes[i]);
    assert nodes[i] in PreOrder(nodes);
  }

  /** The label of an id is `C<k>` where k is the 1-based position, among
      the nodes with children in pre-order, of the last one with that id. */
  lemma LabelValues(nodes: seq<Node>, id: string)
    requires id in ComputeComponentLabels(nodes)
    ensures LastMatchIndex(LabelledNodes(nodes), id).Some?
    ensures ComputeComponentLabels(nodes)[id] == Label(1 + LastMatchIndex(LabelledNodes(nodes), id).value)
  {
    CollectIsAssignInOrder(nodes, Labelling(map[], 1));
    AssignInOrderKeys(LabelledNodes(nodes), Labelling(map[], 1), Label);
    MatchInIdSet(LabelledNodes(nodes), id);
    AssignInOrderValue(LabelledNodes(nodes), Labelling(map[], 1), id, Label);
  }

  /** Labels run over `C1..Ck`, k the number of nodes with children, and no
      two ids share a label. */
  lemma LabelsDistinctAndInRange(nodes: seq<Node>)
    ensures forall id :: id in ComputeComponentLabels(nodes) ==>
      exists c :: 1 <= c <= |LabelledNodes(nodes)| && ComputeComponentLabels(nodes)[id] == Label(c)
    ensures forall a, b :: a in ComputeComponentLabels(nodes) && b in ComputeComponentLabels(nodes) && a != b ==>
      ComputeComponentLabels(nodes)[a] != ComputeComponentLabels(nodes)[b]
  {
    var labels := ComputeComponentLabels(nodes);
    var p := LabelledNodes(nodes);
    forall id | id in labels
      ensures exists c :: 1 <= c <= |p| && labels[id] == Label(c)
    {
      LabelValues(nodes, id);
      var c := 1 + LastMatchIndex(p, id).value;
      assert labels[id] == Label(c);
    }
    forall a, b | a in labels && b in labels && a != b ensures labels[a] != labels[b] {
      LabelValues(nodes, a);
      LabelValues(nodes, b);
      var ia, ib := LastMatchIndex(p, a).value, LastMatchIndex(p, b).value;
      assert p[ia].id == a && p[ib].id == b;
      if labels[a] == labels[b] {
        LabelInjective(1 + ia, 1 + ib);
      }
    }
  }

  /** With unique ids, the j-th node with children (from 0) gets `C<j+1>`,
      and there are exactly as many labels as nodes with children. */
  lemma LabelsOfUniqueIds(nodes: seq<Node>)
    requires UniqueIds(nodes)
    ensures forall j :: 0 <= j < |LabelledNodes(nodes)| ==>
      LabelledNodes(nodes)[j].id in ComputeComponentLabels(nodes)
    ensures forall j :: 0 <= j < |LabelledNodes(nodes)| ==>
      ComputeComponentLabels(nodes)[LabelledNodes(nodes)[j].id] == Label(j + 1)
    ensures |ComputeComponentLabels(nodes)| == |LabelledNodes(nodes)|
  {
    var p := LabelledNodes(nodes);
    var labels := ComputeComponentLabels(nodes);
    LabelKeys(nodes);
    ContainersDistinct(PreOrder(nodes));
    forall j | 0 <= j < |p| ensures p[j].id in labels && labels[p[j].id] == Label(j + 1) {
      assert p[j] in p;
      LabelValues(nodes, p[j].id);
    }
    DistinctIdsCount(p);
  }

  lemma {:induction false} ContainersDistinct(p: seq<Node>)
    requires DistinctIds(p)
    ensures DistinctIds(Containers(p))
    decreases |p|
  {
    if |p| > 0 {
      assert p == [p[0]] + p[1..];
      DistinctIdsAppend([p[0]], p[1..]);
      ContainersDistinct(p[1..]);
      var head := if |p[0].children| > 0 then [p[0]] else [];
      DistinctIdsAppend(head, Containers(p[1..]));
      assert IdSet([p[0]]) == {p[0].id};
      forall x | x in IdSet(Containers(p[1..])) ensures x in IdSet(p[1..]) {
        var u :| u in Containers(p[1..]) && u.id == x;
      }
    }
  }

  /** A flat list with distinct ids has as many ids as entries. */
  lemma {:induction false} DistinctIdsCount(p: seq<Node>)
    requires DistinctIds(p)
    ensures |IdSet(p)| == |p|
    decreases |p|
  {
    if |p| > 0 {
      assert p == [p[0]] + p[1..];
      DistinctIdsAppend([p[0]], p[1..]);
      IdSetAppend([p[0]], p[1..]);
      assert IdSet([p[0]]) == {p[0].id};
      DistinctIdsCount(p[1..]);
    }
  }
}

=== FILE: legacy_css_inspector.dfy ===
/** The older CSS inspector (src/components/CssInspector.tsx). It keeps the
    same rule list as the current one and builds the same default rule,
    but reports each edit as a plain `(nodeId, key, value)` triple, never
    checks validity or duplicates, adds a property from two text fields
    instead of a blank form, and lets the selector of the current rule be
    edited. */
module LegacyCssInspector {
  import opened Common
  import opened Tree
  import opened CssRules
  import opened CssInspector

  /** The inspector's state: the rule list and the two "new property" fields. */
  datatype Legacy = Legacy(
    nodes: seq<Node>, selected: Option<string>, rules: seq<CssRule>,
    newProperty: string, newValue: string)

  /** `onChange(nodeId, key, value)`. */
  datatype LegacyChange = LegacyChange(nodeId: string, key: string, value: string)

  datatype LegacyReaction = LegacyReaction(state: Legacy, change: Option<LegacyChange>)

  /** The part of the state the rule lookup reads. */
  function View(st: Legacy): Inspector {
    Inspector(st.nodes, st.selected, st.rules)
  }

  function Quiet(st: Legacy): LegacyReaction {
    LegacyReaction(st, None)
  }

  /** The property of the current rule with the id, as the handlers look it up. */
  function Property(st: Legacy, pid: string): Option<CssProperty>
    requires Active(View(st))
  {
    FindProperty(st.rules[Cur(View(st))].properties, pid)
  }

  /** The change reported for a property that may be missing. */
  function ReportFor(node: Node, prop: Option<CssProperty>, value: string): (r: Option<LegacyChange>)
    ensures r.Some? <==> prop.Some?
    ensures r.Some? ==> r.value == LegacyChange(node.id, prop.value.name, value)
  {
    match prop
    case None => None
    case Some(p) => Some(LegacyChange(node.id, p.name, value))
  }

  // ---------------------------------------------------------------------
  // handlePropertyChange
  // ---------------------------------------------------------------------

  function SetValueOf(p: CssProperty, pid: string, v: string): CssProperty {
    if p.id == pid then p.(value := v) else p
  }

  function SetValueRules(rules: seq<CssRule>, ruleId: string, pid: string, v: string): seq<CssRule> {
    MapRulesWithId(rules, ruleId, props => MapProperties(props, p => SetValueOf(p, pid, v)))
  }

  /** Setting the same value twice is setting it once. */
  lemma SetValueRulesTwice(rules: seq<CssRule>, ruleId: string, pid: string, v: string)
    ensures SetValueRules(SetValueRules(rules, ruleId, pid, v), ruleId, pid, v) == SetValueRules(rules, ruleId, pid, v)
  {
    var once := SetValueRules(rules, ruleId, pid, v);
    var twice := SetValueRules(once, ruleId, pid, v);
    forall r | 0 <= r < |rules| ensures twice[r] == once[r] {
      if rules[r].id == ruleId {
        var ps := once[r].properties;
        assert |twice[r].properties| == |ps|;
        forall j | 0 <= j < |ps| ensures twice[r].properties[j] == ps[j] {
          assert ps[j] == SetValueOf(rules[r].properties[j], pid, v);
        }
      }
    }
  }

  /** Without a current rule and node nothing happens. Otherwise only the
      rule list changes: every rule sharing the current rule's id gives
      its properties with the id the new value, keeping their names and
      `enabled` flags, and nothing else in the list changes. The change is
      reported, under the property's name, exactly when the current rule
      has the property. */
  function LegacyPropertyChange(st: Legacy, pid: string, v: string): (out: LegacyReaction)
    ensures !Active(View(st)) ==> out == Quiet(st)
    ensures Active(View(st)) ==>
      var ruleId := st.rules[Cur(View(st))].id;
      && out.state == st.(rules := out.state.rules)
      && |out.state.rules| == |st.rules|
      && (forall r :: 0 <= r < |st.rules| && st.rules[r].id != ruleId ==> out.state.rules[r] == st.rules[r])
      && (forall r :: 0 <= r < |st.rules| && st.rules[r].id == ruleId ==>
            && out.state.rules[r].id == ruleId
            && out.state.rules[r].selector == st.rules[r].selector
            && |out.state.rules[r].properties| == |st.rules[r].properties|
            && (forall j :: 0 <= j < |st.rules[r].properties| && st.rules[r].properties[j].id == pid ==>
                  out.state.rules[r].properties[j] == st.rules[r].properties[j].(value := v))
            && (forall j :: 0 <= j < |st.rules[r].properties| && st.rules[r].properties[j].id != pid ==>
                  out.state.rules[r].properties[j] == st.rules[r].properties[j]))
      && (out.change.Some? <==> Property(st, pid).Some?)
      && (out.change.Some? ==> out.change.value == LegacyChange(Target(View(st)).id, Property(st, pid).value.name, v))
  {
    if !Active(View(st)) then Quiet(st)
    else
      var rule := CurrentRule(st.rules, st.selected).value;
      var node := SelectedNode(st.nodes, st.selected).value;
      var rules := SetValueRules(st.rules, rule.id, pid, v);
      LegacyReaction(st.(rules := rules), ReportFor(node, FindProperty(rule.properties, pid), v))
  }

  /** After a value change the same rule is current and its property with
      the id reads back the new value, keeping its name and `enabled`
      flag: the older inspector never disables an invalid declaration. */
  lemma ValueReadsBack(st: Legacy, pid: string, v: string)
    requires Active(View(st)) && Property(st, pid).Some?
    ensures var st2 := LegacyPropertyChange(st, pid, v).state;
      && Active(View(st2)) && Cur(View(st2)) == Cur(View(st))
      && Property(st2, pid) == Some(Property(st, pid).value.(value := v))
  {
    var i := Cur(View(st));
    var rule := st.rules[i];
    var f := (props: seq<CssProperty>) => MapProperties(props, p => SetValueOf(p, pid, v));
    var st2 := LegacyPropertyChange(st, pid, v).state;
    MapRulesKeepsCurrent(st.rules, rule.id, f, st.selected);
    assert Cur(View(st2)) == i;
    var ps := st2.rules[i].properties;
    assert ps == f(rule.properties);
    var byId := (p: CssProperty) => p.id == pid;
    FindIndexAgree(ps, rule.properties, byId, byId);
  }

  /** A value change rewrites the rules through `SetValueRules` and keeps the same rule current. */
  lemma LegacyChangeShape(st: Legacy, pid: string, v: string)
    requires Active(View(st))
    ensures var st2 := LegacyPropertyChange(st, pid, v).state;
      && st2 == st.(rules := SetValueRules(st.rules, st.rules[Cur(View(st))].id, pid, v))
      && Active(View(st2)) && Cur(View(st2)) == Cur(View(st))
  {
    var f := (props: seq<CssProperty>) => MapProperties(props, p => SetValueOf(p, pid, v));
    MapRulesKeepsCurrent(st.rules, st.rules[Cur(View(st))].id, f, st.selected);
  }

  /** A value change that arrives twice leaves the rules as the first did. */
  lemma LegacyValueChangeIdempotent(st: Legacy, pid: string, v: string)
    ensures var once := LegacyPropertyChange(st, pid, v).state;
      LegacyPropertyChange(once, pid, v).state == once
  {
    if Active(View(st)) {
      var id := st.rules[Cur(View(st))].id;
      var once := LegacyPropertyChange(st, pid, v).state;
      LegacyChangeShape(st, pid, v);
      assert once.rules[Cur(View(once))].id == id;
      LegacyChangeShape(once, pid, v);
      SetValueRulesTwice(st.rules, id, pid, v);
    }
  }

  // ---------------------------------------------------------------------
  // handlePropertyToggle
  // ---------------------------------------------------------------------

  function LegacyToggle(st: Legacy, pid: string): (out: LegacyReaction)
    ensures !Active(View(st)) ==> out == Quiet(st)
    ensures Active(View(st)) ==>
      && out.state == st.(rules := ToggleRules(st.rules, st.rules[Cur(View(st))].id, pid))
      && out.change.Some? == Property(st, pid).Some?
      && (Property(st, pid).Some? && Property(st, pid).value.enabled ==>
            out.change == Some(LegacyChange(Target(View(st)).id, Property(st, pid).value.name, "")))
      && (Property(st, pid).Some? && !Property(st, pid).value.enabled ==>
            out.change == Some(LegacyChange(Target(View(st)).id, Property(st, pid).value.name, Property(st, pid).value.value)))
  {
    if !Active(View(st)) then Quiet(st)
    else
      var rule := CurrentRule(st.rules, st.selected).value;
      var node := SelectedNode(st.nodes, st.selected).value;
      var prop := FindProperty(rule.properties, pid);
      var value := if prop.Some? && !prop.value.enabled then prop.value.value else "";
      LegacyReaction(st.(rules := ToggleRules(st.rules, rule.id, pid)), ReportFor(node, prop, value))
  }

  /** The older toggle rewrites the rule list exactly as the current
      inspector's toggle does. */
  lemma LegacyToggleAgrees(st: Legacy, pid: string)
    ensures LegacyToggle(st, pid).state.rules == HandlePropertyToggle(View(st), pid).rules
  {
  }

  /** Toggling twice restores the rule list. */
  lemma LegacyToggleInvolution(st: Legacy, pid: string)
    ensures LegacyToggle(LegacyToggle(st, pid).state, pid).state == st
  {
    LegacyToggleAgrees(st, pid);
    ToggleInvolution(View(st), pid);
    LegacyToggleAgrees(LegacyToggle(st, pid).state, pid);
  }

  // ---------------------------------------------------------------------
  // addNewProperty
  // ---------------------------------------------------------------------

  /** The property added at time `now` from the two fields. */
  function Added(st: Legacy, now: nat): CssProperty {
    CssProperty(NewPropertyId(now), Trim(st.newProperty), Trim(st.newValue), true)
  }

  /** The add button works only with a current rule, a node and both
      fields holding something other than white space. */
  predicate CanAdd(st: Legacy) {
    Active(View(st)) && !IsBlank(st.newProperty) && !IsBlank(st.newValue)
  }

  function LegacyAddNewProperty(st: Legacy, now: nat): (out: LegacyReaction)
    ensures !CanAdd(st) ==> out == Quiet(st)
    ensures CanAdd(st) ==>
      && out.change == Some(LegacyChange(Target(View(st)).id, Trim(st.newProperty), Trim(st.newValue)))
      && out.state.newProperty == "" && out.state.newValue == ""
      && out.state.nodes == st.nodes && out.state.selected == st.selected
      && |out.state.rules| == |st.rules|
      && forall i :: 0 <= i < |st.rules| ==>
           out.state.rules[i] == if st.rules[i].id == st.rules[Cur(View(st))].id
                                 then st.rules[i].(properties := st.rules[i].properties + [Added(st, now)])
                                 else st.rules[i]
  {
    if !CanAdd(st) then Quiet(st)
    else
      var rule := CurrentRule(st.rules, st.selected).value;
      var node := SelectedNode(st.nodes, st.selected).value;
      var prop := Added(st, now);
      var rules := MapRulesWithId(st.rules, rule.id, props => props + [prop]);
      LegacyReaction(Legacy(st.nodes, st.selected, rules, "", ""), Some(LegacyChange(node.id, prop.name, prop.value)))
  }

  /** The added property carries a name and a value that are neither
      empty nor padded with white space. */
  lemma AddedIsTrimmed(st: Legacy, now: nat)
    requires CanAdd(st)
    ensures var p := Added(st, now);
      && p.name != [] && !IsWhitespace(p.name[0]) && !IsWhitespace(p.name[|p.name| - 1])
      && p.value != [] && !IsWhitespace(p.value[0]) && !IsWhitespace(p.value[|p.value| - 1])
  {
  }

  /** The fields are cleared, so pressing add again does nothing. */
  lemma AddClearsForm(st: Legacy, now: nat, later: nat)
    requires CanAdd(st)
    ensures var once := LegacyAddNewProperty(st, now).state;
      LegacyAddNewProperty(once, later) == Quiet(once)
  {
    var once := LegacyAddNewProperty(st, now).state;
    assert Trim("") == "";
  }

  /** When no property of the current rule has the new id, the added
      property can be found under it afterwards. */
  lemma AddedIsFound(st: Legacy, now: nat)
    requires CanAdd(st)
    requires PropertyIndex(st.rules[Cur(View(st))].properties, NewPropertyId(now)).None?
    ensures var st2 := LegacyAddNewProperty(st, now).state;
      && Active(View(st2)) && Cur(View(st2)) == Cur(View(st))
      && Property(st2, NewPropertyId(now)) == Some(Added(st, now))
  {
    var i := Cur(View(st));
    var rule := st.rules[i];
    var prop := Added(st, now);
    var f := (props: seq<CssProperty>) => props + [prop];
    var st2 := LegacyAddNewProperty(st, now).state;
    assert st2.rules == MapRulesWithId(st.rules, rule.id, f);
    MapRulesKeepsCurrent(st.rules, rule.id, f, st.selected);
    assert Cur(View(st2)) == i;
    FindIndexAppend(rule.properties, prop, (p: CssProperty) => p.id == NewPropertyId(now));
    assert st2.rules[i].properties == rule.properties + [prop];
  }

  // ---------------------------------------------------------------------
  // deleteProperty
  // ---------------------------------------------------------------------

  /** Without a current rule and node nothing happens. Otherwise only the
      rule list changes, exactly as the current inspector's removal
      changes it: every rule sharing the current rule's id keeps its id and
      selector and loses precisely its properties with the id, and the
      other rules are untouched. The empty string is reported under the
      property's name exactly when the current rule had the property. */
  function LegacyDeleteProperty(st: Legacy, pid: string): (out: LegacyReaction)
    ensures !Active(View(st)) ==> out == Quiet(st)
    ensures Active(View(st)) ==>
      var ruleId := st.rules[Cur(View(st))].id;
      && out.state == st.(rules := out.state.rules)
      && out.state.rules == RemoveProperty(View(st), pid).rules
      && |out.state.rules| == |st.rules|
      && (forall r :: 0 <= r < |st.rules| && st.rules[r].id != ruleId ==> out.state.rules[r] == st.rules[r])
      && (forall r :: 0 <= r < |st.rules| && st.rules[r].id == ruleId ==>
            && out.state.rules[r].id == ruleId
            && out.state.rules[r].selector == st.rules[r].selector
            && (forall q :: q in out.state.rules[r].properties <==> q in st.rules[r].properties && q.id != pid))
      && (out.change.Some? <==> Property(st, pid).Some?)
      && (out.change.Some? ==> out.change.value == LegacyChange(Target(View(st)).id, Property(st, pid).value.name, ""))
  {
    if !Active(View(st)) then Quiet(st)
    else
      var rule := CurrentRule(st.rules, st.selected).value;
      var node := SelectedNode(st.nodes, st.selected).value;
      LegacyReaction(st.(rules := MapRulesWithId(st.rules, rule.id, props => RemoveById(props, pid))),
                     ReportFor(node, FindProperty(rule.properties, pid), ""))
  }

  /** Deleting rewrites the rule list exactly as the current inspector's
      removal does; only the report differs (an empty value instead of a
      removed key). */
  lemma LegacyDeleteAgrees(st: Legacy, pid: string)
    ensures LegacyDeleteProperty(st, pid).state.rules == RemoveProperty(View(st), pid).rules
  {
  }

  /** Deleting again changes nothing and reports nothing. */
  lemma LegacyDeleteIdempotent(st: Legacy, pid: string)
    requires Active(View(st))
    ensures var once := LegacyDeleteProperty(st, pid).state;
      LegacyDeleteProperty(once, pid) == Quiet(once)
  {
    var once := LegacyDeleteProperty(st, pid).state;
    LegacyDeleteAgrees(st, pid);
    RemoveIdempotent(View(st), pid);
    LegacyDeleteAgrees(once, pid);
    assert View(once) == View(st).(rules := RemoveProperty(View(st), pid).rules);
  }

  // ---------------------------------------------------------------------
  // updateSelector
  // ---------------------------------------------------------------------

  /** Renaming the selector needs a current rule only, not a node. */
  function UpdateSelector(st: Legacy, selector: string): (out: Legacy)
    ensures CurrentRule(st.rules, st.selected).None? ==> out == st
    ensures CurrentRule(st.rules, st.selected).Some? ==>
      var ruleId := CurrentRule(st.rules, st.selected).value.id;
      && out == st.(rules := out.rules)
      && |out.rules| == |st.rules|
      && forall i :: 0 <= i < |st.rules| ==>
           out.rules[i] == if st.rules[i].id == ruleId then st.rules[i].(selector := selector) else st.rules[i]
  {
    match CurrentRule(st.rules, st.selected)
    case None => st
    case Some(rule) =>
      st.(rules := seq(|st.rules|, i requires 0 <= i < |st.rules| =>
                         if st.rules[i].id == rule.id then st.rules[i].(selector := selector) else st.rules[i]))
  }

  /** A new selector that still names the selected id keeps the same rule
      current, provided rule ids are distinct. */
  lemma SelectorKeepsRule(st: Legacy, selector: string)
    requires CurrentRule(st.rules, st.selected).Some? && DistinctRuleIds(st.rules)
    requires Includes(selector, st.selected.GetOr(""))
    ensures CurrentRuleIndex(UpdateSelector(st, selector).rules, st.selected) == CurrentRuleIndex(st.rules, st.selected)
  {
    var i := CurrentRuleIndex(st.rules, st.selected).value;
    var r := UpdateSelector(st, selector).rules;
    var p := (rule: CssRule) => Applies(rule, st.selected.GetOr(""));
    forall j | 0 <= j < i ensures !p(r[j]) {
      assert st.rules[j].id != st.rules[i].id;
    }
    assert p(r[i]);
    FindIndexIs(r, p, i);
  }

  /** With one rule, a selector that no longer names the selected id makes
      the rule non-current, so the initialising effect fires again and
      replaces the edited rule with the node's default one. */
  lemma SelectorAwayReinitializes(st: Legacy, selector: string)
    requires |st.rules| == 1 && CurrentRule(st.rules, st.selected).Some?
    requires SelectedNode(st.nodes, st.selected).Some?
    requires !Includes(selector, st.selected.value)
    ensures var r := UpdateSelector(st, selector).rules;
      InitializeRules(st.nodes, st.selected, r) ==
        [DefaultRule(st.selected.value, SelectedNode(st.nodes, st.selected).value)]
  {
    var r := UpdateSelector(st, selector).rules;
    assert r[0].selector == selector;
  }
}

=== FILE: mock_nodes.dfy ===
/** The sample document the editor starts with (src/data/mockNodes.ts), and
    what the model computes on it: the component labels, the styles of a
    button and of a container, the inspector's default rule for the button,
    and an edit of the button's background. */
module MockNodes {
  import opened Common
  import opened Tree
  import opened Nodes
  import opened ComponentLabels
  import opened NodeStyle
  import opened StyleUpdate
  import opened CssRules

  /** The properties of a sample node: its name, geometry and the given
      colours and text. */
  function Props(name: string, x: int, y: int, w: int, h: int, extra: map<string, Value>): map<string, Value> {
    extra + map["name" := Str(name), "x" := Num(x), "y" := Num(y), "width" := Num(w), "height" := Num(h)]
  }

  const Text1: Node := Node("text-1", Div, Props("Text 1", 40, 40, 100, 24, map["text" := Str("Text 1")]), [])
  const Text2: Node := Node("text-2", Div, Props("Text 2", 40, 100, 440, 90,
                              map["background" := Str("#f4c23a"), "text" := Str("Text 2")]), [])
  const Btn1: Node := Node("btn-1", Button, Props("Button 1", 90, 20, 180, 44,
                             map["background" := Str("#0ea5e9"), "color" := Str("#fff"), "text" := Str("Button 1")]), [])
  const Img1: Node := Node("img-1", Image, Props("Image 1", 90, 80, 180, 60,
                             map["background" := Str("#e9d5ff"), "text" := Str("Image 1")]), [])
  const Node3: Node := Node("node-3", Div, Props("Node 3", 40, 220, 560, 160,
                              map["background" := Str("#16a34a")]), [Btn1, Img1])
  const Btn2: Node := Node("btn-2", Button, Props("Button 2", 90, 20, 180, 44,
                             map["background" := Str("#0ea5e9"), "color" := Str("#fff"), "text" := Str("Button 2")]), [])
  const Img2: Node := Node("img-2", Image, Props("Image 2", 90, 80, 180, 60,
                             map["background" := Str("#e9d5ff"), "text" := Str("Image 2")]), [])
  const Node4: Node := Node("node-4", Div, Props("Node 4", 40, 420, 560, 160,
                              map["background" := Str("#16a34a")]), [Btn2, Img2])
  const Root: Node := Node("root-1", Div, Props("Root", 20, 20, 760, 800,
                             map["background" := Str("#ffffff"), "border" := Str("1px solid #ddd")]),
                             [Text1, Text2, Node3, Node4])

  const Forest: seq<Node> := [Root]

  /** The sample's shape: a root with two leaves and two containers of
      two leaves each. */
  predicate SampleShape(r: Node, t1: Node, t2: Node, n3: Node, b1: Node, i1: Node, n4: Node, b2: Node, i2: Node) {
    && r.children == [t1, t2, n3, n4]
    && n3.children == [b1, i1] && n4.children == [b2, i2]
    && t1.children == [] && t2.children == [] && b1.children == [] && i1.children == []
    && b2.children == [] && i2.children == []
  }

  /** Two leaves, in pre-order. */
  lemma LeavesPreOrder(a: Node, b: Node)
    requires a.children == [] && b.children == []
    ensures PreOrder([a, b]) == [a, b]
  {
    PreOrderCons([a, b]);
    assert [a, b][1..] == [b];
    SingletonPreOrder(b);
  }

  /** A leaf in front of a forest comes first, then the forest. */
  lemma LeafThen(t: Node, rest: seq<Node>)
    requires t.children == []
    ensures PreOrder([t] + rest) == [t] + PreOrder(rest)
  {
    PreOrderCons([t] + rest);
    assert ([t] + rest)[1..] == rest;
  }

  /** Two containers of two leaves each, in pre-order. */
  lemma ContainersPreOrder(n3: Node, b1: Node, i1: Node, n4: Node, b2: Node, i2: Node)
    requires n3.children == [b1, i1] && n4.children == [b2, i2]
    requires b1.children == [] && i1.children == [] && b2.children == [] && i2.children == []
    ensures PreOrder([n3, n4]) == [n3, b1, i1, n4, b2, i2]
  {
    SingletonPreOrder(n4);
    LeavesPreOrder(b2, i2);
    assert PreOrder([n4]) == [n4, b2, i2];
    LeavesPreOrder(b1, i1);
    PreOrderCons([n3, n4]);
    assert [n3, n4][1..] == [n4];
    assert PreOrder([n3, n4]) == [n3] + [b1, i1] + [n4, b2, i2];
  }

  /** Two leaves followed by the two containers, in pre-order. */
  lemma ChildrenPreOrder(t1: Node, t2: Node, n3: Node, b1: Node, i1: Node, n4: Node, b2: Node, i2: Node)
    requires n3.children == [b1, i1] && n4.children == [b2, i2]
    requires t1.children == [] && t2.children == [] && b1.children == [] && i1.children == []
    requires b2.children == [] && i2.children == []
    ensures PreOrder([t1, t2, n3, n4]) == [t1, t2, n3, b1, i1, n4, b2, i2]
  {
    var tail := [n3, b1, i1, n4, b2, i2];
    ContainersPreOrder(n3, b1, i1, n4, b2, i2);
    LeafThen(t2, [n3, n4]);
    assert [t2] + [n3, n4] == [t2, n3, n4];
    LeafThen(t1, [t2, n3, n4]);
    assert [t1] + [t2, n3, n4] == [t1, t2, n3, n4];
    assert [t1] + ([t2] + tail) == [t1, t2, n3, b1, i1, n4, b2, i2];
  }

  /** Any forest of the sample's shape, in pre-order. */
  lemma ShapePreOrder(r: Node, t1: Node, t2: Node, n3: Node, b1: Node, i1: Node, n4: Node, b2: Node, i2: Node)
    requires SampleShape(r, t1, t2, n3, b1, i1, n4, b2, i2)
    ensures PreOrder([r]) == [r, t1, t2, n3, b1, i1, n4, b2, i2]
  {
    ChildrenPreOrder(t1, t2, n3, b1, i1, n4, b2, i2);
    SingletonPreOrder(r);
    assert [r] + [t1, t2, n3, b1, i1, n4, b2, i2] == [r, t1, t2, n3, b1, i1, n4, b2, i2];
  }

  /** The sample in pre-order. */
  lemma ForestPreOrder()
    ensures PreOrder(Forest) == [Root, Text1, Text2, Node3, Btn1, Img1, Node4, Btn2, Img2]
  {
    ShapePreOrder(Root, Text1, Text2, Node3, Btn1, Img1, Node4, Btn2, Img2);
  }

  /** The sample's ids in pre-order. */
  const SampleIds: seq<string> :=
    ["root-1", "text-1", "text-2", "node-3", "btn-1", "img-1", "node-4", "btn-2", "img-2"]

  /** The nine sample ids are pairwise different. */
  lemma SampleIdsDistinct()
    ensures forall i, j :: 0 <= i < j < |SampleIds| ==> SampleIds[i] != SampleIds[j]
  {
    var ids := SampleIds;
    forall i, j | 0 <= i < j < 9 ensures ids[i] != ids[j] {
      assert ids[i][|ids[i]| - 1] != ids[j][|ids[j]| - 1] || ids[i][0] != ids[j][0] || ids[i][1] != ids[j][1];
    }
  }

  /** No id occurs twice in the sample. */
  lemma ForestUniqueIds()
    ensures UniqueIds(Forest)
  {
    ForestPreOrder();
    var p := [Root, Text1, Text2, Node3, Btn1, Img1, Node4, Btn2, Img2];
    assert forall i :: 0 <= i < |p| ==> p[i].id == SampleIds[i];
    SampleIdsDistinct();
    assert DistinctIds(p);
  }

  /** The sample's three containers are labelled C1, C2 and C3 in
      pre-order; the six leaves get no label. */
  lemma ForestLabels()
    ensures ComputeComponentLabels(Forest) == map["root-1" := "C1", "node-3" := "C2", "node-4" := "C3"]
  {
    ShapeLabels(Root, Text1, Text2, Node3, Btn1, Img1, Node4, Btn2, Img2);
  }

  /** Any forest of the sample's shape labels its root, then its two
      containers. */
  lemma ShapeLabels(r: Node, t1: Node, t2: Node, n3: Node, b1: Node, i1: Node, n4: Node, b2: Node, i2: Node)
    requires SampleShape(r, t1, t2, n3, b1, i1, n4, b2, i2)
    ensures ComputeComponentLabels([r]) == map[r.id := "C1", n3.id := "C2", n4.id := "C3"]
  {
    assert Label(1) == "C1" && Label(2) == "C2" && Label(3) == "C3";
    var a0 := Labelling(map[], 1);
    var a1 := Labelling(map[r.id := "C1"], 2);
    var a2 := Labelling(map[r.id := "C1", n3.id := "C2"], 3);
    var a3 := Labelling(map[r.id := "C1", n3.id := "C2", n4.id := "C3"], 4);
    TwoLeaves(b1, i1, a2);
    TwoLeaves(b2, i2, a3);
    assert Collect([n4], a2) == a3 by {
      assert [n4][1..] == [];
      assert Collect([], a3) == a3;
    }
    assert Collect([n3, n4], a1) == a3 by {
      assert [n3, n4][1..] == [n4];
    }
    assert Collect([t2, n3, n4], a1) == a3 by {
      assert [t2, n3, n4][1..] == [n3, n4];
    }
    assert Collect([t1, t2, n3, n4], a1) == a3 by {
      assert [t1, t2, n3, n4][1..] == [t2, n3, n4];
    }
    assert Collect([r], a0) == a3 by {
      assert [r][1..] == [];
      assert Collect([], a3) == a3;
    }
  }

  /** Two leaves leave a labelling alone. */
  lemma TwoLeaves(a: Node, b: Node, acc: Labelling)
    requires a.children == [] && b.children == []
    ensures Collect([a, b], acc) == acc
  {
    assert [a, b][1..] == [b];
    assert [b][1..] == [];
    assert Collect([b], acc) == Collect([], acc);
  }

  /** The button is drawn at its geometry with a radius of 8 and no padding. */
  lemma ButtonStyle()
    ensures var st := NodeToStyle(Btn1);
      && st.position == "absolute" && st.left == Num(90) && st.top == Num(20)
      && st.width == Num(180) && st.height == Num(44)
      && st.background == Str("#0ea5e9") && st.color == Str("#fff")
      && st.borderRadius == Num(8) && st.padding == Undefined
  {
  }

  /** A container without text gets radius and padding 8 and keeps its
      display unset; a text Div is centred with flex. */
  lemma DivStyles()
    ensures NodeToStyle(Node3).borderRadius == Num(8) && NodeToStyle(Node3).padding == Num(8)
    ensures NodeToStyle(Node3).display == Undefined
    ensures NodeToStyle(Text1).display == Str("flex") && NodeToStyle(Text1).alignItems == Str("center")
      && NodeToStyle(Text1).justifyContent == Str("center")
  {
    Node3Props();
    PlainDivStyle(Node3);
    Text1Props();
    TextDivStyle(Text1);
  }

  lemma Node3Props()
    ensures Node3.kind == Div && Attr(Node3, "text") == Undefined && Attr(Node3, "display") == Undefined
  {
    var e3 := map["background" := Str("#16a34a")];
    PropsExtra("Node 3", 40, 220, 560, 160, e3, "text");
    PropsExtra("Node 3", 40, 220, 560, 160, e3, "display");
  }

  lemma Text1Props()
    ensures Text1.kind == Div && Attr(Text1, "text") == Str("Text 1") && Attr(Text1, "display") == Undefined
  {
    var e1 := map["text" := Str("Text 1")];
    PropsExtra("Text 1", 40, 40, 100, 24, e1, "text");
    PropsExtra("Text 1", 40, 40, 100, 24, e1, "display");
  }

  /** A Div without text or display: radius and padding 8, display unset. */
  lemma PlainDivStyle(n: Node)
    requires n.kind == Div && Attr(n, "text") == Undefined && Attr(n, "display") == Undefined
    ensures NodeToStyle(n).borderRadius == Num(8) && NodeToStyle(n).padding == Num(8)
    ensures NodeToStyle(n).display == Undefined
  {
  }

  /** A Div with text and no display: a centred flex box. */
  lemma TextDivStyle(n: Node)
    requires n.kind == Div && Truthy(Attr(n, "text")) && Attr(n, "display") == Undefined
    ensures NodeToStyle(n).display == Str("flex") && NodeToStyle(n).alignItems == Str("center")
      && NodeToStyle(n).justifyContent == Str("center")
  {
  }

  /** A sample node's other properties are the given ones. */
  lemma PropsExtra(name: string, x: int, y: int, w: int, h: int, extra: map<string, Value>, k: string)
    requires k != "name" && k != "x" && k != "y" && k != "width" && k != "height"
    ensures (k in Props(name, x, y, w, h, extra)) == (k in extra)
    ensures k in extra ==> Props(name, x, y, w, h, extra)[k] == extra[k]
  {
  }

  /** What a sample node's properties read for its name and geometry. */
  lemma PropsGeometry(name: string, x: int, y: int, w: int, h: int, extra: map<string, Value>)
    ensures var m := Props(name, x, y, w, h, extra);
      && m["name"] == Str(name) && m["x"] == Num(x) && m["y"] == Num(y)
      && m["width"] == Num(w) && m["height"] == Num(h)
  {
  }

  /** The button's properties. */
  lemma ButtonProps()
    ensures Attr(Btn1, "x") == Num(90) && Attr(Btn1, "y") == Num(20)
    ensures Attr(Btn1, "width") == Num(180) && Attr(Btn1, "height") == Num(44)
    ensures Attr(Btn1, "background") == Str("#0ea5e9") && Attr(Btn1, "color") == Str("#fff")
    ensures Attr(Btn1, "display") == Undefined && Attr(Btn1, "border") == Undefined
  {
    var extra := map["background" := Str("#0ea5e9"), "color" := Str("#fff"), "text" := Str("Button 1")];
    PropsGeometry("Button 1", 90, 20, 180, 44, extra);
    var m := Props("Button 1", 90, 20, 180, 44, extra);
    assert "display" !in m && "border" !in m;
  }

  /** The inspector's default rule for the button: its colours, with the
      CSS defaults where the button sets none. */
  lemma ButtonDefaultColours()
    ensures var p := DefaultRule("btn-1", Btn1).properties;
      && p[0].value == "block" && p[3].value == "#0ea5e9" && p[4].value == "#fff"
      && p[5].value == "none" && p[6].value == "absolute"
  {
    ButtonProps();
  }

  /** The default rule writes numeric geometry as decimal pixels. */
  lemma DefaultGeometry(id: string, n: Node, x: int, y: int, w: int, h: int)
    requires Attr(n, "x") == Num(x) && Attr(n, "y") == Num(y)
    requires Attr(n, "width") == Num(w) && Attr(n, "height") == Num(h)
    ensures var p := DefaultRule(id, n).properties;
      && p[1].value == IntToString(w) + "px" && p[2].value == IntToString(h) + "px"
      && p[7].value == IntToString(x) + "px" && p[8].value == IntToString(y) + "px"
  {
    DefaultRuleMatchesStyle(id, n);
  }

  /** The inspector's default rule for the button: its geometry in pixels. */
  lemma ButtonDefaultGeometry()
    ensures var p := DefaultRule("btn-1", Btn1).properties;
      && p[1].value == "180px" && p[2].value == "44px" && p[7].value == "90px" && p[8].value == "20px"
  {
    ButtonProps();
    DefaultGeometry("btn-1", Btn1, 90, 20, 180, 44);
    ButtonDigits();
  }

  /** The decimal forms of the button's geometry. */
  lemma ButtonDigits()
    ensures IntToString(180) == "180" && IntToString(44) == "44"
    ensures IntToString(90) == "90" && IntToString(20) == "20"
  {
    assert NatToString(18) == "18";
  }

  /** The app's handler on a forest with unique ids, for a node it holds:
      the node reads the new value and every other node keeps its properties. */
  lemma SetOnUniqueForest(nodes: seq<Node>, c: StyleChange, k: string)
    requires UniqueIds(nodes) && c.nodeId in Ids(nodes)
    requires c.oldKey == None && Writable(c.newKey) && c.newVal.Some?
    ensures FindNodeById(HandleStyleChange(nodes, c), c.nodeId).Some?
    ensures Attr(FindNodeById(HandleStyleChange(nodes, c), c.nodeId).value, c.newKey.value) == Str(c.newVal.value)
    ensures k != c.nodeId && FindNodeById(nodes, k).Some? ==>
      FindNodeById(HandleStyleChange(nodes, c), k).Some?
      && FindNodeById(HandleStyleChange(nodes, c), k).value.attrs == FindNodeById(nodes, k).value.attrs
  {
    FindFound(nodes, c.nodeId);
    ChangeIsLocal(nodes, c, c.nodeId);
    ChangeIsLocal(nodes, c, k);
  }

  /** Setting the button's background through the app's handler: the
      button reads the new colour, and every other node keeps its
      properties (its children may hold the button). */
  lemma ButtonBackgroundEdit(k: string)
    ensures var c := StyleChange("btn-1", None, None, Some("background"), Some("#ff0000"));
      && FindNodeById(HandleStyleChange(Forest, c), "btn-1").Some?
      && Attr(FindNodeById(HandleStyleChange(Forest, c), "btn-1").value, "background") == Str("#ff0000")
      && (k != "btn-1" && FindNodeById(Forest, k).Some? ==>
            FindNodeById(HandleStyleChange(Forest, c), k).Some?
            && FindNodeById(HandleStyleChange(Forest, c), k).value.attrs == FindNodeById(Forest, k).value.attrs)
  {
    var c := StyleChange("btn-1", None, None, Some("background"), Some("#ff0000"));
    ForestUniqueIds();
    ForestPreOrder();
    assert Btn1 in PreOrder(Forest);
    assert "btn-1" in Ids(Forest);
    SetOnUniqueForest(Forest, c, k);
  }
}

=== FILE: nodes.dfy ===
/** The node-tree engine of src/lib/nodes.ts: pre-order traversal, lookup by
    id and copy-on-write update by id. */
module Nodes {
  import opened Common
  import opened Tree

  // ---------------------------------------------------------------------
  // traverse
  // ---------------------------------------------------------------------

  /** One call of the visitor: the node and the id of its parent (None for
      the nodes of the sequence the walk started from). */
  datatype Visit = Visit(node: Node, parentId: Option<string>)

  /** `traverse(nodes, visit, parentId)`. The JavaScript visitor works by
      side effect on variables it closes over; here that state is threaded
      through explicitly, so a visitor maps the state before a call to the
      state after it. */
  function Traverse<S>(nodes: seq<Node>, visit: (S, Node, Option<string>) -> S,
                       parentId: Option<string>, s: S): S
    decreases nodes
  {
    if |nodes| == 0 then s
    else
      var n := nodes[0];
      var afterNode := visit(s, n, parentId);
      var afterChildren :=
        if |n.children| > 0 then Traverse(n.children, visit, Some(n.id), afterNode)
        else afterNode;
      Traverse(nodes[1..], visit, parentId, afterChildren)
  }

  /** The calls a pre-order walk makes, in order: each node before its
      children, siblings left to right, each with its parent's id. */
  function Visits(nodes: seq<Node>, parentId: Option<string>): seq<Visit>
    decreases nodes
  {
    if |nodes| == 0 then []
    else
      [Visit(nodes[0], parentId)]
      + Visits(nodes[0].children, Some(nodes[0].id))
      + Visits(nodes[1..], parentId)
  }

  /** Feeding a list of calls to a visitor, one after the other. */
  function Replay<S>(vs: seq<Visit>, visit: (S, Node, Option<string>) -> S, s: S): S
    decreases |vs|
  {
    if |vs| == 0 then s else Replay(vs[1..], visit, visit(s, vs[0].node, vs[0].parentId))
  }

  lemma {:induction false} ReplayAppend<S>(a: seq<Visit>, b: seq<Visit>,
                                           visit: (S, Node, Option<string>) -> S, s: S)
    ensures Replay(a + b, visit, s) == Replay(b, visit, Replay(a, visit, s))
    decreases |a|
  {
    if |a| == 0 {
      assert a + b == b;
    } else {
      assert (a + b)[0] == a[0];
      assert (a + b)[1..] == a[1..] + b;
      ReplayAppend(a[1..], b, visit, visit(s, a[0].node, a[0].parentId));
    }
  }

  /** Whatever the visitor does, `traverse` has the same effect as making
      exactly the calls of `Visits`, in that order. */
  lemma {:induction false} TraverseReplaysVisits<S>(nodes: seq<Node>,
      visit: (S, Node, Option<string>) -> S, parentId: Option<string>, s: S)
    ensures Traverse(nodes, visit, parentId, s) == Replay(Visits(nodes, parentId), visit, s)
    decreases nodes
  {
    if |nodes| > 0 {
      var n := nodes[0];
      var vc := Visits(n.children, Some(n.id));
      var vr := Visits(nodes[1..], parentId);
      var s1 := visit(s, n, parentId);
      ReplayAppend([Visit(n, parentId)] + vc, vr, visit, s);
      ReplayAppend([Visit(n, parentId)], vc, visit, s);
      assert Replay([Visit(n, parentId)], visit, s) == s1;
      TraverseReplaysVisits(n.children, visit, Some(n.id), s1);
      if |n.children| == 0 {
        assert vc == [];
      }
      var s2 := Replay(vc, visit, s1);
      TraverseReplaysVisits(nodes[1..], visit, parentId, s2);
    }
  }

  /** The walk visits the nodes of the forest one for one in pre-order. */
  lemma {:induction false} VisitsFollowPreOrder(nodes: seq<Node>, parentId: Option<string>)
    ensures |Visits(nodes, parentId)| == |PreOrder(nodes)|
    ensures forall i :: 0 <= i < |PreOrder(nodes)| ==> Visits(nodes, parentId)[i].node == PreOrder(nodes)[i]
    decreases nodes
  {
    if |nodes| > 0 {
      VisitsFollowPreOrder(nodes[0].children, Some(nodes[0].id));
      VisitsFollowPreOrder(nodes[1..], parentId);
    }
  }

  /** Siblings are walked left to right: the walk over `a + b` is the walk
      over `a` followed by the walk over `b`. */
  lemma {:induction false} VisitsAppend(a: seq<Node>, b: seq<Node>, parentId: Option<string>)
    ensures Visits(a + b, parentId) == Visits(a, parentId) + Visits(b, parentId)
    decreases a
  {
    if |a| == 0 {
      assert a + b == b;
    } else {
      assert (a + b)[0] == a[0];
      assert (a + b)[1..] == a[1..] + b;
      VisitsAppend(a[1..], b, parentId);
    }
  }

  /** Call `i` is either on one of the starting nodes, with the starting
      parent id, or on a child of a node visited earlier, with that node's id. */
  predicate LinkedToParent(vs: seq<Visit>, roots: seq<Node>, parentId: Option<string>, i: int)
    requires 0 <= i < |vs|
  {
    || (vs[i].parentId == parentId && vs[i].node in roots)
    || exists j :: 0 <= j < i && vs[i].node in vs[j].node.children && vs[i].parentId == Some(vs[j].node.id)
  }

  lemma {:induction false} VisitsLinkParents(nodes: seq<Node>, parentId: Option<string>)
    ensures forall i :: 0 <= i < |Visits(nodes, parentId)| ==>
      LinkedToParent(Visits(nodes, parentId), nodes, parentId, i)
    decreases nodes
  {
    if |nodes| > 0 {
      var n := nodes[0];
      var vs := Visits(nodes, parentId);
      var vc := Visits(n.children, Some(n.id));
      var vr := Visits(nodes[1..], parentId);
      assert vs == [Visit(n, parentId)] + vc + vr;
      VisitsLinkParents(n.children, Some(n.id));
      VisitsLinkParents(nodes[1..], parentId);
      forall i | 0 <= i < |vs| ensures LinkedToParent(vs, nodes, parentId, i) {
        if i == 0 {
          assert vs[0] == Visit(n, parentId);
        } else if i <= |vc| {
          var k := i - 1;
          assert vs[i] == vc[k];
          assert LinkedToParent(vc, n.children, Some(n.id), k);
          if vc[k].parentId == Some(n.id) && vc[k].node in n.children {
            assert vs[0].node == n;
          } else {
            var j :| 0 <= j < k && vc[k].node in vc[j].node.children && vc[k].parentId == Some(vc[j].node.id);
            assert vs[j + 1] == vc[j];
          }
        } else {
          var k := i - 1 - |vc|;
          assert vs[i] == vr[k];
          assert LinkedToParent(vr, nodes[1..], parentId, k);
          if vr[k].parentId == parentId && vr[k].node in nodes[1..] {
            assert vr[k].node in nodes;
          } else {
            var j :| 0 <= j < k && vr[k].node in vr[j].node.children && vr[k].parentId == Some(vr[j].node.id);
            assert vs[j + 1 + |vc|] == vr[j];
          }
        }
      }
    }
  }

  /** Nothing is skipped: every starting node is visited with the starting
      parent id, and every child of a visited node is visited with that
      node's id as its parent. */
  lemma {:induction false} VisitsComplete(nodes: seq<Node>, parentId: Option<string>)
    ensures forall r :: r in nodes ==> Visit(r, parentId) in Visits(nodes, parentId)
    ensures forall v, c :: v in Visits(nodes, parentId) && c in v.node.children ==>
      Visit(c, Some(v.node.id)) in Visits(nodes, parentId)
    decreases nodes
  {
    if |nodes| > 0 {
      var n := nodes[0];
      var vs := Visits(nodes, parentId);
      var vc := Visits(n.children, Some(n.id));
      var vr := Visits(nodes[1..], parentId);
      assert vs == [Visit(n, parentId)] + vc + vr;
      VisitsComplete(n.children, Some(n.id));
      VisitsComplete(nodes[1..], parentId);
      forall r | r in nodes ensures Visit(r, parentId) in vs {
        if r != n {
          var i :| 0 <= i < |nodes| && nodes[i] == r;
          assert r in nodes[1..] by { assert nodes[1..][i - 1] == r; }
        }
      }
    }
  }

  // ---------------------------------------------------------------------
  // findNodeById
  // ---------------------------------------------------------------------

  /** The visitor of `findNodeById`: every node with the id overwrites the result. */
  function FindVisitor(id: string): (Option<Node>, Node, Option<string>) -> Option<Node> {
    (found: Option<Node>, n: Node, parentId: Option<string>) => if n.id == id then Some(n) else found
  }

  /** `findNodeById(nodes, id)`. */
  function FindNodeById(nodes: seq<Node>, id: string): Option<Node> {
    Traverse(nodes, FindVisitor(id), None, None)
  }

  /** Position of the last entry of a flat list whose id is `id`. */
  function LastMatchIndex(p: seq<Node>, id: string): (r: Option<nat>)
    ensures r.Some? ==> r.value < |p| && p[r.value].id == id
    ensures r.Some? ==> forall j :: r.value < j < |p| ==> p[j].id != id
    ensures r.None? <==> forall i :: 0 <= i < |p| ==> p[i].id != id
  {
    if |p| == 0 then None
    else
      match LastMatchIndex(p[1..], id)
      case Some(k) => Some(k + 1)
      case None => if p[0].id == id then Some(0) else None
  }

  /** The last entry of a flat list whose id is `id`. */
  function LastMatch(p: seq<Node>, id: string): (r: Option<Node>)
    ensures r.Some? ==> r.value.id == id && r.value in p
    ensures r.None? <==> forall i :: 0 <= i < |p| ==> p[i].id != id
  {
    match LastMatchIndex(p, id)
    case Some(k) => Some(p[k])
    case None => None
  }

  lemma {:induction false} ReplayFind(vs: seq<Visit>, p: seq<Node>, id: string, s: Option<Node>)
    requires |vs| == |p| && forall i :: 0 <= i < |p| ==> vs[i].node == p[i]
    ensures Replay(vs, FindVisitor(id), s) == (if LastMatch(p, id).Some? then LastMatch(p, id) else s)
    decreases |vs|
  {
    if |vs| > 0 {
      ReplayFind(vs[1..], p[1..], id, FindVisitor(id)(s, vs[0].node, vs[0].parentId));
    }
  }

  /** `findNodeById` has no early exit: it answers the LAST node in
      pre-order carrying the id. */
  lemma FindIsLastInPreOrder(nodes: seq<Node>, id: string)
    ensures FindNodeById(nodes, id) == LastMatch(PreOrder(nodes), id)
  {
    TraverseReplaysVisits(nodes, FindVisitor(id), None, None);
    VisitsFollowPreOrder(nodes, None);
    ReplayFind(Visits(nodes, None), PreOrder(nodes), id, None);
  }

  /** Lookup finds a node exactly when the id occurs in the forest, and what
      it finds carries that id and is a node of the forest. */
  lemma FindFound(nodes: seq<Node>, id: string)
    ensures FindNodeById(nodes, id).Some? <==> id in Ids(nodes)
    ensures FindNodeById(nodes, id).Some? ==>
      FindNodeById(nodes, id).value.id == id && FindNodeById(nodes, id).value in PreOrder(nodes)
  {
    FindIsLastInPreOrder(nodes, id);
    var p := PreOrder(nodes);
    if id in Ids(nodes) {
      var n :| n in p && n.id == id;
    }
  }

  /** With unique ids, every node of the forest is what lookup answers for its id. */
  lemma FindEveryNode(nodes: seq<Node>, i: nat)
    requires UniqueIds(nodes)
    requires i < |PreOrder(nodes)|
    ensures FindNodeById(nodes, PreOrder(nodes)[i].id) == Some(PreOrder(nodes)[i])
  {
    var p := PreOrder(nodes);
    FindIsLastInPreOrder(nodes, p[i].id);
    var r := LastMatch(p, p[i].id);
    var k :| 0 <= k < |p| && p[k] == r.value;
  }

  lemma {:induction false} LastMatchAppend(p: seq<Node>, q: seq<Node>, id: string)
    ensures LastMatch(p + q, id) == if LastMatch(q, id).Some? then LastMatch(q, id) else LastMatch(p, id)
    decreases |p|
  {
    if |p| == 0 {
      assert p + q == q;
    } else {
      assert (p + q)[1..] == p[1..] + q;
      LastMatchAppend(p[1..], q, id);
    }
  }

  /** Lookup in `a + b` prefers a match in `b`. */
  lemma FindAppend(a: seq<Node>, b: seq<Node>, id: string)
    ensures FindNodeById(a + b, id) ==
      if id in Ids(b) then FindNodeById(b, id) else FindNodeById(a, id)
  {
    FindIsLastInPreOrder(a + b, id);
    FindIsLastInPreOrder(a, id);
    FindIsLastInPreOrder(b, id);
    FindFound(b, id);
    PreOrderAppend(a, b);
    LastMatchAppend(PreOrder(a), PreOrder(b), id);
  }

  /** Lookup in a forest, told from its first node. */
  lemma FindCons(nodes: seq<Node>, id: string)
    requires |nodes| > 0
    ensures FindNodeById(nodes, id) ==
      if id in Ids(nodes[1..]) then FindNodeById(nodes[1..], id)
      else if id in Ids(nodes[0].children) then FindNodeById(nodes[0].children, id)
      else if nodes[0].id == id then Some(nodes[0])
      else None
  {
    var n := nodes[0];
    assert nodes == [n] + nodes[1..];
    FindAppend([n], nodes[1..], id);
    FindIsLastInPreOrder([n], id);
    FindIsLastInPreOrder(n.children, id);
    FindFound(n.children, id);
    SingletonPreOrder(n);
    assert [n] + PreOrder(n.children) == [n] + PreOrder(n.children);
    assert PreOrder([n])[1..] == PreOrder(n.children);
  }

  // ---------------------------------------------------------------------
  // updateNodeById
  // ---------------------------------------------------------------------

  /** Two nodes agree on everything but the contents of their children,
      and have the same number of children. */
  predicate SameShape(a: Node, b: Node) {
    a.id == b.id && a.kind == b.kind && a.attrs == b.attrs && |a.children| == |b.children|
  }

  /** `updateNodeById(nodes, id, updater)`: every node with the id is
      replaced by `updater` of it and its subtree is not searched further;
      every other node is kept, with its children (if any) updated likewise. */
  function UpdateNodeById(nodes: seq<Node>, id: string, updater: Node -> Node): (r: seq<Node>)
    ensures |r| == |nodes|
    ensures forall i :: 0 <= i < |nodes| && nodes[i].id == id ==> r[i] == updater(nodes[i])
    ensures forall i :: 0 <= i < |nodes| && nodes[i].id != id ==> SameShape(r[i], nodes[i])
    decreases nodes
  {
    if |nodes| == 0 then []
    else
      var n := nodes[0];
      var m :=
        if n.id == id then updater(n)
        else if |n.children| > 0 then n.(children := UpdateNodeById(n.children, id, updater))
        else n;
      [m] + UpdateNodeById(nodes[1..], id, updater)
  }

  lemma UpdateCons(nodes: seq<Node>, id: string, updater: Node -> Node)
    requires |nodes| > 0
    ensures var r := UpdateNodeById(nodes, id, updater);
      && r[1..] == UpdateNodeById(nodes[1..], id, updater)
      && r[0] == (if nodes[0].id == id then updater(nodes[0])
                  else nodes[0].(children := UpdateNodeById(nodes[0].children, id, updater)))
  {
    if nodes[0].id != id && |nodes[0].children| == 0 {
      assert UpdateNodeById(nodes[0].children, id, updater) == [];
      assert nodes[0].(children := []) == nodes[0];
    }
  }

  /** Updating an id that does not occur changes nothing. */
  lemma {:induction false} UpdateMissingIsIdentity(nodes: seq<Node>, id: string, updater: Node -> Node)
    requires id !in Ids(nodes)
    ensures UpdateNodeById(nodes, id, updater) == nodes
    decreases nodes
  {
    if |nodes| > 0 {
      PreOrderCons(nodes);
      UpdateCons(nodes, id, updater);
      UpdateMissingIsIdentity(nodes[0].children, id, updater);
      UpdateMissingIsIdentity(nodes[1..], id, updater);
      assert nodes[0].(children := nodes[0].children) == nodes[0];
      assert nodes == [nodes[0]] + nodes[1..];
    }
  }

  /** The ids an update may bring into the forest: those of the replacement
      of the node it finds (with unique ids there is at most one). */
  function NewIds(nodes: seq<Node>, id: string, updater: Node -> Node): set<string> {
    match FindNodeById(nodes, id)
    case None => {}
    case Some(m) => Ids([updater(m)])
  }

  /** With unique ids, lookup in a part of the forest that holds the id
      answers what lookup in the whole forest answers. */
  lemma FindInPart(nodes: seq<Node>, id: string)
    requires |nodes| > 0 && UniqueIds(nodes)
    ensures id in Ids(nodes[1..]) ==> FindNodeById(nodes, id) == FindNodeById(nodes[1..], id)
    ensures id in Ids(nodes[0].children) ==> FindNodeById(nodes, id) == FindNodeById(nodes[0].children, id)
    ensures nodes[0].id == id ==> FindNodeById(nodes, id) == Some(nodes[0])
    ensures nodes[0].id != id && id !in Ids(nodes[0].children) ==> FindNodeById(nodes, id) == FindNodeById(nodes[1..], id)
  {
    UniqueIdsCons(nodes);
    FindCons(nodes, id);
    FindFound(nodes[1..], id);
  }

  lemma {:induction false} UpdateIds(nodes: seq<Node>, id: string, updater: Node -> Node)
    requires UniqueIds(nodes)
    ensures Ids(UpdateNodeById(nodes, id, updater)) <= Ids(nodes) + NewIds(nodes, id, updater)
    decreases nodes
  {
    if |nodes| > 0 {
      var n := nodes[0];
      var r := UpdateNodeById(nodes, id, updater);
      UniqueIdsCons(nodes);
      UpdateCons(nodes, id, updater);
      PreOrderCons(nodes);
      PreOrderCons(r);
      FindInPart(nodes, id);
      FindFound(nodes[1..], id);
      FindFound(n.children, id);
      UpdateIds(nodes[1..], id, updater);
      if n.id == id {
        UpdateMissingIsIdentity(nodes[1..], id, updater);
        SingletonPreOrder(updater(n));
      } else {
        UpdateIds(n.children, id, updater);
        if id in Ids(n.children) {
          UpdateMissingIsIdentity(nodes[1..], id, updater);
        }
      }
    }
  }

  /** With unique ids and an updater that keeps the id and does not copy it
      into the children it returns, lookup after the update answers the
      updater's result. */
  lemma {:induction false} FindAfterUpdate(nodes: seq<Node>, id: string, updater: Node -> Node)
    requires UniqueIds(nodes)
    requires FindNodeById(nodes, id).Some?
    requires updater(FindNodeById(nodes, id).value).id == id
    requires id !in Ids(updater(FindNodeById(nodes, id).value).children)
    ensures FindNodeById(UpdateNodeById(nodes, id, updater), id) == Some(updater(FindNodeById(nodes, id).value))
    decreases nodes
  {
    var n := nodes[0];
    var r := UpdateNodeById(nodes, id, updater);
    var m := FindNodeById(nodes, id).value;
    UniqueIdsCons(nodes);
    UpdateCons(nodes, id, updater);
    FindFound(nodes, id);
    PreOrderCons(nodes);
    FindInPart(nodes, id);
    FindFound(nodes[1..], id);
    FindFound(n.children, id);
    FindCons(r, id);
    assert r[0] == r[0];
    if n.id == id {
      UpdateMissingIsIdentity(nodes[1..], id, updater);
    } else if id in Ids(n.children) {
      UpdateMissingIsIdentity(nodes[1..], id, updater);
      FindAfterUpdate(n.children, id, updater);
      FindFound(r[0].children, id);
    } else {
      FindAfterUpdate(nodes[1..], id, updater);
      FindFound(r[1..], id);
    }
  }

  /** Only the node with the id changes: with unique ids, every other node
      (unless the updater drops or duplicates it) is still found after the
      update, with the same id, kind, properties and number of children. */
  lemma {:induction false} UpdateKeepsOtherNodes(nodes: seq<Node>, id: string, updater: Node -> Node, other: string)
    requires UniqueIds(nodes)
    requires other != id && other in Ids(nodes)
    requires FindNodeById(nodes, id).Some? ==>
      var m := FindNodeById(nodes, id).value;
      other !in Ids(m.children) && other !in Ids([updater(m)])
    ensures FindNodeById(nodes, other).Some?
    ensures FindNodeById(UpdateNodeById(nodes, id, updater), other).Some?
    ensures SameShape(FindNodeById(UpdateNodeById(nodes, id, updater), other).value,
                      FindNodeById(nodes, other).value)
    decreases nodes
  {
    var n := nodes[0];
    var r := UpdateNodeById(nodes, id, updater);
    UniqueIdsCons(nodes);
    UpdateCons(nodes, id, updater);
    PreOrderCons(nodes);
    FindInPart(nodes, id);
    FindInPart(nodes, other);
    FindFound(nodes[1..], id);
    FindFound(n.children, id);
    FindFound(nodes[1..], other);
    FindFound(n.children, other);
    FindCons(r, other);
    UpdateIds(nodes[1..], id, updater);
    if other in Ids(nodes[1..]) {
      UpdateKeepsOtherNodes(nodes[1..], id, updater, other);
      FindFound(r[1..], other);
    } else if other == n.id {
      if id in Ids(n.children) {
        UpdateMissingIsIdentity(nodes[1..], id, updater);
        UpdateIds(n.children, id, updater);
      } else {
        UpdateMissingIsIdentity(n.children, id, updater);
        FindFound(nodes[1..], id);
      }
      assert other !in Ids(r[1..]);
      assert other !in Ids(r[0].children);
    } else {
      assert other in Ids(n.children);
      if id in Ids(nodes[1..]) {
        UpdateMissingIsIdentity(n.children, id, updater);
      } else {
        UpdateMissingIsIdentity(nodes[1..], id, updater);
      }
      UpdateKeepsOtherNodes(n.children, id, updater, other);
      FindFound(r[0].children, other);
    }
  }

  // ---------------------------------------------------------------------
  // Updaters that only rewrite properties
  // ---------------------------------------------------------------------

  /** The updater keeps the id and the children of the node it is given,
      as the inspector's property rewriter does. */
  ghost predicate KeepsIdAndChildren(id: string, updater: Node -> Node) {
    forall n: Node :: n.id == id ==> updater(n).id == n.id && updater(n).children == n.children
  }

  /** What an entry `b` of the forest became: `updater(b)` when it carries
      the id, otherwise a node of the same shape. */
  predicate Corresponds(a: Node, b: Node, id: string, updater: Node -> Node) {
    if b.id == id then a == updater(b) else SameShape(a, b)
  }

  /** Entry by entry, `q` is what the flat list `p` became. */
  predicate Tracks(q: seq<Node>, p: seq<Node>, id: string, updater: Node -> Node) {
    |q| == |p| && forall i :: 0 <= i < |p| ==> Corresponds(q[i], p[i], id, updater)
  }

  lemma TracksAppend(q1: seq<Node>, p1: seq<Node>, q2: seq<Node>, p2: seq<Node>, id: string, updater: Node -> Node)
    requires Tracks(q1, p1, id, updater) && Tracks(q2, p2, id, updater)
    ensures Tracks(q1 + q2, p1 + p2, id, updater)
  {
    var q, p := q1 + q2, p1 + p2;
    forall i | 0 <= i < |p| ensures Corresponds(q[i], p[i], id, updater) {
      if i < |p1| {
        assert q[i] == q1[i] && p[i] == p1[i];
      } else {
        assert q[i] == q2[i - |p1|] && p[i] == p2[i - |p1|];
      }
    }
  }

  lemma TracksSelf(p: seq<Node>, id: string, updater: Node -> Node)
    requires id !in IdSet(p)
    ensures Tracks(p, p, id, updater)
  {
    forall i | 0 <= i < |p| ensures Corresponds(p[i], p[i], id, updater) {
      assert p[i] in p;
    }
  }

  /** With unique ids and a property-only updater, the pre-order of the
      updated forest lines up with the old one: the node with the id became
      `updater` of it, every other node kept its shape. */
  lemma {:induction false} UpdateTracksPreOrder(nodes: seq<Node>, id: string, updater: Node -> Node)
    requires UniqueIds(nodes)
    requires KeepsIdAndChildren(id, updater)
    ensures Tracks(PreOrder(UpdateNodeById(nodes, id, updater)), PreOrder(nodes), id, updater)
    decreases nodes
  {
    if |nodes| > 0 {
      var n := nodes[0];
      var r := UpdateNodeById(nodes, id, updater);
      UniqueIdsCons(nodes);
      UpdateCons(nodes, id, updater);
      PreOrderCons(nodes);
      PreOrderCons(r);
      UpdateTracksPreOrder(nodes[1..], id, updater);
      if n.id == id {
        TracksSelf(PreOrder(n.children), id, updater);
      } else {
        UpdateTracksPreOrder(n.children, id, updater);
      }
      assert Tracks([r[0]], [n], id, updater);
      TracksAppend([r[0]], [n], PreOrder(r[0].children), PreOrder(n.children), id, updater);
      TracksAppend([r[0]] + PreOrder(r[0].children), [n] + PreOrder(n.children),
                   PreOrder(r[1..]), PreOrder(nodes[1..]), id, updater);
    }
  }

  /** The last match by id sits at the same position in lists that track each other. */
  lemma {:induction false} LastMatchIndexTracks(q: seq<Node>, p: seq<Node>, id: string, updater: Node -> Node, k: string)
    requires KeepsIdAndChildren(id, updater)
    requires Tracks(q, p, id, updater)
    ensures LastMatchIndex(q, k) == LastMatchIndex(p, k)
    decreases |p|
  {
    if |p| > 0 {
      assert Corresponds(q[0], p[0], id, updater);
      assert Tracks(q[1..], p[1..], id, updater) by {
        forall i | 0 <= i < |p| - 1 ensures Corresponds(q[1..][i], p[1..][i], id, updater) {
          assert Corresponds(q[i + 1], p[i + 1], id, updater);
        }
      }
      LastMatchIndexTracks(q[1..], p[1..], id, updater, k);
    }
  }

  /** After a property-only update, lookup of any id finds the node it found
      before, rewritten by the updater when it carries the updated id and
      otherwise of the same shape. */
  lemma FindAfterPropertyUpdate(nodes: seq<Node>, id: string, updater: Node -> Node, k: string)
    requires UniqueIds(nodes)
    requires KeepsIdAndChildren(id, updater)
    ensures FindNodeById(UpdateNodeById(nodes, id, updater), k).Some? <==> FindNodeById(nodes, k).Some?
    ensures FindNodeById(nodes, k).Some? ==>
      Corresponds(FindNodeById(UpdateNodeById(nodes, id, updater), k).value, FindNodeById(nodes, k).value, id, updater)
  {
    var r := UpdateNodeById(nodes, id, updater);
    UpdateTracksPreOrder(nodes, id, updater);
    LastMatchIndexTracks(PreOrder(r), PreOrder(nodes), id, updater, k);
    FindIsLastInPreOrder(nodes, k);
    FindIsLastInPreOrder(r, k);
  }

  /** A property-only update keeps the forest's ids, and their uniqueness. */
  lemma PropertyUpdateKeepsIds(nodes: seq<Node>, id: string, updater: Node -> Node)
    requires UniqueIds(nodes)
    requires KeepsIdAndChildren(id, updater)
    ensures Ids(UpdateNodeById(nodes, id, updater)) == Ids(nodes)
    ensures UniqueIds(UpdateNodeById(nodes, id, updater))
  {
    var q, p := PreOrder(UpdateNodeById(nodes, id, updater)), PreOrder(nodes);
    UpdateTracksPreOrder(nodes, id, updater);
    assert forall i :: 0 <= i < |p| ==> q[i].id == p[i].id by {
      forall i | 0 <= i < |p| ensures q[i].id == p[i].id {
        assert Corresponds(q[i], p[i], id, updater);
      }
    }
    forall x | x in IdSet(q) ensures x in IdSet(p) {
      var i :| 0 <= i < |q| && q[i].id == x;
      assert p[i] in p;
    }
    forall x | x in IdSet(p) ensures x in IdSet(q) {
      var i :| 0 <= i < |p| && p[i].id == x;
      assert q[i] in q;
    }
  }
}

=== FILE: style.dfy ===
/** `nodeToStyle` (src/lib/nodes.ts): the inline style the canvas gives a
    node. Style entries that JavaScript leaves unset are `Undefined`. */
module NodeStyle {
  import opened Tree

  datatype Style = Style(
    position: string,
    left: Value, top: Value, width: Value, height: Value,
    display: Value, background: Value, color: Value, border: Value,
    boxSizing: string,
    alignItems: Value, justifyContent: Value,
    borderRadius: Value, padding: Value)

  /** `a ?? b`: `b` only when `a` is undefined (there is no `null` here). */
  function Coalesce(a: Value, b: Value): (r: Value)
    ensures a != Undefined ==> r == a
    ensures a == Undefined ==> r == b
  {
    if a == Undefined then b else a
  }

  /** The properties `nodeToStyle` reads from a node, besides its type. */
  const StyleInputs: set<string> :=
    {"x", "y", "width", "height", "display", "background", "color", "border", "text"}

  /** Centring of a Div that carries text: its own display if truthy,
      otherwise flex, with both axes centred. */
  function CentreText(st: Style): Style {
    st.(display := Or(st.display, Str("flex")),
        alignItems := Or(st.alignItems, Str("center")),
        justifyContent := Or(st.justifyContent, Str("center")))
  }

  /** The default corner radius, kept when one is already set. */
  function DefaultRadius(st: Style): (r: Style)
    ensures r.borderRadius == (if st.borderRadius == Undefined then Num(8) else st.borderRadius)
    ensures r.(borderRadius := st.borderRadius) == st
  {
    if st.borderRadius == Undefined then st.(borderRadius := Num(8)) else st
  }

  function NodeToStyle(n: Node): (st: Style)
    ensures st.position == "absolute" && st.boxSizing == "border-box"
    ensures st.left == Attr(n, "x") && st.top == Attr(n, "y")
    ensures st.width == Attr(n, "width") && st.height == Attr(n, "height")
    ensures st.background == Attr(n, "background") && st.color == Attr(n, "color")
    ensures st.border == Attr(n, "border")
    ensures st.borderRadius == (if n.kind == Input then Undefined else Num(8))
    ensures st.padding == (if n.kind == Div then Num(8) else Undefined)
    ensures n.kind == Div && Truthy(Attr(n, "text")) ==>
      && Truthy(st.display)
      && (Truthy(Attr(n, "display")) ==> st.display == Attr(n, "display"))
      && (!Truthy(Attr(n, "display")) ==> st.display == Str("flex"))
      && st.alignItems == Str("center") && st.justifyContent == Str("center")
    ensures !(n.kind == Div && Truthy(Attr(n, "text"))) ==>
      st.display == Attr(n, "display") && st.alignItems == Undefined && st.justifyContent == Undefined
  {
    var base := Style("absolute",
                      Attr(n, "x"), Attr(n, "y"), Attr(n, "width"), Attr(n, "height"),
                      Attr(n, "display"), Attr(n, "background"), Attr(n, "color"), Attr(n, "border"),
                      "border-box", Undefined, Undefined, Undefined, Undefined);
    match n.kind
    case Div =>
      var centred := if Truthy(Attr(n, "text")) then CentreText(base) else base;
      var rounded := DefaultRadius(centred);
      rounded.(padding := Coalesce(rounded.padding, Num(8)))
    case Button => DefaultRadius(base)
    case Image => DefaultRadius(base)
    case Input => base
  }

  /** The style depends on the node's type and the properties in
      `StyleInputs` only: `styles`, `borderRadius`, `padding`, the id and
      the children are never read. */
  lemma StyleReadsOnlyInputs(a: Node, b: Node)
    requires a.kind == b.kind
    requires forall k :: k in StyleInputs ==> Attr(a, k) == Attr(b, k)
    ensures NodeToStyle(a) == NodeToStyle(b)
  {
    assert "x" in StyleInputs && "y" in StyleInputs && "width" in StyleInputs && "height" in StyleInputs;
    assert "display" in StyleInputs && "background" in StyleInputs && "color" in StyleInputs;
    assert "border" in StyleInputs && "text" in StyleInputs;
  }

  /** Setting or removing a property outside `StyleInputs` leaves the style as it was. */
  lemma StyleIgnoresOtherProperties(n: Node, k: string, v: Value)
    requires k !in StyleInputs
    ensures NodeToStyle(n.(attrs := n.attrs[k := v])) == NodeToStyle(n)
    ensures NodeToStyle(n.(attrs := n.attrs - {k})) == NodeToStyle(n)
  {
    forall j | j in StyleInputs ensures Attr(n.(attrs := n.attrs[k := v]), j) == Attr(n, j) {
    }
    forall j | j in StyleInputs ensures Attr(n.(attrs := n.attrs - {k}), j) == Attr(n, j) {
    }
    StyleReadsOnlyInputs(n.(attrs := n.attrs[k := v]), n);
    StyleReadsOnlyInputs(n.(attrs := n.attrs - {k}), n);
  }
}

=== FILE: style_change.dfy ===
/** The app's `handleStyleChange` (src/App.tsx): the inspector reports an
    edit as "remove the old property, write the new one" and the app applies
    it to the one node with the given id through `updateNodeById`. */
module StyleUpdate {
  import opened Common
  import opened Tree
  import opened Nodes

  /** The record the inspector passes to the app; absent fields are the
      JavaScript `undefined`. `oldVal` is carried but never read. */
  datatype StyleChange = StyleChange(
    nodeId: string,
    oldKey: Option<string>, oldVal: Option<string>,
    newKey: Option<string>, newVal: Option<string>)

  /** JavaScript truthiness of a `string | undefined` key. */
  predicate IsSet(k: Option<string>) {
    k.Some? && k.value != ""
  }

  /** Keys that are not properties of the attribute map in this model. */
  predicate IsStructural(k: string) {
    k == "id" || k == "type" || k == "children"
  }

  /** A key the rewrite acts on. */
  predicate Writable(k: Option<string>) {
    IsSet(k) && !IsStructural(k.value)
  }

  /** The value written for `newVal`. */
  function ToValue(v: Option<string>): (r: Value)
    ensures v.None? <==> r == Undefined
    ensures v.Some? ==> r == Str(v.value)
  {
    match v
    case None => Undefined
    case Some(s) => Str(s)
  }

  /** A property as JavaScript sees it: absent (None) or present, possibly
      holding `undefined`. */
  function Lookup(n: Node, k: string): Option<Value> {
    if k in n.attrs then Some(n.attrs[k]) else None
  }

  /** Whether the old key is deleted: it is set and the node's value for it
      is not `undefined`. */
  predicate Deletes(n: Node, oldKey: Option<string>) {
    Writable(oldKey) && Attr(n, oldKey.value) != Undefined
  }

  /** The updater the app passes to `updateNodeById`. */
  function Rewrite(n: Node, oldKey: Option<string>, newKey: Option<string>, newVal: Option<string>): (r: Node)
    ensures r.id == n.id && r.kind == n.kind && r.children == n.children
    ensures Writable(newKey) ==> Lookup(r, newKey.value) == Some(ToValue(newVal))
    ensures Deletes(n, oldKey) && newKey != oldKey ==> Lookup(r, oldKey.value) == None
    ensures !Deletes(n, oldKey) && Writable(oldKey) && newKey != oldKey ==>
      Lookup(r, oldKey.value) == Lookup(n, oldKey.value)
    ensures forall k :: !(Writable(newKey) && k == newKey.value) && !(Deletes(n, oldKey) && k == oldKey.value) ==>
      Lookup(r, k) == Lookup(n, k)
  {
    var afterDelete := if Deletes(n, oldKey) then n.(attrs := n.attrs - {oldKey.value}) else n;
    if Writable(newKey) then afterDelete.(attrs := afterDelete.attrs[newKey.value := ToValue(newVal)])
    else afterDelete
  }

  /** The updater as a function value, for `updateNodeById`. */
  function Updater(c: StyleChange): Node -> Node {
    n => Rewrite(n, c.oldKey, c.newKey, c.newVal)
  }

  /** `handleStyleChange`: the new forest after one reported edit. */
  function HandleStyleChange(nodes: seq<Node>, c: StyleChange): seq<Node> {
    UpdateNodeById(nodes, c.nodeId, Updater(c))
  }

  /** With no new key the rewrite is a plain removal of the old one; with
      neither key set it changes nothing. */
  lemma RewriteRemoval(n: Node, oldKey: Option<string>, newVal: Option<string>)
    ensures Deletes(n, oldKey) ==> Rewrite(n, oldKey, None, newVal) == n.(attrs := n.attrs - {oldKey.value})
    ensures !Deletes(n, oldKey) ==> Rewrite(n, oldKey, None, newVal) == n
  {
  }

  /** With the same key on both sides the rewrite is a plain value update. */
  lemma RewriteSameKey(n: Node, k: string, newVal: Option<string>)
    requires Writable(Some(k))
    ensures Rewrite(n, Some(k), Some(k), newVal) == n.(attrs := n.attrs[k := ToValue(newVal)])
  {
    var d := if Deletes(n, Some(k)) then n.attrs - {k} else n.attrs;
    assert d[k := ToValue(newVal)] == n.attrs[k := ToValue(newVal)];
  }

  /** Reporting the same edit twice has the effect of reporting it once. */
  lemma RewriteIdempotent(n: Node, oldKey: Option<string>, newKey: Option<string>, newVal: Option<string>)
    ensures Rewrite(Rewrite(n, oldKey, newKey, newVal), oldKey, newKey, newVal) == Rewrite(n, oldKey, newKey, newVal)
  {
    var r := Rewrite(n, oldKey, newKey, newVal);
    var rr := Rewrite(r, oldKey, newKey, newVal);
    if Writable(newKey) && oldKey == newKey {
      RewriteSameKey(n, newKey.value, newVal);
      RewriteSameKey(r, newKey.value, newVal);
      assert r.attrs[newKey.value := ToValue(newVal)] == r.attrs;
    } else {
      assert rr.attrs == r.attrs by {
        forall k ensures Lookup(rr, k) == Lookup(r, k) {
        }
        assert forall k :: k in rr.attrs <==> k in r.attrs by {
          forall k ensures k in rr.attrs <==> k in r.attrs {
            assert Lookup(rr, k) == Lookup(r, k);
          }
        }
      }
    }
  }

  /** Writing a property the node lacks and then removing it restores the node. */
  lemma WriteThenRemove(n: Node, k: string, v: string)
    requires Writable(Some(k)) && k !in n.attrs
    ensures Rewrite(Rewrite(n, None, Some(k), Some(v)), Some(k), None, None) == n
  {
    var r := Rewrite(n, None, Some(k), Some(v));
    assert r.attrs - {k} == n.attrs;
  }

  /** The app's updater keeps ids and children. */
  lemma UpdaterKeepsIdAndChildren(c: StyleChange)
    ensures KeepsIdAndChildren(c.nodeId, Updater(c))
  {
  }

  /** A change for an id the forest lacks leaves the forest as it was. */
  lemma ChangeForMissingNode(nodes: seq<Node>, c: StyleChange)
    requires c.nodeId !in Ids(nodes)
    ensures HandleStyleChange(nodes, c) == nodes
  {
    UpdateMissingIsIdentity(nodes, c.nodeId, Updater(c));
  }

  /** With unique ids, a change rewrites the node with the id and nothing
      else: every id is found afterwards exactly when it was found before,
      the target is the rewrite of what was found, every other node keeps
      its properties, and the ids stay unique. */
  lemma ChangeIsLocal(nodes: seq<Node>, c: StyleChange, k: string)
    requires UniqueIds(nodes)
    ensures Ids(HandleStyleChange(nodes, c)) == Ids(nodes)
    ensures UniqueIds(HandleStyleChange(nodes, c))
    ensures FindNodeById(HandleStyleChange(nodes, c), k).Some? <==> FindNodeById(nodes, k).Some?
    ensures FindNodeById(nodes, k).Some? && k == c.nodeId ==>
      FindNodeById(HandleStyleChange(nodes, c), k).value ==
        Rewrite(FindNodeById(nodes, k).value, c.oldKey, c.newKey, c.newVal)
    ensures FindNodeById(nodes, k).Some? && k != c.nodeId ==>
      SameShape(FindNodeById(HandleStyleChange(nodes, c), k).value, FindNodeById(nodes, k).value)
  {
    UpdaterKeepsIdAndChildren(c);
    FindAfterPropertyUpdate(nodes, c.nodeId, Updater(c), k);
    PropertyUpdateKeepsIds(nodes, c.nodeId, Updater(c));
    FindFound(nodes, k);
    if FindNodeById(nodes, k).Some? {
      var m := FindNodeById(nodes, k).value;
      assert Corresponds(FindNodeById(HandleStyleChange(nodes, c), k).value, m, c.nodeId, Updater(c));
      assert Updater(c)(m) == Rewrite(m, c.oldKey, c.newKey, c.newVal);
    }
  }
}

=== FILE: tree.dfy ===
/** The editor's document: a forest of visual nodes (src/types/index.ts).
    Besides its identity, kind and children, a node is a bag of JavaScript
    properties; the inspector may rewrite any of them, so they are kept in a
    map from property name to value rather than in typed fields. */
module Tree {
  import opened Common

  datatype NodeType = Div | Input | Image | Button

  /** A JavaScript property value as nodes carry it. `Undefined` is a key
      that is present but holds `undefined`; an absent key is simply not in
      the map. Numbers are integers here. */
  datatype Value = Undefined | Str(s: string) | Num(n: int)

  datatype Node = Node(id: string, kind: NodeType, attrs: map<string, Value>, children: seq<Node>)

  /** `node[key]`: what JavaScript reads for a property, present or not. */
  function Attr(n: Node, key: string): Value {
    if key in n.attrs then n.attrs[key] else Undefined
  }

  /** JavaScript truthiness of a property value. */
  predicate Truthy(v: Value) {
    match v
    case Undefined => false
    case Str(s) => s != ""
    case Num(k) => k != 0
  }

  /** `a || b`. */
  function Or(a: Value, b: Value): (r: Value)
    ensures Truthy(a) ==> r == a
    ensures !Truthy(a) ==> r == b
  {
    if Truthy(a) then a else b
  }

  /** `String(v)`, which is also what a template literal `${v}` produces. */
  function ValueToString(v: Value): string {
    match v
    case Undefined => "undefined"
    case Str(s) => s
    case Num(k) => IntToString(k)
  }

  /** The properties `src/types/index.ts` declares as required besides
      `id`, `type` and `children`: a string name and numeric geometry. */
  predicate HasRequiredFields(n: Node) {
    && Attr(n, "name").Str?
    && Attr(n, "x").Num? && Attr(n, "y").Num?
    && Attr(n, "width").Num? && Attr(n, "height").Num?
  }

  /** Every node of the forest, each before its children, siblings left to right. */
  function PreOrder(nodes: seq<Node>): seq<Node>
    decreases nodes
  {
    if |nodes| == 0 then []
    else [nodes[0]] + PreOrder(nodes[0].children) + PreOrder(nodes[1..])
  }

  /** The ids of a flat list of nodes. */
  function IdSet(p: seq<Node>): set<string> {
    set n | n in p :: n.id
  }

  /** No two entries of a flat list of nodes share an id. */
  predicate DistinctIds(p: seq<Node>) {
    forall i, j :: 0 <= i < j < |p| ==> p[i].id != p[j].id
  }

  /** The ids occurring anywhere in the forest. */
  function Ids(nodes: seq<Node>): set<string> {
    IdSet(PreOrder(nodes))
  }

  /** No id occurs twice in the forest. */
  predicate UniqueIds(nodes: seq<Node>) {
    DistinctIds(PreOrder(nodes))
  }

  lemma IdSetAppend(a: seq<Node>, b: seq<Node>)
    ensures IdSet(a + b) == IdSet(a) + IdSet(b)
  {
    forall x | x in IdSet(a + b) ensures x in IdSet(a) + IdSet(b) {
      var n :| n in a + b && n.id == x;
    }
  }

  lemma DistinctIdsAppend(a: seq<Node>, b: seq<Node>)
    ensures DistinctIds(a + b) <==> DistinctIds(a) && DistinctIds(b) && IdSet(a) !! IdSet(b)
  {
    var p := a + b;
    if DistinctIds(p) {
      assert DistinctIds(a) by {
        forall i, j | 0 <= i < j < |a| ensures a[i].id != a[j].id {
          assert p[i] == a[i] && p[j] == a[j];
        }
      }
      assert DistinctIds(b) by {
        forall i, j | 0 <= i < j < |b| ensures b[i].id != b[j].id {
          assert p[|a| + i] == b[i] && p[|a| + j] == b[j];
        }
      }
      forall i, j | 0 <= i < |a| && 0 <= j < |b| ensures a[i].id != b[j].id {
        assert p[i] == a[i] && p[|a| + j] == b[j];
      }
    }
    if DistinctIds(a) && DistinctIds(b) && IdSet(a) !! IdSet(b) {
      forall i, j | 0 <= i < j < |p| ensures p[i].id != p[j].id {
        if j < |a| {
          assert p[i] == a[i] && p[j] == a[j];
        } else if i < |a| {
          assert p[i] == a[i] && p[j] == b[j - |a|];
          assert p[i].id in IdSet(a) && p[j].id in IdSet(b);
        } else {
          assert p[i] == b[i - |a|] && p[j] == b[j - |a|];
        }
      }
    }
  }

  lemma {:induction false} PreOrderAppend(a: seq<Node>, b: seq<Node>)
    ensures PreOrder(a + b) == PreOrder(a) + PreOrder(b)
    decreases a
  {
    if |a| == 0 {
      assert a + b == b;
    } else {
      assert (a + b)[0] == a[0];
      assert (a + b)[1..] == a[1..] + b;
      PreOrderAppend(a[1..], b);
    }
  }

  /** The forest `[n] + rest` splits into n, n's subtree and the rest. */
  lemma PreOrderCons(nodes: seq<Node>)
    requires |nodes| > 0
    ensures PreOrder(nodes) == [nodes[0]] + PreOrder(nodes[0].children) + PreOrder(nodes[1..])
    ensures Ids(nodes) == {nodes[0].id} + Ids(nodes[0].children) + Ids(nodes[1..])
  {
    var n, c, r := nodes[0], PreOrder(nodes[0].children), PreOrder(nodes[1..]);
    assert PreOrder(nodes) == [n] + c + r;
    IdSetAppend([n] + c, r);
    IdSetAppend([n], c);
    IdSetSingleton(n);
    assert Ids(nodes) == IdSet([n] + c) + IdSet(r);
  }

  lemma IdSetSingleton(n: Node)
    ensures IdSet([n]) == {n.id}
  {
    assert n in [n];
  }

  lemma SingletonPreOrder(n: Node)
    ensures PreOrder([n]) == [n] + PreOrder(n.children)
    ensures Ids([n]) == {n.id} + Ids(n.children)
  {
    PreOrderCons([n]);
    assert [n][1..] == [];
  }

  /** Uniqueness of ids, told forest by forest. */
  lemma UniqueIdsCons(nodes: seq<Node>)
    requires |nodes| > 0
    ensures UniqueIds(nodes) <==>
      && nodes[0].id !in Ids(nodes[0].children)
      && nodes[0].id !in Ids(nodes[1..])
      && Ids(nodes[0].children) !! Ids(nodes[1..])
      && UniqueIds(nodes[0].children)
      && UniqueIds(nodes[1..])
  {
    var n := nodes[0];
    var c, r := PreOrder(n.children), PreOrder(nodes[1..]);
    PreOrderCons(nodes);
    DistinctIdsAppend([n] + c, r);
    DistinctIdsAppend([n], c);
    IdSetAppend([n], c);
    assert IdSet([n]) == {n.id};
    assert DistinctIds([n]);
  }
}
